=== FILE: README.md ===
# PDF outline heuristics, modelled in Dafny

This project models the heuristic core of `main.py`. The core turns the
positioned text spans that a PDF decoder reports into two results: a document
title and a heading outline. Every step is a pure function over immutable
datatypes:

- **Spans.** Spans arrive as pages, then blocks, then lines, then spans. Each
  span has its text, its font size and its bounding box, and page 0 also gives
  its height.
- **Noise predicates.** `is_decorative_text` and `is_likely_link` are written
  as character-level predicates (module `Noise`).
- **Line assembly.** `gather_spans_production` works per block. It groups
  lines by a rounded top-y and drops noise spans. It regroups the survivors by
  a rounded span-y and joins each group left to right: no separator at a gap
  of 2.8 or less, one space above it. Each resulting item gets the largest
  span size and the envelope of the span boxes (module `Lines`).
- **Title.** The title comes from the large top-of-page candidates of page 0
  (module `Title`):
  - keep the candidates within 2.0 of the largest size;
  - sort them by y and take the first group of candidates less than 20 apart;
  - read that group by x0;
  - pass the result to `clean_title`, which collapses whitespace, drops
    trailing `,;:` and halves a title made of one phrase written twice.
- **Font structure.** `analyze_font_structure` takes the most common size as
  body text. It maps up to four larger sizes to levels 1–4, and a size less
  than 0.5 below the size that opened the current level shares that level
  (module `Fonts`).
- **Headings.** `extract_headings_final` makes one ordered pass over the
  items. It skips empty and already emitted texts. It also skips the title, a
  text inside the title and a text containing it, links, and insignificant
  texts (`is_significant_heading`). A heading takes the level of the closest
  level-map key within 1.5, the earliest among equally close keys. The result
  then passes `is_high_quality_heading` (module `Headings`).
- **Unwired helpers.** The pipeline never calls these three functions, so
  they are modelled on their own:
  - `merge_fragments_by_proximity` with `conservative_merge_text_fragments`
    (module `Fragments`);
  - `merge_related_headings` (module `HeadingMerge`);
  - `detect_significant_gaps_and_split` (module `GapSplit`).

Two generic modules hold the shared machinery:

- `Text`: Python's whitespace set, `strip`, `split`, `' '.join`, `lower` and
  the `\s+` collapse.
- `Seqs`: insertion-ordered dict grouping, Python's stable sort, the "extend
  the current run while the next element qualifies" loop, subsequences and
  counting.

The rounding keys `round(y)`, `round(y, 1)` and `round(size * 2) / 2` are
parameters, bundled in `Layout.Rounding`. Grouping depends only on which
values the keys send together.

Behaviours of `main.py` worth noting:

- **"1" before ".1 Scope".** A lone "1" set before ".1 Scope" does not give
  "1.1 Scope". The span "1" has fewer than three distinct non-blank
  characters, so `is_decorative_text` drops it before assembly
  (`Scenarios.LoneDigitIsDropped`).
- **Drop-cap rule.** The rule in `conservative_merge_text_fragments` tests
  whether the next piece, as written, starts with the lower case of the
  single letter. It does not lower-case the next piece, so "T" then "The" is
  not glued (`Scenarios.DropCapIsCaseSensitive`).
- **Proximity merge.** The merge starts a run after any one-character item,
  not only after an alphabetic one (`Fragments.ShouldMerge`).
- **Quality allowlist.** The allowlist of `is_high_quality_heading` never
  changes the outcome. Every listed word has at least eight letters, but the
  list is only consulted for texts shorter than six
  (`Headings.QualityAllowlistIsDead`).
- **Gap split.** `detect_significant_gaps_and_split` can never cut a line of
  two or three spans. With one or two gaps, the upper median is the widest
  gap, and the threshold is at least three times the median
  (`GapSplit.FewSpansNeverSplit`).

## Model

| member | source | states |
|---|---|---|
| Text.CollapseSpace | main.py:118 | the whitespace collapse leaves no two adjacent whitespace characters and only plain spaces; it is empty exactly when its input is; a leading whitespace run becomes one space and any other first character is kept |
| Text.CollapseIsJoinedWords | main.py:118 | collapsing whitespace runs and then stripping gives exactly the split() words of the text, in order, joined by single spaces |
| Text.CollapseFixed | main.py:118 | text that is already single-spaced with plain spaces is unchanged by the collapse |
| Text.Strip | main.py:49 | strip() leaves no whitespace at either end and never lengthens the text |
| Text.StripIsSlice | main.py:49 | strip() returns a contiguous slice, and everything it cut from either end is whitespace |
| Text.StripNoEdge | main.py:49 | strip() is the identity on text without edge whitespace, so it is idempotent |
| Text.StripKeepsWord | main.py:232 | a whitespace-free substring survives strip() |
| Text.LowerKeepsPattern | main.py:232 | a pattern with no upper-case letters that occurs in a text also occurs in its lower() |
| Text.Words | main.py:122 | split() yields only non-empty, whitespace-free words |
| Text.WordsOfJoin | main.py:122-128 | split() inverts ' '.join on words: splitting the join gives back the same words |
| Text.JoinShape | main.py:107 | ' '.join of words is non-empty when there are words, and has no edge whitespace and single plain spaces |
| Text.JoinOnlyAddsSpaces | main.py:107 | ' '.join adds nothing but spaces: with spaces deleted it equals the concatenation with spaces deleted |
| Seqs.SortBy | main.py:82 | sorted() returns a permutation, in key order, and stable: the elements with any one key keep their input order |
| Seqs.GroupByIsGrouping | main.py:145-150 | dict-of-lists grouping: each group holds exactly the elements with its key, in input order, groups in order of first appearance with distinct keys |
| Seqs.GroupByMultiset | main.py:145-150 | grouping loses and duplicates nothing: the groups together are a permutation of the input |
| Seqs.Runs | main.py:84-100 | the run-splitting loop: the runs concatenate to the input, each is non-empty and linked, and each next run starts with an element that fails the link to the previous run's anchor |
| Seqs.FirstRun | main.py:84-103 | the first run is a linked prefix, cut just before the first element that fails the link |
| Layout.Envelope | main.py:210-213 | the box envelope contains every box, and each of its four edges is an edge of some box |
| Layout.MaxOf | main.py:209 | max() bounds every element and is one of them |
| Noise.NonSpaceChars | main.py:228 | set(t.replace(' ', '')) holds exactly the non-space characters of the text |
| Noise.IsDecorativeText | main.py:226-229 | decorative means: the whole text is three or more of `.`, `-`, `_`, `=` or whitespace; or the stripped text has at most two distinct non-space characters; or the lower-cased text contains http://, https://, www. or an @ followed on the same line by .com |
| Noise.IsLikelyLink | main.py:231-251 | a likely link is a stripped, lower-cased text containing http://, https://, www., ftp:// or mailto:, one of .com .org .net .edu .gov followed by a non-word character or the end, or an @, word characters and a dot |
| Noise.MarkerMakesLink | main.py:231-251 | a text containing http://, https://, www., ftp:// or mailto: anywhere is a likely link, whatever its case and surrounding whitespace |
| Noise.ShortTextIsDecorative | main.py:226-229 | a text whose stripped form has at most two characters is decorative |
| Lines.KeptTextIsLong | main.py:156-157 | a span that survives the noise filter has a stripped text of at least three characters |
| Lines.SubLinesPartition | main.py:166-174 | the sub-lines of a line group are the grouping of its surviving spans by rounded span-y |
| Lines.TagPagesAscending | main.py:136-174 | pages are visited in order, so the page numbers of the sub-lines never decrease |
| Lines.TagPagesOrigin | main.py:136-174 | every tagged sub-line is one of the sub-lines of the page its number names |
| Lines.PageSubLinesClean | main.py:141-174 | every span of a page's sub-lines is a span of that page that passed the filter |
| Lines.DocSubLinesClean | main.py:136-174 | every span of every sub-line comes from the page the sub-line is tagged with and passed the filter |
| Lines.GapBoundary | main.py:199-204 | two spans with a gap of at most 2.8, including exactly 2.8, are concatenated with no separator; with a larger gap, one space goes between them |
| Lines.InterleaveOnlyAddsSpaces | main.py:190-206 | the joined line with spaces deleted equals the stripped span texts concatenated with spaces deleted |
| Lines.InterleaveLength | main.py:190-204 | the joined line's length is the texts' total length plus one per wide gap, so exactly one space is added per wide gap |
| Lines.CombineTexts | main.py:190-204 | the concatenation loop adds exactly one character per gap wider than 2.8, and with spaces deleted equals the stripped span texts run together |
| Lines.InterleaveAllNarrow | main.py:199-202 | when no gap exceeds 2.8 the line is the stripped texts run together with nothing between them |
| Lines.InterleaveAllWide | main.py:199-204 | when every gap exceeds 2.8 the line is the stripped texts joined by single spaces |
| Lines.AssembleLine | main.py:177-220 | an emitted item has a stripped text longer than one character and the page it was assembled on |
| Lines.AssembledMeasures | main.py:209-219 | an emitted item's size is the largest span size and its box is the envelope of the span boxes |
| Lines.KeptLineText | main.py:188-208 | a line of surviving spans always yields an item whose text is the stripped span texts in x0 order, each after the first preceded by one space exactly when its gap to the previous span exceeds 2.8; so with spaces deleted it is those texts run together, and its length counts one space per wide gap |
| Lines.AssembledInOrder | main.py:222 | items come out in the page order of their sub-lines |
| Lines.GatherSpans | main.py:133-224 | page indices never decrease and are pages of the document; each item's text is longer than one character with no edge whitespace |
| Lines.GatherIsNoiseFree | main.py:152-174 | every item is assembled from spans of its own page, none of them decorative or a likely link |
| Title.DropTrailingPunct | main.py:120 | the result is a prefix, does not end in , ; or :, and only those characters were removed |
| Title.TrimTitle | main.py:118-120 | the trimmed title is the split() words of the input joined by single spaces, with the trailing run of , ; : dropped; it has single plain spaces, no leading whitespace and no trailing separator |
| Title.CleanTitle | main.py:114-131 | an empty title cleans to ""; the cleaned title has single plain spaces and no leading whitespace |
| Title.CleanTitleOnlyUndoubles | main.py:122-131 | clean_title departs from the trimmed title only when the title's words are some words W (two or more) written twice, and it then returns W joined by spaces |
| Title.CleanTitleUndoubles | main.py:122-129 | a title made of two or more words W written twice cleans to W joined by single spaces |
| Title.CleanTitleKeepsOddWordCount | main.py:122-131 | a title with an odd number of words is only trimmed, never halved |
| Title.DoubledIsTwice | main.py:123-128 | a word list that passes the halves test is some W written twice, with at least two words in W |
| Title.TitleCandidates | main.py:33-59 | candidates have text longer than 2, size at least 10 and no edge whitespace |
| Title.CandidateOrigin | main.py:40-59 | each candidate comes from a span of a page-0 line whose top lies within the top 40% of the page |
| Title.MaxSize | main.py:77 | the largest candidate size bounds every candidate and belongs to one |
| Title.LargeCandidates | main.py:79-80 | a candidate is kept exactly when its size is at least the largest minus 2.0 |
| Title.TitleGroup | main.py:82-103 | the title group is never empty when there are candidates; Title.TitleGroupShape states which candidates it holds |
| Title.TitleGroupShape | main.py:82-103 | the chosen group is a prefix of the kept candidates in y order; its members are kept candidates; it starts with the topmost; consecutive members are less than 20 apart; the next kept candidate is at least 20 below its last |
| Title.TitleGroupStep | main.py:87-93 | within the group each member lies less than 20 below the one before it |
| Title.TitleGroupCut | main.py:91-97 | the first candidate after the group lies at least 20 below the group's last member |
| Title.ExtractTitle | main.py:29-112 | no pages or no candidates give "", and any title has single plain spaces and no leading whitespace |
| Title.TitleReadsGroupLeftToRight | main.py:102-110 | the title is clean_title of the group's texts read in stable x0 order, a permutation of the group |
| Fonts.MostCommonUpTo | main.py:495-497 | the pick has a count at least that of every value seen and strictly more than any value met before its first occurrence |
| Fonts.MostCommon | main.py:495-497 | the body size has the largest count, and among equal counts it is the value met first |
| Fonts.BodySize | main.py:497 | an empty document gives 12; otherwise the size is present with a count at least every other size's |
| Fonts.Distinct | main.py:499-502 | the frequency table lists each size present exactly once |
| Fonts.HeadingSizes | main.py:501-506 | the candidate heading sizes are exactly the distinct sizes above body + 0.1 |
| Fonts.HeadingSizesDecreasing | main.py:506 | the candidate heading sizes are strictly decreasing |
| Fonts.TopSizes | main.py:501-512 | at most four strictly decreasing sizes above body + 0.1 are taken, and any size left out is smaller than all four taken |
| Fonts.Levels | main.py:508-518 | the level loop makes one entry per taken size, in order, with that size as key; Fonts.LevelsInvariant states the levels |
| Fonts.LevelsInvariant | main.py:508-518 | the level loop's invariant from any state: levels start at the current level or one below it and step by at most one; keys sharing a level lie within 0.5 of each other; keys on the level after an opener lie at least 0.5 below it; and the entries relate to the previous opener as the loop's test demands |
| Fonts.AnalyzeFonts | main.py:493-520 | the body is the most common size, there are at most four keys, and each key is a size of the document above body + 0.1 |
| Fonts.FontKeysDecreasing | main.py:506-518 | the level-map keys are strictly decreasing |
| Fonts.FontKeysComplete | main.py:501-512 | a heading-sized size missing from the map means four larger keys were taken |
| Fonts.FontLevels | main.py:508-518 | the largest key gets level 1; levels lie in 1..4, never decrease from any key to any smaller key, and step by at most one between neighbours; keys sharing a level lie within 0.5 of each other; every key on the level after the one a key opens lies at least 0.5 below that key |
| Fonts.LevelsShape | main.py:508-518 | the level loop run from its start over at most four strictly decreasing sizes yields that same shape |
| Fonts.LevelBound | main.py:510-518 | levels that start at 1 and step by at most one stay within 1..position+1 |
| Headings.LetterCount | main.py:551 | the count of ASCII letters is positive exactly when the text has one |
| Headings.DigitRun | main.py:541 | the leading run of decimal digits is maximal |
| Headings.IsSignificantHeading | main.py:522-555 | rejects a size of at most body + 0.1, a text without ASCII letters, a text shorter than 3, links, bullets and boilerplate prefixes; an unmarked accepted text without a trailing colon is at least one fifth letters |
| Headings.IsListedIsIn | main.py:543-545 | the section-name lookup agrees with membership in the list |
| Headings.SignificantWhenMarked | main.py:541-549 | past the gates, numbered, section-named and colon-terminated texts are accepted |
| Headings.SignificantByLetters | main.py:541-555 | past the gates, any other text is accepted exactly when at least a fifth of it is letters |
| Headings.IsHighQualityHeading | main.py:557-569 | texts shorter than 3 are rejected, and so are texts of symbols only, counting a text of symbols followed by one final newline, which `$` lets through |
| Headings.QualityAllowlistIsDead | main.py:557-569 | a text is of high quality exactly when it is at least 3 long, contains a space or is at least 6 long, and is not all symbols |
| Headings.ClosestLevel | main.py:423-431 | the match is a key within 1.5, no farther than any key, and strictly closer than every earlier key; no match means every key is 1.5 or more away |
| Headings.MatchesTitle | main.py:414 | with a non-empty title, a text matches when it equals the stripped title, occurs inside the title, or contains it |
| Headings.HeadingOf | main.py:409-438 | a heading carries the item's stripped text and page, is at least 3 long, comes from a size above body + 0.1, is not the title, not a link and significant, and has the level of a closest key within 1.5 |
| Headings.FirstByText | main.py:406-438 | the texts emitted are all new and pairwise distinct |
| Headings.FirstByTextIsSubsequence | main.py:406-438 | de-duplication keeps an order-preserving subsequence |
| Headings.FirstByTextComplete | main.py:406-438 | every text not seen before keeps a representative |
| Headings.HeadingLoop | main.py:405-438 | the loop walks the items in order, skips an empty text or one already emitted, and records a text once it yields a heading; Headings.LoopIsFirstByText states what it computes |
| Headings.LoopIsFirstByText | main.py:405-438 | the loop with its processed set equals classifying every item and keeping the first heading of each text |
| Headings.ExtractHeadings | main.py:396-445 | no items or an empty level map give []; the headings have pairwise distinct texts and all pass the quality filter |
| Headings.HeadingsAreSubsequence | main.py:405-445 | the output is an order-preserving subsequence of the items' classifications |
| Headings.HeadingOrigin | main.py:408-445 | every heading comes from an item: its stripped text and page, a size above body + 0.1, not the title, not a link, of good quality |
| Headings.NoLinkHeadings | main.py:417-418 | no heading contains http://, https://, www., ftp:// or mailto: |
| Headings.HeadingsComplete | main.py:408-445 | an item that classifies as a good-quality heading is represented by a heading of the same text |
| Headings.HeadingsInPageOrder | main.py:408-445 | items in page order give headings in page order |
| Headings.HeadingLevelsInRange | main.py:423-436 | every heading level lies in 1..4 |
| Fragments.CleanedIsClean | main.py:370 | the cleaned fragments are non-empty with no edge whitespace |
| Fragments.JoinStep | main.py:375-389 | one loop turn keeps the characters in order: the first fragment opens the list, a fragment passing the drop-cap or hyphen test is glued onto the last piece, and any other fragment becomes a new piece |
| Fragments.JoinStepClean | main.py:378-389 | one loop turn on clean pieces leaves every piece non-empty with no edge whitespace |
| Fragments.JoinFoldKeepsText | main.py:375-389 | the join loop only glues neighbouring pieces: the characters, in order, are those of the input |
| Fragments.JoinFoldClean | main.py:375-389 | the join loop over clean pieces yields clean pieces |
| Fragments.JoinCleanNoEdge | main.py:394 | joining clean pieces with spaces leaves no edge whitespace |
| Fragments.ConservativeMerge | main.py:363-394 | an empty list gives "" |
| Fragments.ConservativeMergeKeepsText | main.py:363-394 | with spaces deleted, the merge equals the cleaned fragments concatenated with spaces deleted: nothing is dropped or reordered |
| Fragments.ShouldMerge | main.py:322-332 | the next item starts less than 5 vertically from the current item's bottom and less than 10 horizontally from its right edge, and the current stripped text is one character before a next text of at most three, or at most four characters ending in - |
| Fragments.JoinFoldIsGluing | main.py:375-389 | the loop's pieces are a gluing of the fragments: each piece is consecutive fragments, each glued on because it passed the test against the piece built so far, and each new piece opens with a fragment that failed the test against the whole previous piece |
| Fragments.GluingUnique | main.py:375-389 | a list of fragments has exactly one gluing, so the join test alone fixes the pieces |
| Fragments.ConservativeMergeMany | main.py:375-394 | with three or more non-blank fragments, the merge is the loop's pieces joined by single spaces with nothing for the final strip to remove; so a space falls between two neighbouring fragments exactly where the join test fails |
| Fragments.ConservativeMergeFew | main.py:364-373 | fragments of which none, one or two are non-blank give "", that one stripped, or the two stripped and joined by one space |
| Fragments.MergeRun | main.py:341-357 | a run of one is the item itself; a longer run's text is conservative_merge_text_fragments of the run's texts; the merged item takes the page of the run's first item, a size attained by a member and at least every member's, and a box containing every member's; for a longer run the size is the members' maximum and the box their exact envelope (minimum x0 and y0, maximum x1 and y1) |
| Fragments.MergeRunKeepsText | main.py:341-343 | a merged run loses, duplicates and reorders no text: with spaces deleted, its text is the run's stripped non-blank texts run together |
| Fragments.MergeFragments | main.py:291-361 | no items give no items; one item per run, in run order: a run of one is kept as it is, a longer run gets conservative_merge_text_fragments of its texts, the run's first page, the members' maximum size and their exact envelope as box |
| Fragments.SizeRunsKeep | main.py:306-359 | the runs of one size group hold exactly its items |
| Fragments.ProximityRunsPartition | main.py:295-359 | every input item lands in exactly one run: the runs together are a permutation of the input |
| Fragments.ProximityRunsShape | main.py:297-339 | each run lies in one rounded size class and each item in it passes the proximity test against the one before it |
| GapSplit.UpperMedian | main.py:271 | the median gap is one of the gaps |
| GapSplit.MedianSplitsInHalf | main.py:271 | at most half of the gaps lie below the upper median and fewer than half lie above it |
| GapSplit.Threshold | main.py:272 | the threshold is the larger of 20 and three times the median gap |
| GapSplit.SplitAtGaps | main.py:253-289 | zero or one span gives the input as one group; otherwise the groups concatenate to the spans in stable x0 order |
| GapSplit.SplitShape | main.py:276-287 | inside a group every gap is at most the threshold, between groups the gap exceeds it, and the threshold is at least 20 and at least three times the median |
| GapSplit.NarrowGapsKeepLine | main.py:276-289 | a line whose gaps are all 20 or less stays one group |
| GapSplit.MedianOfFewIsWidest | main.py:271 | with one or two gaps the upper median is the widest |
| GapSplit.FewSpansNeverSplit | main.py:253-289 | a line of two or three spans is never cut |
| HeadingMerge.Combine | main.py:478-487 | a combined heading keeps the first heading's level and page, begins with its text, and with spaces deleted is the run's texts concatenated; a run of one is kept as it is |
| HeadingMerge.MayJoin | main.py:462-470 | a heading joins the run when it has the run opener's page and level, the opener ends in -, for, the, to or of, both texts are shorter than 15, and the heading does not start with 1., 2., 3., 4., Phase or Appendix |
| HeadingMerge.MergeRelatedHeadings | main.py:447-491 | zero or one heading is returned as is; otherwise the output is no longer than the input and non-empty for a non-empty input |
| HeadingMerge.MergedHeading | main.py:478-487 | each output heading stands for one run: a run of one unchanged, a longer run joined by single spaces with its first heading's level and page |
| HeadingMerge.MergeRunShape | main.py:453-479 | every heading absorbed into a run shares the first's page and level, the first is short and ends in -, for, the, to or of, absorbed texts are short and do not open a numbered item, phase or appendix, and the next run's first could not have joined |
| HeadingMerge.MergeKeepsText | main.py:447-491 | with spaces deleted, the output texts concatenated equal the input texts concatenated: nothing is lost, duplicated or reordered |
| HeadingMerge.NothingToMerge | main.py:453-491 | when no heading may join the one before it the output equals the input |
| Scenarios.LoneDigitIsDropped | main.py:226-229 | the span "1" is decorative and dropped by the filter |
| Scenarios.DropCapIsCaseSensitive | main.py:379-383 | "T" then "the" is glued, "T" then "The" and "T" then "he" are not |
| Scenarios.ShortWordIsLowQuality | main.py:557-569 | "Q&A" and "Intro" fail the quality filter and "Overview" passes |
| Scenarios.TrailingNewlineSymbolsAreLowQuality | main.py:566 | "!!!!!!\n" counts as symbols only, though its newline is whitespace, and fails the quality filter |
| Scenarios.RepeatedTitleIsHalved | main.py:114-131 | "Annual Report Annual Report" cleans to "Annual Report" |
| Scenarios.DanglingWordJoinsNextHeading | main.py:447-491 | "Guide to" followed by "Testing" on the same page and level becomes "Guide to Testing" |

## Left out

- PyMuPDF calls (`fitz.open`, `get_text("dict")`, `page.rect`, main.py:13, 33-37, 137-138): their output is the input datatype `Layout.Document`. An image block (no "lines" key) is `ImageBlock`.
- The command line, directory walking, JSON writing, printing and the `process_pdf_production` wiring (main.py:10-27, 571-620): these are I/O.
- The fallback loop at main.py:61-75: it collects text and then returns "" regardless, so only "no candidates gives an empty title" is modelled.
- Float rounding: `round(y)`, `round(y, 1)` and `round(size * 2) / 2` (main.py:147, 171, 299) are given key functions. Sizes and coordinates are `real`, so no binary-float effect is modelled.
- Regular expressions and Unicode case: `\w`, `[a-zA-Z]`, `\d`, `isalpha()` and `lower()` are ASCII approximations. Whitespace is Python's full `str.isspace` set.
- Missing dictionary keys: the `.get("bbox", ...)` defaults in `detect_significant_gaps_and_split` (main.py:257, 264-265) are not modelled, because every span carries a box.
- The noise filter: it appears twice in `gather_spans_production` (main.py:157 and 170). It is modelled once, because the second application sees only survivors of the first and keeps them all.
- The in-place sort of `merge_fragments_by_proximity` (main.py:295): mutating the caller's list is not modelled. The merge works on its own sorted copy.
- Rendering a level as "H1" to "H4" happens in the excluded output loop (main.py:587-593), so headings keep the integer level.
- Fragments.ConservativeMerge: its contract states only the empty case; Fragments.ConservativeMergeFew states the result for at most two non-blank fragments, Fragments.ConservativeMergeMany with Fragments.JoinFoldIsGluing and Fragments.GluingUnique state it for three or more, and Fragments.ConservativeMergeKeepsText states that no text is lost.
- Title.ExtractTitle: its contract does not state the group selection; Title.TitleGroupShape and Title.TitleReadsGroupLeftToRight state it.
- HeadingMerge.MergeRelatedHeadings: its contract states only the length bounds; HeadingMerge.MergedHeading, HeadingMerge.MergeRunShape and HeadingMerge.MergeKeepsText state the rest.

=== FILE: fonts.dfy ===
/** The font structure of a document (analyze_font_structure,
    main.py:493-520): the most common size is body text, and up to four
    larger sizes, largest first, are mapped to outline levels, a size less
    than 0.5 below the size that opened the current level sharing it. */
module Fonts {
  import opened Seqs
  import opened Layout

  /** How often x occurs: Counter(xs)[x]. */
  function Count(xs: seq<real>, x: real): nat {
    multiset(xs)[x]
  }

  /** The value Counter(xs[..n]).most_common(1) would pick if every count
      were taken over all of xs: a value with the largest count, the one
      met first among equals. */
  function MostCommonUpTo(xs: seq<real>, n: nat): (b: real)
    requires 1 <= n <= |xs|
    ensures b in xs[..n]
    ensures forall i :: 0 <= i < n ==> Count(xs, xs[i]) <= Count(xs, b)
    ensures forall i :: 0 <= i < n && b !in xs[..i + 1] ==> Count(xs, xs[i]) < Count(xs, b)
  {
    if n == 1 then xs[0]
    else
      var b := MostCommonUpTo(xs, n - 1);
      var r := if Count(xs, xs[n - 1]) > Count(xs, b) then xs[n - 1] else b;
      MostCommonStep(xs, n, b, r);
      MostCommonStepFirst(xs, n, b, r);
      r
  }

  /** One step of the scan: keeping the best so far unless the next value
      occurs strictly more often keeps a value occurring at least as often
      as every value seen. */
  lemma MostCommonStep(xs: seq<real>, n: nat, b: real, r: real)
    requires 2 <= n <= |xs|
    requires b in xs[..n - 1]
    requires forall i :: 0 <= i < n - 1 ==> Count(xs, xs[i]) <= Count(xs, b)
    requires r == if Count(xs, xs[n - 1]) > Count(xs, b) then xs[n - 1] else b
    ensures r in xs[..n]
    ensures forall i :: 0 <= i < n ==> Count(xs, xs[i]) <= Count(xs, r)
  {
    var k :| 0 <= k < n - 1 && xs[..n - 1][k] == b;
    assert xs[..n][k] == b && xs[..n][n - 1] == xs[n - 1];
  }

  /** The same step keeps the first of the values occurring most often. */
  lemma MostCommonStepFirst(xs: seq<real>, n: nat, b: real, r: real)
    requires 2 <= n <= |xs|
    requires b in xs[..n - 1]
    requires forall i :: 0 <= i < n - 1 ==> Count(xs, xs[i]) <= Count(xs, b)
    requires forall i :: 0 <= i < n - 1 && b !in xs[..i + 1] ==> Count(xs, xs[i]) < Count(xs, b)
    requires r == if Count(xs, xs[n - 1]) > Count(xs, b) then xs[n - 1] else b
    ensures forall i :: 0 <= i < n && r !in xs[..i + 1] ==> Count(xs, xs[i]) < Count(xs, r)
  {
    var k :| 0 <= k < n - 1 && xs[..n - 1][k] == b;
    assert xs[..n][k] == b && xs[..n][n - 1] == xs[n - 1];
    forall i | 0 <= i < n && r !in xs[..i + 1]
      ensures Count(xs, xs[i]) < Count(xs, r)
    {
      if i < n - 1 && r == b {
        assert Count(xs, xs[i]) < Count(xs, b);
      }
    }
  }

  /** Counter(xs).most_common(1)[0][0]: ties go to the value met first,
      because most_common sorts stably and a Counter keeps first-occurrence
      order. The result occurs in xs, no value occurs more often, and every
      value met before it occurs strictly less often. */
  function MostCommon(xs: seq<real>): (b: real)
    requires xs != []
    ensures b in xs
    ensures forall x :: x in xs ==> Count(xs, x) <= Count(xs, b)
    ensures forall i :: 0 <= i < |xs| && b !in xs[..i + 1] ==> Count(xs, xs[i]) < Count(xs, b)
  {
    assert xs[..|xs|] == xs;
    MostCommonUpTo(xs, |xs|)
  }

  /** main.py:497: the body size, 12 when there is no span at all. */
  function BodySize(sizes: seq<real>): (b: real)
    ensures sizes == [] ==> b == 12.0
    ensures sizes != [] ==> b in sizes && forall x :: x in sizes ==> Count(sizes, x) <= Count(sizes, b)
  {
    if sizes == [] then 12.0 else MostCommon(sizes)
  }

  /** The distinct values of xs. */
  function Distinct(xs: seq<real>): (ds: seq<real>)
    ensures forall x :: x in ds <==> x in xs
    ensures forall x :: multiset(ds)[x] <= 1
  {
    if xs == [] then []
    else
      var rest := Distinct(xs[1..]);
      if xs[0] in rest then rest else [xs[0]] + rest
  }

  function Desc(x: real): SortKey { (-x, 0.0) }

  /** Strictly decreasing. */
  ghost predicate Decreasing(xs: seq<real>) {
    forall i, j :: 0 <= i < j < |xs| ==> xs[i] > xs[j]
  }

  lemma TwoOccurrences(xs: seq<real>, i: int, j: int)
    requires 0 <= i < j < |xs| && xs[i] == xs[j]
    ensures multiset(xs)[xs[i]] >= 2
  {
    assert xs == xs[..j] + [xs[j]] + xs[j + 1..];
    assert xs[..j][i] == xs[i];
    assert multiset(xs[..j])[xs[i]] >= 1;
  }

  /** A value-descending order of values without repeats is strictly
      decreasing. */
  lemma SortedDistinctDecreasing(ds: seq<real>)
    requires forall x :: multiset(ds)[x] <= 1
    ensures Decreasing(SortBy(ds, Desc))
  {
    var r := SortBy(ds, Desc);
    forall i, j | 0 <= i < j < |r|
      ensures r[i] > r[j]
    {
      assert KeyLe(Desc(r[i]), Desc(r[j]));
      if r[i] == r[j] {
        TwoOccurrences(r, i, j);
      }
    }
  }

  /** main.py:499-507: the distinct sizes above body + 0.1, largest
      first. */
  function HeadingSizes(sizes: seq<real>, body: real): (hs: seq<real>)
    ensures forall x :: x in hs <==> x in sizes && x > body + 0.1
  {
    var r := SortBy(Distinct(Filter(sizes, (x: real) => x > body + 0.1)), Desc);
    assert forall x :: x in r <==> x in multiset(r);
    r
  }

  lemma HeadingSizesDecreasing(sizes: seq<real>, body: real)
    ensures Decreasing(HeadingSizes(sizes, body))
  {
    SortedDistinctDecreasing(Distinct(Filter(sizes, (x: real) => x > body + 0.1)));
  }

  /** One entry of the level map, in insertion order. */
  datatype LevelEntry = LevelEntry(size: real, level: int)

  /** The loop of main.py:513-518 from a given state: `prev` is the size
      that opened the current level and `level` the next level to hand
      out. */
  function Levels(sizes: seq<real>, prev: Option<real>, level: int): (r: seq<LevelEntry>)
    ensures |r| == |sizes|
    ensures forall i :: 0 <= i < |r| ==> r[i].size == sizes[i]
  {
    if sizes == [] then []
    else if prev.None? || prev.value - sizes[0] >= 0.5 then
      [LevelEntry(sizes[0], level)] + Levels(sizes[1..], Some(sizes[0]), level + 1)
    else
      [LevelEntry(sizes[0], level - 1)] + Levels(sizes[1..], prev, level)
  }

  ghost predicate NonIncreasing(xs: seq<real>) {
    forall i, j :: 0 <= i < j < |xs| ==> xs[i] >= xs[j]
  }

  /** Levels rise by at most one from each entry to the next, never fall,
      and do not start below the first. */
  ghost predicate Steps(r: seq<LevelEntry>) {
    && (forall i :: 0 <= i < |r| - 1 ==> r[i].level <= r[i + 1].level <= r[i].level + 1)
    && (forall j :: 0 <= j < |r| ==> r[0].level <= r[j].level)
  }

  /** Entries on one level lie within 0.5 of each other. */
  ghost predicate SameLevelClose(r: seq<LevelEntry>) {
    forall i, j :: 0 <= i < j < |r| && r[i].level == r[j].level ==> r[i].size - r[j].size < 0.5
  }

  /** Entry i opens its level. */
  predicate Opens(r: seq<LevelEntry>, i: int)
    requires 0 <= i < |r|
  {
    i == 0 || r[i - 1].level < r[i].level
  }

  /** Every entry on the level after the one entry i opens lies at least
      0.5 below entry i. */
  ghost predicate NextLevelFarFrom(r: seq<LevelEntry>, i: int)
    requires 0 <= i < |r|
  {
    forall j :: i < j < |r| && r[j].level == r[i].level + 1 ==> r[i].size - r[j].size >= 0.5
  }

  /** The invariant of the level loop, from the state (`prev`, `level`):
      levels step by at most one, entries sharing a level are within 0.5,
      an entry that opens a level is at least 0.5 above the whole next
      level, the first entry keeps the level `prev` opened or takes the
      next one, and the entries continuing the level `prev` opened lie
      within 0.5 below it while those on the next level lie at least 0.5
      below it. */
  ghost predicate LoopInvariant(r: seq<LevelEntry>, prev: Option<real>, level: int) {
    && Steps(r)
    && SameLevelClose(r)
    && (forall i :: 0 < i < |r| && Opens(r, i) ==> NextLevelFarFrom(r, i))
    && (r != [] && r[0].level == level ==> NextLevelFarFrom(r, 0))
    && (r != [] && prev.None? ==> r[0].level == level)
    && (r != [] ==> level - 1 <= r[0].level <= level)
    && (prev.Some? ==> forall j :: 0 <= j < |r| && r[j].level == level - 1 ==> prev.value - r[j].size < 0.5)
    && (prev.Some? ==> forall j :: 0 <= j < |r| && r[j].level == level ==> prev.value - r[j].size >= 0.5)
  }

  lemma ConsSteps(e: LevelEntry, rest: seq<LevelEntry>)
    requires Steps(rest)
    requires rest != [] ==> e.level <= rest[0].level <= e.level + 1
    ensures Steps([e] + rest)
  {
    var r := [e] + rest;
    forall j | 0 <= j < |r|
      ensures r[0].level <= r[j].level
    {
      if j > 0 {
        assert r[j] == rest[j - 1];
      }
    }
    forall i | 0 <= i < |r| - 1
      ensures r[i].level <= r[i + 1].level <= r[i].level + 1
    {
      if i > 0 {
        assert r[i] == rest[i - 1] && r[i + 1] == rest[i];
      }
    }
  }

  lemma ConsSameLevelClose(e: LevelEntry, rest: seq<LevelEntry>)
    requires SameLevelClose(rest)
    requires forall j :: 0 <= j < |rest| && rest[j].level == e.level ==> e.size - rest[j].size < 0.5
    ensures SameLevelClose([e] + rest)
  {
    var r := [e] + rest;
    forall i, j | 0 <= i < j < |r| && r[i].level == r[j].level
      ensures r[i].size - r[j].size < 0.5
    {
      assert r[j] == rest[j - 1];
      if i > 0 {
        assert r[i] == rest[i - 1];
      }
    }
  }

  lemma ConsNextLevelFar(e: LevelEntry, rest: seq<LevelEntry>)
    requires forall i :: 0 < i < |rest| && Opens(rest, i) ==> NextLevelFarFrom(rest, i)
    requires rest != [] && rest[0].level == e.level + 1 ==> NextLevelFarFrom(rest, 0)
    requires rest != [] ==> rest[0].level <= e.level + 1
    ensures forall i :: 0 < i < |[e] + rest| && Opens([e] + rest, i) ==> NextLevelFarFrom([e] + rest, i)
  {
    var r := [e] + rest;
    forall i | 0 < i < |r| && Opens(r, i)
      ensures NextLevelFarFrom(r, i)
    {
      assert r[i] == rest[i - 1];
      if i > 1 {
        assert r[i - 1] == rest[i - 2];
        assert Opens(rest, i - 1);
      }
      assert NextLevelFarFrom(rest, i - 1);
      forall j | i < j < |r| && r[j].level == r[i].level + 1
        ensures r[i].size - r[j].size >= 0.5
      {
        assert r[j] == rest[j - 1];
      }
    }
  }

  /** Opening a new level at the head keeps the invariant. */
  lemma OpenStep(sizes: seq<real>, prev: Option<real>, level: int)
    requires sizes != []
    requires prev.None? || prev.value - sizes[0] >= 0.5
    requires forall j :: 0 <= j < |sizes[1..]| ==> sizes[1..][j] <= sizes[0]
    requires LoopInvariant(Levels(sizes[1..], Some(sizes[0]), level + 1), Some(sizes[0]), level + 1)
    ensures LoopInvariant(Levels(sizes, prev, level), prev, level)
  {
    var s0 := sizes[0];
    var rest := Levels(sizes[1..], Some(s0), level + 1);
    assert Levels(sizes, prev, level) == [LevelEntry(s0, level)] + rest;
    forall j | 0 <= j < |rest|
      ensures rest[j].size <= s0
    {
      assert rest[j].size == sizes[1..][j];
    }
    OpenCons(s0, rest, prev, level);
  }

  lemma OpenCons(s0: real, rest: seq<LevelEntry>, prev: Option<real>, level: int)
    requires LoopInvariant(rest, Some(s0), level + 1)
    requires forall j :: 0 <= j < |rest| ==> rest[j].size <= s0
    requires prev.None? || prev.value - s0 >= 0.5
    ensures LoopInvariant([LevelEntry(s0, level)] + rest, prev, level)
  {
    var r := [LevelEntry(s0, level)] + rest;
    assert forall j :: 0 <= j < |rest| && rest[j].level == level ==> s0 - rest[j].size < 0.5;
    ConsSteps(LevelEntry(s0, level), rest);
    ConsSameLevelClose(LevelEntry(s0, level), rest);
    ConsNextLevelFar(LevelEntry(s0, level), rest);
    OpenPrev(s0, rest, prev, level);
    assert Steps(r) && SameLevelClose(r);
  }

  /** A level opened at the head lies at least 0.5 above the whole next
      level, and at least 0.5 below the size that opened the level
      before. */
  lemma OpenPrev(s0: real, rest: seq<LevelEntry>, prev: Option<real>, level: int)
    requires forall j :: 0 <= j < |rest| && rest[j].level == level + 1 ==> s0 - rest[j].size >= 0.5
    requires forall j :: 0 <= j < |rest| && rest[j].level == level ==> s0 - rest[j].size < 0.5
    requires forall j :: 0 <= j < |rest| ==> rest[j].size <= s0
    requires prev.None? || prev.value - s0 >= 0.5
    ensures var r := [LevelEntry(s0, level)] + rest;
            && NextLevelFarFrom(r, 0)
            && (prev.Some? ==> forall j :: 0 <= j < |r| && r[j].level == level ==> prev.value - r[j].size >= 0.5)
  {
    var r := [LevelEntry(s0, level)] + rest;
    forall j | 0 < j < |r| && r[j].level == level + 1
      ensures s0 - r[j].size >= 0.5
    {
      assert r[j] == rest[j - 1];
    }
    if prev.Some? {
      forall j | 0 <= j < |r| && r[j].level == level
        ensures prev.value - r[j].size >= 0.5
      {
        if j > 0 {
          assert r[j] == rest[j - 1];
        }
      }
    }
  }

  /** Keeping the current level at the head keeps the invariant. */
  lemma ContinueStep(sizes: seq<real>, p: real, level: int)
    requires sizes != [] && sizes[0] <= p && p - sizes[0] < 0.5
    requires forall j :: 0 <= j < |sizes[1..]| ==> sizes[1..][j] <= sizes[0]
    requires LoopInvariant(Levels(sizes[1..], Some(p), level), Some(p), level)
    ensures LoopInvariant(Levels(sizes, Some(p), level), Some(p), level)
  {
    var s0 := sizes[0];
    var rest := Levels(sizes[1..], Some(p), level);
    assert Levels(sizes, Some(p), level) == [LevelEntry(s0, level - 1)] + rest;
    forall j | 0 <= j < |rest|
      ensures rest[j].size <= s0
    {
      assert rest[j].size == sizes[1..][j];
    }
    ContinueCons(s0, rest, p, level);
  }

  lemma ContinueCons(s0: real, rest: seq<LevelEntry>, p: real, level: int)
    requires LoopInvariant(rest, Some(p), level)
    requires forall j :: 0 <= j < |rest| ==> rest[j].size <= s0
    requires s0 <= p && p - s0 < 0.5
    ensures LoopInvariant([LevelEntry(s0, level - 1)] + rest, Some(p), level)
  {
    var r := [LevelEntry(s0, level - 1)] + rest;
    ConsSteps(LevelEntry(s0, level - 1), rest);
    ConsSameLevelClose(LevelEntry(s0, level - 1), rest);
    ConsNextLevelFar(LevelEntry(s0, level - 1), rest);
    ContinuePrev(s0, rest, p, level);
    assert Steps(r) && SameLevelClose(r);
    assert r[0].level == level - 1;
  }

  /** The level `p` opened, continued at the head, keeps its entries within
      0.5 below `p` and the next level's at least 0.5 below it. */
  lemma ContinuePrev(s0: real, rest: seq<LevelEntry>, p: real, level: int)
    requires forall j :: 0 <= j < |rest| && rest[j].level == level - 1 ==> p - rest[j].size < 0.5
    requires forall j :: 0 <= j < |rest| && rest[j].level == level ==> p - rest[j].size >= 0.5
    requires p - s0 < 0.5
    ensures var r := [LevelEntry(s0, level - 1)] + rest;
            && (forall j :: 0 <= j < |r| && r[j].level == level - 1 ==> p - r[j].size < 0.5)
            && (forall j :: 0 <= j < |r| && r[j].level == level ==> p - r[j].size >= 0.5)
  {
    var r := [LevelEntry(s0, level - 1)] + rest;
    forall j | 0 <= j < |r| && r[j].level == level - 1
      ensures p - r[j].size < 0.5
    {
      if j > 0 {
        assert r[j] == rest[j - 1];
      }
    }
    forall j | 0 <= j < |r| && r[j].level == level
      ensures p - r[j].size >= 0.5
    {
      assert r[j] == rest[j - 1];
    }
  }

  /** The level loop keeps its invariant on sizes that never increase and
      start no higher than the size that opened the current level. */
  lemma {:induction false} LevelsInvariant(sizes: seq<real>, prev: Option<real>, level: int)
    requires NonIncreasing(sizes)
    requires prev.Some? && sizes != [] ==> prev.value >= sizes[0]
    ensures LoopInvariant(Levels(sizes, prev, level), prev, level)
    decreases |sizes|
  {
    if sizes == [] {
      return;
    }
    var s0 := sizes[0];
    var tail := sizes[1..];
    TailNonIncreasing(sizes);
    if prev.None? || prev.value - s0 >= 0.5 {
      LevelsInvariant(tail, Some(s0), level + 1);
      OpenStep(sizes, prev, level);
    } else {
      LevelsInvariant(tail, prev, level);
      ContinueStep(sizes, prev.value, level);
    }
  }

  /** The tail of a non-increasing sequence is non-increasing and lies at
      or below its head. */
  lemma TailNonIncreasing(sizes: seq<real>)
    requires NonIncreasing(sizes) && sizes != []
    ensures NonIncreasing(sizes[1..])
    ensures forall j :: 0 <= j < |sizes[1..]| ==> sizes[1..][j] <= sizes[0]
  {
    var tail := sizes[1..];
    forall i, j | 0 <= i < j < |tail|
      ensures tail[i] >= tail[j]
    {
      assert tail[i] == sizes[i + 1] && tail[j] == sizes[j + 1];
    }
    forall j | 0 <= j < |tail|
      ensures tail[j] <= sizes[0]
    {
      assert tail[j] == sizes[j + 1];
    }
  }

  /** The result of analyze_font_structure: the level map in insertion
      order and the body size. */
  datatype FontStructure = FontStructure(levels: seq<LevelEntry>, body: real)

  /** main.py:499-513: the at most four largest distinct sizes above
      body + 0.1, largest first; a heading size left out is smaller than
      all four taken. */
  function TopSizes(sizes: seq<real>, body: real): (top: seq<real>)
    ensures |top| <= 4
    ensures Decreasing(top)
    ensures forall x :: x in top ==> x in sizes && x > body + 0.1
    ensures forall x :: x in sizes && x > body + 0.1 && x !in top ==>
              |top| == 4 && forall i :: 0 <= i < 4 ==> top[i] > x
  {
    var hs := HeadingSizes(sizes, body);
    HeadingSizesDecreasing(sizes, body);
    if |hs| <= 4 then hs
    else
      var top := hs[..4];
      assert forall i :: 0 <= i < 4 ==> top[i] == hs[i];
      assert forall x :: x in top ==> x in hs;
      assert forall x :: x in sizes && x > body + 0.1 && x !in top ==>
               forall i :: 0 <= i < 4 ==> top[i] > x by {
        forall x, i | x in sizes && x > body + 0.1 && x !in top && 0 <= i < 4
          ensures top[i] > x
        {
          var k :| 0 <= k < |hs| && hs[k] == x;
          if k < 4 {
            assert false;
          }
        }
      }
      top
  }

  /** analyze_font_structure (main.py:493-520) over the sizes of the
      gathered items: the body size is the most common size (12 with no
      item), and the level map's keys are the at most four largest sizes
      above body + 0.1, strictly decreasing. */
  function AnalyzeFonts(items: seq<Item>): (fs: FontStructure)
    ensures fs.body == BodySize(ItemSizes(items))
    ensures |fs.levels| <= 4
    ensures forall i :: 0 <= i < |fs.levels| ==>
              fs.levels[i].size in ItemSizes(items) && fs.levels[i].size > fs.body + 0.1
  {
    var sizes := ItemSizes(items);
    var body := BodySize(sizes);
    var levels := Levels(TopSizes(sizes, body), None, 1);
    LevelKeys(sizes, body);
    FontStructure(levels, body)
  }

  /** The level map has at most four keys, each a heading size. */
  lemma LevelKeys(sizes: seq<real>, body: real)
    ensures var r := Levels(TopSizes(sizes, body), None, 1);
            && |r| <= 4
            && forall i :: 0 <= i < |r| ==> r[i].size in sizes && r[i].size > body + 0.1
  {
    var top := TopSizes(sizes, body);
    var r := Levels(top, None, 1);
    forall i | 0 <= i < |r|
      ensures r[i].size in sizes && r[i].size > body + 0.1
    {
      assert r[i].size == top[i] && top[i] in top;
    }
  }

  /** The keys are strictly decreasing, so each occurs once. */
  lemma FontKeysDecreasing(items: seq<Item>)
    ensures var r := AnalyzeFonts(items).levels;
            forall i, j :: 0 <= i < j < |r| ==> r[i].size > r[j].size
  {
    var sizes := ItemSizes(items);
    var top := TopSizes(sizes, BodySize(sizes));
    assert AnalyzeFonts(items).levels == Levels(top, None, 1);
  }

  /** A size above body + 0.1 is left out of the level map only when four
      larger sizes fill it. */
  lemma FontKeysComplete(items: seq<Item>, x: real)
    requires x in ItemSizes(items) && x > AnalyzeFonts(items).body + 0.1
    requires KeyMissing(AnalyzeFonts(items).levels, x)
    ensures |AnalyzeFonts(items).levels| == 4
    ensures forall i :: 0 <= i < 4 ==> AnalyzeFonts(items).levels[i].size > x
  {
    var sizes := ItemSizes(items);
    var top := TopSizes(sizes, BodySize(sizes));
    var r := Levels(top, None, 1);
    assert AnalyzeFonts(items).levels == r;
    forall k | 0 <= k < |top|
      ensures top[k] != x
    {
      assert r[k].size == top[k];
    }
  }

  /** No entry of the level map has this size as key. */
  predicate KeyMissing(levels: seq<LevelEntry>, x: real) {
    forall i :: 0 <= i < |levels| ==> levels[i].size != x
  }

  /** The shape of a level map: the largest size gets level 1, each next
      size keeps the level or takes the next one, so levels never drop and
      lie in 1..4; two sizes share a level only when within 0.5 of each
      other, and a size on the level after the one a size opened lies at
      least 0.5 below it. */
  ghost predicate LevelShape(r: seq<LevelEntry>) {
    && (r != [] ==> r[0].level == 1)
    && (forall i :: 0 <= i < |r| ==> 1 <= r[i].level <= i + 1 <= 4)
    && (forall i :: 0 <= i < |r| - 1 ==> r[i].level <= r[i + 1].level <= r[i].level + 1)
    && (forall i, j :: 0 <= i < j < |r| ==> r[i].level <= r[j].level)
    && SameLevelClose(r)
    && (forall i :: 0 <= i < |r| && Opens(r, i) ==> NextLevelFarFrom(r, i))
  }

  /** The levels of the font structure have that shape. */
  lemma FontLevels(items: seq<Item>)
    ensures LevelShape(AnalyzeFonts(items).levels)
  {
    var sizes := ItemSizes(items);
    var fs := AnalyzeFonts(items);
    var top := TopSizes(sizes, fs.body);
    assert fs.levels == Levels(top, None, 1);
    LevelsShape(top);
  }

  /** The level loop run from its start on at most four decreasing sizes. */
  lemma LevelsShape(top: seq<real>)
    requires |top| <= 4 && Decreasing(top)
    ensures LevelShape(Levels(top, None, 1))
  {
    LevelsInvariant(top, None, 1);
    ShapeOfInvariant(Levels(top, None, 1));
  }

  /** The loop invariant at the start state, on at most four entries,
      gives the shape. */
  lemma ShapeOfInvariant(r: seq<LevelEntry>)
    requires |r| <= 4 && LoopInvariant(r, None, 1)
    ensures LevelShape(r)
  {
    LevelBound(r);
    StepsMonotone(r);
  }

  /** Levels that never drop from one key to the next never drop at all. */
  lemma {:induction false} StepsMonotone(r: seq<LevelEntry>)
    requires forall i :: 0 <= i < |r| - 1 ==> r[i].level <= r[i + 1].level
    ensures forall i, j :: 0 <= i < j < |r| ==> r[i].level <= r[j].level
  {
    if |r| > 1 {
      var q := r[..|r| - 1];
      assert forall i :: 0 <= i < |q| ==> q[i] == r[i];
      StepsMonotone(q);
      forall i, j | 0 <= i < j < |r|
        ensures r[i].level <= r[j].level
      {
        if j < |r| - 1 {
          assert r[i] == q[i] && r[j] == q[j];
        } else if i < j - 1 {
          assert r[i] == q[i] && r[j - 1] == q[j - 1];
        }
      }
    }
  }

  lemma {:induction false} LevelBound(r: seq<LevelEntry>)
    requires r != [] ==> r[0].level == 1
    requires forall i :: 0 <= i < |r| - 1 ==> r[i].level <= r[i + 1].level <= r[i].level + 1
    ensures forall i :: 0 <= i < |r| ==> 1 <= r[i].level <= i + 1
  {
    if |r| > 1 {
      var q := r[..|r| - 1];
      assert forall i :: 0 <= i < |q| ==> q[i] == r[i];
      LevelBound(q);
      assert r[|r| - 2].level <= r[|r| - 1].level <= r[|r| - 2].level + 1;
    }
  }
}

=== FILE: fragments.dfy ===
/** Fragment merging (merge_fragments_by_proximity and
    conservative_merge_text_fragments, main.py:291-394). Nothing in the
    pipeline calls these; they are modelled on their own. Items are read in
    (y0, x0) order, grouped by rounded size, and within a size group each
    run of items chained by the proximity test becomes one item. */
module Fragments {
  import opened Text
  import opened Seqs
  import opened Layout

  // ---------------------------------------------------------------------
  // conservative_merge_text_fragments

  /** [t.strip() for t in texts if t.strip()] */
  function Cleaned(texts: seq<String>): (cs: seq<String>)
    ensures |cs| <= |texts|
  {
    if texts == [] then []
    else (if Strip(texts[0]) != [] then [Strip(texts[0])] else []) + Cleaned(texts[1..])
  }

  /** Every piece is non-empty and has no whitespace at either end. */
  ghost predicate CleanPieces(ws: seq<String>) {
    forall i :: 0 <= i < |ws| ==> ws[i] != [] && NoEdgeSpace(ws[i])
  }

  lemma {:induction false} CleanedIsClean(texts: seq<String>)
    ensures CleanPieces(Cleaned(texts))
  {
    if texts != [] {
      CleanedIsClean(texts[1..]);
    }
  }

  /** main.py:379-383: a single letter followed by a short piece that
      starts with its lower-case form, or a short piece ending in a hyphen
      followed by a short piece, is joined without a space. */
  predicate JoinsWithoutSpace(prev: String, text: String) {
    || (|prev| == 1 && IsAsciiLetter(prev[0]) && |text| <= 6 && StartsWith(text, [LowerChar(prev[0])]))
    || (EndsWith(prev, "-") && |prev| <= 4 && |text| <= 6)
  }

  /** One turn of the loop of main.py:373-389: the next piece either
      extends the last one or is appended after it. */
  function JoinStep(result: seq<String>, text: String): (r: seq<String>)
    ensures Flatten(r) == Flatten(result) + text
    ensures result == [] ==> r == [text]
    ensures result != [] && JoinsWithoutSpace(result[|result| - 1], text) ==>
              r == result[..|result| - 1] + [result[|result| - 1] + text]
    ensures result != [] && !JoinsWithoutSpace(result[|result| - 1], text) ==> r == result + [text]
  {
    if result == [] then
      assert Flatten([text]) == text + Flatten([]);
      [text]
    else
      var n := |result| - 1;
      var prev := result[n];
      assert result == result[..n] + [prev];
      FlattenAppend(result[..n], prev);
      if JoinsWithoutSpace(prev, text) then
        FlattenAppend(result[..n], prev + text);
        var r := result[..n] + [prev + text];
        assert forall i :: 0 <= i < n ==> r[i] == result[i];
        r
      else
        FlattenAppend(result, text);
        result + [text]
  }

  /** A loop turn on clean pieces and a clean piece leaves clean pieces. */
  lemma JoinStepClean(result: seq<String>, text: String)
    requires CleanPieces(result) && text != [] && NoEdgeSpace(text)
    ensures CleanPieces(JoinStep(result, text))
  {
    if result == [] {
      assert JoinStep(result, text) == [text];
    } else {
      var n := |result| - 1;
      var prev := result[n];
      if JoinsWithoutSpace(prev, text) {
        assert JoinStep(result, text) == result[..n] + [prev + text];
        GlueClean(prev, text);
        CleanReplaceLast(result, prev + text);
      } else {
        assert JoinStep(result, text) == result + [text];
        CleanAppend(result, text);
      }
    }
  }

  /** Two clean pieces glued together make a clean piece. */
  lemma GlueClean(a: String, b: String)
    requires a != [] && NoEdgeSpace(a) && b != [] && NoEdgeSpace(b)
    ensures a + b != [] && NoEdgeSpace(a + b)
  {
    assert (a + b)[0] == a[0] && (a + b)[|a + b| - 1] == b[|b| - 1];
  }

  lemma CleanAppend(ws: seq<String>, w: String)
    requires CleanPieces(ws) && w != [] && NoEdgeSpace(w)
    ensures CleanPieces(ws + [w])
  {
    var r := ws + [w];
    forall i | 0 <= i < |r|
      ensures r[i] != [] && NoEdgeSpace(r[i])
    {
      if i < |ws| {
        assert r[i] == ws[i];
      }
    }
  }

  lemma CleanReplaceLast(ws: seq<String>, w: String)
    requires CleanPieces(ws) && ws != [] && w != [] && NoEdgeSpace(w)
    ensures CleanPieces(ws[..|ws| - 1] + [w])
  {
    var n := |ws| - 1;
    var r := ws[..n] + [w];
    forall i | 0 <= i < |r|
      ensures r[i] != [] && NoEdgeSpace(r[i])
    {
      if i < n {
        assert r[i] == ws[i];
      }
    }
  }

  function JoinFold(result: seq<String>, texts: seq<String>): (r: seq<String>)
    decreases |texts|
  {
    if texts == [] then result else JoinFold(JoinStep(result, texts[0]), texts[1..])
  }

  /** One turn of the loop, then the rest. */
  lemma FoldTurn(ps: seq<String>, texts: seq<String>, qs: seq<String>)
    requires texts != [] && JoinStep(ps, texts[0]) == qs
    ensures JoinFold(ps, texts) == JoinFold(qs, texts[1..])
  {
  }

  /** The loop only ever glues neighbouring pieces: the characters, in
      order, are those of the pieces. */
  lemma {:induction false} JoinFoldKeepsText(result: seq<String>, texts: seq<String>)
    ensures Flatten(JoinFold(result, texts)) == Flatten(result) + Flatten(texts)
    decreases |texts|
  {
    if texts == [] {
      assert Flatten(result) + [] == Flatten(result);
    } else {
      var next := JoinStep(result, texts[0]);
      FoldTurn(result, texts, next);
      JoinFoldKeepsText(next, texts[1..]);
      assert Flatten(texts) == texts[0] + Flatten(texts[1..]);
      Chain(Flatten(result), texts[0], Flatten(texts[1..]), Flatten(next), Flatten(JoinFold(next, texts[1..])));
    }
  }

  lemma Chain(a: String, b: String, c: String, n: String, f: String)
    requires n == a + b && f == n + c
    ensures f == a + (b + c)
  {
  }

  /** Clean pieces stay clean through the loop. */
  lemma {:induction false} JoinFoldClean(result: seq<String>, texts: seq<String>)
    requires CleanPieces(result) && CleanPieces(texts)
    ensures CleanPieces(JoinFold(result, texts))
    decreases |texts|
  {
    if texts != [] {
      var next := JoinStep(result, texts[0]);
      assert JoinFold(result, texts) == JoinFold(next, texts[1..]);
      CleanPiecesTail(texts);
      JoinStepClean(result, texts[0]);
      JoinFoldClean(next, texts[1..]);
    }
  }

  lemma CleanPiecesTail(ws: seq<String>)
    requires ws != [] && CleanPieces(ws)
    ensures CleanPieces(ws[1..])
  {
    forall i | 0 <= i < |ws[1..]|
      ensures ws[1..][i] != [] && NoEdgeSpace(ws[1..][i])
    {
      assert ws[1..][i] == ws[i + 1];
    }
  }

  /** The piece each group of fragments becomes: its fragments run together. */
  function Pieces(gs: seq<seq<String>>): (ps: seq<String>)
    ensures |ps| == |gs| && forall i :: 0 <= i < |gs| ==> ps[i] == Flatten(gs[i])
  {
    seq(|gs|, i requires 0 <= i < |gs| => Flatten(gs[i]))
  }

  /** A group of fragments glued one after another: every fragment after
      the first passes the join test against the piece built so far. */
  ghost predicate GluedGroup(g: seq<String>) {
    g != [] && forall j :: 1 <= j < |g| ==> JoinsWithoutSpace(Flatten(g[..j]), g[j])
  }

  /** How the loop of main.py:373-389 groups `texts`, stated without the
      loop: the groups are the fragments in order, each group is glued, and
      each group after the first opens with a fragment that fails the join
      test against the whole previous group. */
  ghost predicate Gluing(gs: seq<seq<String>>, texts: seq<String>) {
    && Flatten(gs) == texts
    && (forall i :: 0 <= i < |gs| ==> GluedGroup(gs[i]))
    && (forall i :: 1 <= i < |gs| ==> !JoinsWithoutSpace(Flatten(gs[i - 1]), gs[i][0]))
  }

  /** A glued group followed by a fragment that passes the test is glued. */
  lemma GlueOnto(g: seq<String>, text: String)
    requires GluedGroup(g) && JoinsWithoutSpace(Flatten(g), text)
    ensures GluedGroup(g + [text])
  {
    var h := g + [text];
    forall j | 1 <= j < |h|
      ensures JoinsWithoutSpace(Flatten(h[..j]), h[j])
    {
      if j < |g| {
        assert h[..j] == g[..j] && h[j] == g[j];
      } else {
        assert h[..j] == g && h[j] == text;
      }
    }
  }

  /** Gluing the next fragment onto the last group keeps a gluing. */
  lemma GluingGlue(gs: seq<seq<String>>, done: seq<String>, text: String)
    requires Gluing(gs, done) && gs != [] && JoinsWithoutSpace(Flatten(gs[|gs| - 1]), text)
    ensures Gluing(gs[..|gs| - 1] + [gs[|gs| - 1] + [text]], done + [text])
  {
    var n := |gs| - 1;
    var last := gs[n];
    var hs := gs[..n] + [last + [text]];
    assert Flatten(hs) == done + [text] by {
      assert gs == gs[..n] + [last];
      FlattenAppend(gs[..n], last);
      FlattenAppend(gs[..n], last + [text]);
      assert Flatten(gs[..n]) + (last + [text]) == Flatten(gs[..n]) + last + [text];
    }
    GlueOnto(last, text);
    forall i | 0 <= i < |hs|
      ensures GluedGroup(hs[i])
    {
      if i < n {
        assert hs[i] == gs[i];
      }
    }
    forall i | 1 <= i < |hs|
      ensures !JoinsWithoutSpace(Flatten(hs[i - 1]), hs[i][0])
    {
      assert hs[i - 1] == gs[i - 1] && hs[i][0] == gs[i][0];
    }
  }

  /** Opening a new group with the next fragment keeps a gluing when the
      fragment fails the test against the last group. */
  lemma GluingOpen(gs: seq<seq<String>>, done: seq<String>, text: String)
    requires Gluing(gs, done)
    requires gs != [] ==> !JoinsWithoutSpace(Flatten(gs[|gs| - 1]), text)
    ensures Gluing(gs + [[text]], done + [text])
  {
    var hs := gs + [[text]];
    FlattenAppend(gs, [text]);
    forall i | 0 <= i < |hs|
      ensures GluedGroup(hs[i])
    {
      if i < |gs| {
        assert hs[i] == gs[i];
      }
    }
    forall i | 1 <= i < |hs|
      ensures !JoinsWithoutSpace(Flatten(hs[i - 1]), hs[i][0])
    {
      assert hs[i - 1] == gs[i - 1];
      if i < |gs| {
        assert hs[i] == gs[i];
      }
    }
  }

  /** The loop's pieces after a glue or an open are those of the new groups. */
  lemma PiecesGlue(gs: seq<seq<String>>, text: String)
    requires gs != []
    ensures Pieces(gs[..|gs| - 1] + [gs[|gs| - 1] + [text]])
            == Pieces(gs)[..|gs| - 1] + [Pieces(gs)[|gs| - 1] + text]
  {
    FlattenAppend(gs[|gs| - 1], text);
  }

  lemma PiecesOpen(gs: seq<seq<String>>, text: String)
    ensures Pieces(gs + [[text]]) == Pieces(gs) + [text]
  {
    assert Flatten([text]) == text + Flatten([]);
    var hs := gs + [[text]];
    assert hs[|gs|] == [text];
    assert Flatten([text]) == text;
    forall i | 0 <= i < |hs|
      ensures Pieces(hs)[i] == (Pieces(gs) + [text])[i]
    {
      if i < |gs| {
        assert hs[i] == gs[i];
      }
    }
  }

  /** One loop turn extends a gluing of the fragments seen so far by the
      next fragment. */
  lemma GluingStep(gs: seq<seq<String>>, done: seq<String>, text: String) returns (hs: seq<seq<String>>)
    requires Gluing(gs, done)
    ensures Gluing(hs, done + [text])
    ensures JoinStep(Pieces(gs), text) == Pieces(hs)
  {
    if gs != [] && JoinsWithoutSpace(Flatten(gs[|gs| - 1]), text) {
      hs := gs[..|gs| - 1] + [gs[|gs| - 1] + [text]];
      GluingGlue(gs, done, text);
      PiecesGlue(gs, text);
    } else {
      hs := gs + [[text]];
      GluingOpen(gs, done, text);
      PiecesOpen(gs, text);
    }
  }

  lemma ShiftHead<T>(done: seq<T>, xs: seq<T>)
    requires xs != []
    ensures done + [xs[0]] + xs[1..] == done + xs
  {
    assert xs == [xs[0]] + xs[1..];
  }

  lemma {:induction false} JoinFoldGluing(gs: seq<seq<String>>, done: seq<String>, texts: seq<String>)
    returns (hs: seq<seq<String>>)
    requires Gluing(gs, done)
    ensures Gluing(hs, done + texts)
    ensures JoinFold(Pieces(gs), texts) == Pieces(hs)
    decreases |texts|
  {
    if texts == [] {
      hs := gs;
      assert done + texts == done;
    } else {
      var next := GluingStep(gs, done, texts[0]);
      FoldTurn(Pieces(gs), texts, Pieces(next));
      ShiftHead(done, texts);
      hs := JoinFoldGluing(next, done + [texts[0]], texts[1..]);
    }
  }

  /** The pieces the loop of main.py:373-389 builds are those of a gluing:
      each piece is consecutive fragments glued by the join test, and a new
      piece starts where the test fails. */
  lemma JoinFoldIsGluing(texts: seq<String>)
    ensures exists gs :: Gluing(gs, texts) && JoinFold([], texts) == Pieces(gs)
  {
    assert Pieces([]) == [];
    var gs := JoinFoldGluing([], [], texts);
    assert [] + texts == texts;
  }

  /** The first group of a gluing ends at the first fragment that fails the
      join test against the fragments before it. */
  lemma FirstGroupCut(gs: seq<seq<String>>, texts: seq<String>)
    requires Gluing(gs, texts) && gs != []
    ensures 1 <= |gs[0]| <= |texts| && gs[0] == texts[..|gs[0]|]
    ensures forall k :: 1 <= k < |gs[0]| ==> JoinsWithoutSpace(Flatten(texts[..k]), texts[k])
    ensures |gs[0]| == |texts| || !JoinsWithoutSpace(Flatten(texts[..|gs[0]|]), texts[|gs[0]|])
  {
    var g := gs[0];
    assert texts == g + Flatten(gs[1..]);
    assert texts[..|g|] == g;
    forall k | 1 <= k < |g|
      ensures JoinsWithoutSpace(Flatten(texts[..k]), texts[k])
    {
      assert texts[..k] == g[..k] && texts[k] == g[k];
    }
    if |gs| > 1 {
      assert gs[1] != [];
      assert Flatten(gs[1..]) == gs[1] + Flatten(gs[2..]);
      assert texts[|g|] == gs[1][0];
    }
  }

  /** What follows the first group of a gluing is a gluing of the rest. */
  lemma GluingTail(gs: seq<seq<String>>, texts: seq<String>)
    requires Gluing(gs, texts) && gs != []
    ensures |gs[0]| <= |texts| && Gluing(gs[1..], texts[|gs[0]|..])
  {
    assert texts == gs[0] + Flatten(gs[1..]);
    var t := gs[1..];
    forall i | 0 <= i < |t|
      ensures GluedGroup(t[i])
    {
      assert t[i] == gs[i + 1];
    }
    forall i | 1 <= i < |t|
      ensures !JoinsWithoutSpace(Flatten(t[i - 1]), t[i][0])
    {
      assert t[i - 1] == gs[i] && t[i] == gs[i + 1];
    }
  }

  /** A list of fragments has only one gluing, so the loop's pieces are
      determined by the join test alone. */
  lemma {:induction false} GluingUnique(gs: seq<seq<String>>, hs: seq<seq<String>>, texts: seq<String>)
    requires Gluing(gs, texts) && Gluing(hs, texts)
    ensures gs == hs
    decreases |texts|
  {
    if gs == [] || hs == [] {
      assert NonEmptyGroups(gs) && NonEmptyGroups(hs);
      FlattenLength(gs);
      FlattenLength(hs);
    } else {
      FirstGroupCut(gs, texts);
      FirstGroupCut(hs, texts);
      var a, b := |gs[0]|, |hs[0]|;
      assert a == b;
      GluingTail(gs, texts);
      GluingTail(hs, texts);
      GluingUnique(gs[1..], hs[1..], texts[a..]);
      assert gs == [gs[0]] + gs[1..] && hs == [hs[0]] + hs[1..];
    }
  }

  /** Joining clean pieces with single spaces leaves no whitespace at
      either end. */
  lemma {:induction false} JoinCleanNoEdge(ws: seq<String>)
    requires CleanPieces(ws)
    ensures NoEdgeSpace(JoinSpace(ws))
    ensures ws != [] ==> JoinSpace(ws) != []
  {
    if |ws| > 1 {
      CleanPiecesTail(ws);
      JoinCleanNoEdge(ws[1..]);
      var s := ws[0] + " " + JoinSpace(ws[1..]);
      assert s[0] == ws[0][0];
      assert s[|s| - 1] == JoinSpace(ws[1..])[|JoinSpace(ws[1..])| - 1];
    }
  }

  /** conservative_merge_text_fragments (main.py:363-394). */
  function ConservativeMerge(texts: seq<String>): (r: String)
    ensures texts == [] ==> r == []
  {
    if texts == [] then []
    else if |texts| == 1 then Strip(texts[0])
    else
      var cleaned := Cleaned(texts);
      if |cleaned| <= 2 then JoinSpace(cleaned)
      else Strip(JoinSpace(JoinFold([], cleaned)))
  }

  /** Nothing is dropped or reordered: with spaces deleted, the merge is
      the concatenation of the cleaned fragments with spaces deleted. */
  lemma ConservativeMergeKeepsText(texts: seq<String>)
    ensures RemoveSpaces(ConservativeMerge(texts)) == RemoveSpaces(Flatten(Cleaned(texts)))
  {
    var cleaned := Cleaned(texts);
    if |texts| == 1 {
      assert texts[1..] == [];
      assert Flatten(cleaned) == Strip(texts[0]) by {
        if Strip(texts[0]) != [] {
          assert cleaned == [Strip(texts[0])];
          assert Flatten(cleaned) == Strip(texts[0]) + Flatten([]);
        } else {
          assert cleaned == [];
        }
      }
    } else if |texts| > 1 {
      if |cleaned| <= 2 {
        JoinOnlyAddsSpaces(cleaned);
      } else {
        var pieces := JoinFold([], cleaned);
        assert ConservativeMerge(texts) == Strip(JoinSpace(pieces));
        CleanedIsClean(texts);
        JoinFoldKeepsText([], cleaned);
        JoinFoldClean([], cleaned);
        assert Flatten(pieces) == Flatten(cleaned);
        JoinCleanNoEdge(pieces);
        StripNoEdge(JoinSpace(pieces));
        JoinOnlyAddsSpaces(pieces);
      }
    }
  }

  /** Fragments of which at most two are non-blank come out as those
      joined with one space. */
  lemma ConservativeMergeFew(texts: seq<String>)
    ensures Cleaned(texts) == [] ==> ConservativeMerge(texts) == []
    ensures |Cleaned(texts)| == 1 ==> ConservativeMerge(texts) == Cleaned(texts)[0]
    ensures |Cleaned(texts)| == 2 ==> ConservativeMerge(texts) == Cleaned(texts)[0] + " " + Cleaned(texts)[1]
  {
    var cleaned := Cleaned(texts);
    if |texts| == 1 {
      assert texts[1..] == [];
      assert cleaned == (if Strip(texts[0]) != [] then [Strip(texts[0])] else []);
    } else if |cleaned| == 2 {
      assert cleaned[1..] == [cleaned[1]];
      assert JoinSpace(cleaned[1..]) == cleaned[1];
      assert JoinSpace(cleaned) == cleaned[0] + " " + cleaned[1];
    }
  }

  /** With three or more non-blank fragments, the merge is the pieces of
      the gluing of the cleaned fragments joined by single spaces: a space
      falls between two neighbouring fragments exactly where the join test
      fails, and the final strip changes nothing. */
  lemma ConservativeMergeMany(texts: seq<String>)
    ensures |Cleaned(texts)| >= 3 ==> ConservativeMerge(texts) == JoinSpace(JoinFold([], Cleaned(texts)))
    ensures |Cleaned(texts)| >= 3 ==>
              exists gs :: Gluing(gs, Cleaned(texts)) && ConservativeMerge(texts) == JoinSpace(Pieces(gs))
  {
    var cleaned := Cleaned(texts);
    if |cleaned| >= 3 {
      var pieces := JoinFold([], cleaned);
      assert ConservativeMerge(texts) == Strip(JoinSpace(pieces));
      CleanedIsClean(texts);
      JoinFoldClean([], cleaned);
      JoinCleanNoEdge(pieces);
      StripNoEdge(JoinSpace(pieces));
      JoinFoldIsGluing(cleaned);
    }
  }

  // ---------------------------------------------------------------------
  // merge_fragments_by_proximity

  /** (y0, x0): reading order. */
  function ReadingKey(it: Item): SortKey { (it.bbox.y0, it.bbox.x0) }

  /** main.py:322-332: the next item starts less than 5 below the current
      one's bottom and less than 10 right of its right edge, and the
      current one is a single character before a short piece or a short
      piece ending in a hyphen. */
  predicate ShouldMerge(cur: Item, next: Item) {
    && Abs(next.bbox.y0 - cur.bbox.y1) < 5.0
    && Abs(next.bbox.x0 - cur.bbox.x1) < 10.0
    && (|| (|Strip(cur.text)| == 1 && |Strip(next.text)| <= 3)
        || (EndsWith(Strip(cur.text), "-") && |Strip(cur.text)| <= 4))
  }

  /** main.py:336-352: a run of several items becomes one item with the
      merged text, the largest size, the first page and the envelope; a
      run of one is the item itself. */
  function MergeRun(run: seq<Item>): (it: Item)
    requires run != []
    ensures |run| == 1 ==> it == run[0]
    ensures |run| > 1 ==> it.text == ConservativeMerge(ItemTexts(run))
    ensures |run| > 1 ==> it.bbox == Envelope(ItemBoxes(run)) && it.size == MaxOf(ItemSizes(run))
    ensures it.page == run[0].page
    ensures forall x :: x in run ==> x.size <= it.size && Within(x.bbox, it.bbox)
    ensures exists x :: x in run && x.size == it.size
  {
    if |run| == 1 then run[0]
    else
      var size := MaxOf(ItemSizes(run));
      var box := Envelope(ItemBoxes(run));
      assert forall i :: 0 <= i < |run| ==> run[i].size <= size && Within(run[i].bbox, box);
      var k :| 0 <= k < |run| && size == ItemSizes(run)[k];
      assert run[k] in run;
      Item(ConservativeMerge(ItemTexts(run)), size, run[0].page, box)
  }

  /** A merged run keeps the text of its items: with spaces deleted, the
      merged text is the run's stripped, non-blank texts run together. */
  lemma MergeRunKeepsText(run: seq<Item>)
    requires |run| > 1
    ensures RemoveSpaces(MergeRun(run).text) == RemoveSpaces(Flatten(Cleaned(ItemTexts(run))))
  {
    ConservativeMergeKeepsText(ItemTexts(run));
  }

  /** The runs of one size group (main.py:309-356). */
  function SizeRuns(group: seq<Item>): (rs: seq<seq<Item>>)
    ensures NonEmptyGroups(rs)
  {
    if |group| == 1 then [group] else Runs(SortBy(group, ReadingKey), ShouldMerge, true)
  }

  function AllRuns(groups: seq<seq<Item>>): (rs: seq<seq<Item>>)
    ensures NonEmptyGroups(rs)
  {
    if groups == [] then []
    else
      NonEmptyGroupsConcat(SizeRuns(groups[0]), AllRuns(groups[1..]));
      SizeRuns(groups[0]) + AllRuns(groups[1..])
  }

  /** The runs of merge_fragments_by_proximity, size group by size group
      in order of first appearance. */
  function ProximityRuns(items: seq<Item>, sizeKey: real -> real): (rs: seq<seq<Item>>)
    ensures NonEmptyGroups(rs)
  {
    AllRuns(GroupBy(SortBy(items, ReadingKey), (it: Item) => sizeKey(it.size)))
  }

  /** merge_fragments_by_proximity (main.py:291-361); `sizeKey` stands for
      round(size * 2) / 2. */
  function MergeFragments(items: seq<Item>, sizeKey: real -> real): (r: seq<Item>)
    ensures items == [] ==> r == []
    ensures |r| == |ProximityRuns(items, sizeKey)|
    ensures forall k :: 0 <= k < |r| ==> r[k].page == ProximityRuns(items, sizeKey)[k][0].page
    ensures forall k :: 0 <= k < |r| && |ProximityRuns(items, sizeKey)[k]| == 1 ==>
              r[k] == ProximityRuns(items, sizeKey)[k][0]
    ensures forall k :: 0 <= k < |r| && |ProximityRuns(items, sizeKey)[k]| > 1 ==>
              r[k].text == ConservativeMerge(ItemTexts(ProximityRuns(items, sizeKey)[k]))
    ensures forall k :: 0 <= k < |r| && |ProximityRuns(items, sizeKey)[k]| > 1 ==>
              r[k].bbox == Envelope(ItemBoxes(ProximityRuns(items, sizeKey)[k]))
              && r[k].size == MaxOf(ItemSizes(ProximityRuns(items, sizeKey)[k]))
    ensures forall k :: 0 <= k < |r| ==> forall x :: x in ProximityRuns(items, sizeKey)[k] ==>
              x.size <= r[k].size && Within(x.bbox, r[k].bbox)
  {
    if items == [] then []
    else
      var rs := ProximityRuns(items, sizeKey);
      seq(|rs|, k requires 0 <= k < |rs| => MergeRun(rs[k]))
  }

  lemma {:induction false} SizeRunsKeep(group: seq<Item>)
    ensures multiset(Flatten(SizeRuns(group))) == multiset(group)
  {
    if |group| == 1 {
      assert Flatten([group]) == group + Flatten([]);
    }
  }

  lemma {:induction false} AllRunsKeep(groups: seq<seq<Item>>)
    ensures multiset(Flatten(AllRuns(groups))) == multiset(Flatten(groups))
  {
    if groups != [] {
      AllRunsKeep(groups[1..]);
      SizeRunsKeep(groups[0]);
      FlattenConcat(SizeRuns(groups[0]), AllRuns(groups[1..]));
    }
  }

  /** Every input item lands in exactly one run: the runs hold the items,
      each as often as it was given. */
  lemma ProximityRunsPartition(items: seq<Item>, sizeKey: real -> real)
    ensures multiset(Flatten(ProximityRuns(items, sizeKey))) == multiset(items)
  {
    var sorted := SortBy(items, ReadingKey);
    var key := (it: Item) => sizeKey(it.size);
    AllRunsKeep(GroupBy(sorted, key));
    GroupByMultiset(sorted, key);
  }

  /** Members of a size group share the rounded size. */
  ghost predicate OneSizeClass(run: seq<Item>, sizeKey: real -> real) {
    forall x :: x in run ==> sizeKey(x.size) == sizeKey(run[0].size)
  }

  lemma {:induction false} SelectOneKey<T, K>(xs: seq<T>, key: T -> K, k: K)
    ensures forall x :: x in Select(xs, key, k) ==> key(x) == k
  {
    if xs != [] {
      SelectOneKey(xs[1..], key, k);
    }
  }

  lemma SizeRunsShape(g: seq<Item>, sizeKey: real -> real, k: int)
    requires g != [] && OneSizeClass(g, sizeKey)
    requires 0 <= k < |SizeRuns(g)|
    ensures OneSizeClass(SizeRuns(g)[k], sizeKey) && Linked(SizeRuns(g)[k], ShouldMerge, true)
  {
    var own := SizeRuns(g);
    if |g| > 1 {
      var sorted := SortBy(g, ReadingKey);
      assert Flatten(own) == sorted;
      forall x | x in own[k]
        ensures x in g
      {
        FlattenMember(own, k, x);
        assert x in multiset(sorted);
      }
      assert own[k][0] in own[k];
    } else {
      assert own[k] == g;
      assert LinkedUpTo(g, |g|, ShouldMerge, true);
    }
  }

  lemma {:induction false} AllRunsShape(groups: seq<seq<Item>>, sizeKey: real -> real)
    requires NonEmptyGroups(groups)
    requires forall i :: 0 <= i < |groups| ==> OneSizeClass(groups[i], sizeKey)
    ensures forall k :: 0 <= k < |AllRuns(groups)| ==>
              OneSizeClass(AllRuns(groups)[k], sizeKey) && Linked(AllRuns(groups)[k], ShouldMerge, true)
  {
    if groups != [] {
      var own := SizeRuns(groups[0]);
      var more := AllRuns(groups[1..]);
      AllRunsShape(groups[1..], sizeKey);
      var rs := AllRuns(groups);
      assert rs == own + more;
      forall k | 0 <= k < |rs|
        ensures OneSizeClass(rs[k], sizeKey) && Linked(rs[k], ShouldMerge, true)
      {
        if k < |own| {
          assert rs[k] == own[k];
          SizeRunsShape(groups[0], sizeKey, k);
        } else {
          assert rs[k] == more[k - |own|];
        }
      }
    }
  }

  /** Each run lies in one size class and is chained by the proximity
      test, each item close enough to the one before it. */
  lemma ProximityRunsShape(items: seq<Item>, sizeKey: real -> real, k: int)
    requires 0 <= k < |ProximityRuns(items, sizeKey)|
    ensures OneSizeClass(ProximityRuns(items, sizeKey)[k], sizeKey)
    ensures Linked(ProximityRuns(items, sizeKey)[k], ShouldMerge, true)
  {
    var sorted := SortBy(items, ReadingKey);
    var key := (it: Item) => sizeKey(it.size);
    var gs := GroupBy(sorted, key);
    GroupByIsGrouping(sorted, key);
    forall i | 0 <= i < |gs|
      ensures OneSizeClass(gs[i], sizeKey)
    {
      SelectOneKey(sorted, key, key(gs[i][0]));
    }
    AllRunsShape(gs, sizeKey);
  }
}

=== FILE: gapsplit.dfy ===
/** detect_significant_gaps_and_split (main.py:253-289). Nothing in the
    pipeline calls it; it is modelled on its own. The spans of a line are
    read left to right and the line is cut at every horizontal gap wider
    than three times the upper median gap, and never at a gap of 20 or
    less. */
module GapSplit {
  import opened Seqs
  import opened Layout

  function ValueKey(g: real): SortKey { (g, 0.0) }

  /** main.py:267: from the right edge of one span to the left edge of the
      next; negative when they overlap. */
  function Gap(cur: Span, next: Span): real { next.bbox.x0 - cur.bbox.x1 }

  function Gaps(ss: seq<Span>): (gs: seq<real>)
    requires ss != []
    ensures |gs| == |ss| - 1
    ensures forall i :: 0 <= i < |gs| ==> gs[i] == Gap(ss[i], ss[i + 1])
  {
    seq(|ss| - 1, i requires 0 <= i < |ss| - 1 => Gap(ss[i], ss[i + 1]))
  }

  /** sorted(gaps)[len(gaps) // 2] (main.py:271). */
  function UpperMedian(gs: seq<real>): (m: real)
    requires gs != []
    ensures m in gs
  {
    var sorted := SortBy(gs, ValueKey);
    assert sorted[|gs| / 2] in multiset(gs);
    sorted[|gs| / 2]
  }

  /** At most half of the gaps lie below the upper median and fewer than
      half above it. */
  lemma MedianSplitsInHalf(gs: seq<real>)
    requires gs != []
    ensures CountWhere(gs, (g: real) => g < UpperMedian(gs)) <= |gs| / 2
    ensures CountWhere(gs, (g: real) => g > UpperMedian(gs)) <= |gs| - 1 - |gs| / 2
  {
    FewBelowMedian(gs);
    FewAboveMedian(gs);
  }

  /** In an ascending list nothing from position h on lies below the
      element at h, and nothing up to h lies above it. */
  lemma SortedAround(sorted: seq<real>, h: int)
    requires 0 <= h < |sorted| && SortedBy(sorted, ValueKey)
    ensures forall i :: h <= i < |sorted| ==> sorted[h] <= sorted[i]
    ensures forall i :: 0 <= i <= h ==> sorted[i] <= sorted[h]
  {
    forall i | h < i < |sorted|
      ensures sorted[h] <= sorted[i]
    {
      assert KeyLe(ValueKey(sorted[h]), ValueKey(sorted[i]));
    }
    forall i | 0 <= i < h
      ensures sorted[i] <= sorted[h]
    {
      assert KeyLe(ValueKey(sorted[i]), ValueKey(sorted[h]));
    }
  }

  lemma FewBelowMedian(gs: seq<real>)
    requires gs != []
    ensures CountWhere(gs, (g: real) => g < UpperMedian(gs)) <= |gs| / 2
  {
    var sorted := SortBy(gs, ValueKey);
    var h := |gs| / 2;
    var m := sorted[h];
    assert m == UpperMedian(gs);
    var below := (g: real) => g < m;
    SortedAround(sorted, h);
    assert forall i :: h <= i < |sorted| ==> !below(sorted[i]);
    CountWhereNoneFrom(sorted, below, h);
    CountWherePermutation(sorted, gs, below);
  }

  lemma FewAboveMedian(gs: seq<real>)
    requires gs != []
    ensures CountWhere(gs, (g: real) => g > UpperMedian(gs)) <= |gs| - 1 - |gs| / 2
  {
    var sorted := SortBy(gs, ValueKey);
    var h := |gs| / 2;
    var m := sorted[h];
    assert m == UpperMedian(gs);
    var above := (g: real) => g > m;
    SortedAround(sorted, h);
    assert forall i :: 0 <= i < h + 1 ==> !above(sorted[i]);
    CountWhereNoneBefore(sorted, above, h + 1);
    CountWherePermutation(sorted, gs, above);
  }

  /** max(median_gap * 3, 20) (main.py:272). */
  function Threshold(gs: seq<real>): (t: real)
    requires gs != []
    ensures t >= 20.0 && t >= 3.0 * UpperMedian(gs)
    ensures t == 20.0 || t == 3.0 * UpperMedian(gs)
  {
    Max(UpperMedian(gs) * 3.0, 20.0)
  }

  /** Two neighbouring spans stay together when the gap between them is at
      most t. */
  function CloseWithin(t: real): (Span, Span) -> bool {
    (cur: Span, next: Span) => Gap(cur, next) <= t
  }

  /** detect_significant_gaps_and_split (main.py:253-289). */
  function SplitAtGaps(ss: seq<Span>): (groups: seq<seq<Span>>)
    ensures |ss| <= 1 ==> groups == [ss]
    ensures |ss| > 1 ==> Flatten(groups) == SortBy(ss, SpanX0) && NonEmptyGroups(groups)
  {
    if |ss| <= 1 then [ss]
    else
      var sorted := SortBy(ss, SpanX0);
      Runs(sorted, CloseWithin(Threshold(Gaps(sorted))), true)
  }

  /** The threshold the split uses for a line of several spans. */
  function SplitThreshold(ss: seq<Span>): real
    requires |ss| > 1
  {
    Threshold(Gaps(SortBy(ss, SpanX0)))
  }

  /** The cuts fall exactly at the wide gaps: inside a group every gap is
      at most the threshold, between consecutive groups the gap is above
      it, and the threshold is never below 20 nor below three times the
      upper median gap. */
  lemma SplitShape(ss: seq<Span>)
    requires |ss| > 1
    ensures var t := SplitThreshold(ss);
            var groups := SplitAtGaps(ss);
            && t >= 20.0 && t >= 3.0 * UpperMedian(Gaps(SortBy(ss, SpanX0)))
            && (forall k, j :: 0 <= k < |groups| && 1 <= j < |groups[k]| ==> Gap(groups[k][j - 1], groups[k][j]) <= t)
            && (forall k :: 0 <= k < |groups| - 1 ==> Gap(groups[k][|groups[k]| - 1], groups[k + 1][0]) > t)
  {
    var t := SplitThreshold(ss);
    var groups := SplitAtGaps(ss);
    forall k, j | 0 <= k < |groups| && 1 <= j < |groups[k]|
      ensures Gap(groups[k][j - 1], groups[k][j]) <= t
    {
      assert Linked(groups[k], CloseWithin(t), true);
      assert AnchorBefore(groups[k], j, true) == groups[k][j - 1];
    }
    forall k | 0 <= k < |groups| - 1
      ensures Gap(groups[k][|groups[k]| - 1], groups[k + 1][0]) > t
    {
      assert AnchorBefore(groups[k], |groups[k]|, true) == groups[k][|groups[k]| - 1];
    }
  }

  lemma NarrowChainIsOneRun(sorted: seq<Span>, t: real)
    requires sorted != [] && t >= 20.0
    requires forall i :: 1 <= i < |sorted| ==> Gap(sorted[i - 1], sorted[i]) <= 20.0
    ensures Runs(sorted, CloseWithin(t), true) == [sorted]
  {
    forall i | 1 <= i < |sorted|
      ensures CloseWithin(t)(sorted[i - 1], sorted[i])
    {
    }
    RunsWhenAllLinked(sorted, CloseWithin(t));
  }

  /** A line whose neighbouring gaps are all 20 or less is never cut. */
  lemma NarrowGapsKeepLine(ss: seq<Span>)
    requires |ss| > 1
    requires forall i :: 1 <= i < |ss| ==> Gap(SortBy(ss, SpanX0)[i - 1], SortBy(ss, SpanX0)[i]) <= 20.0
    ensures SplitAtGaps(ss) == [SortBy(ss, SpanX0)]
  {
    var sorted := SortBy(ss, SpanX0);
    var t := Threshold(Gaps(sorted));
    assert SplitAtGaps(ss) == Runs(sorted, CloseWithin(t), true);
    NarrowChainIsOneRun(sorted, t);
  }

  /** With one or two gaps the upper median is the widest gap. */
  lemma MedianOfFewIsWidest(gs: seq<real>)
    requires 0 < |gs| <= 2
    ensures forall g :: g in gs ==> g <= UpperMedian(gs)
  {
    var sorted := SortBy(gs, ValueKey);
    forall g | g in gs
      ensures g <= UpperMedian(gs)
    {
      assert g in multiset(sorted);
      var j :| 0 <= j < |sorted| && sorted[j] == g;
      if j < |gs| / 2 {
        assert KeyLe(ValueKey(sorted[j]), ValueKey(sorted[|gs| / 2]));
      }
    }
  }

  lemma FewGapsOneRun(sorted: seq<Span>)
    requires 1 < |sorted| <= 3
    ensures Runs(sorted, CloseWithin(Threshold(Gaps(sorted))), true) == [sorted]
  {
    var gs := Gaps(sorted);
    var t := Threshold(gs);
    MedianOfFewIsWidest(gs);
    forall i | 1 <= i < |sorted|
      ensures CloseWithin(t)(sorted[i - 1], sorted[i])
    {
      assert gs[i - 1] in gs;
    }
    RunsWhenAllLinked(sorted, CloseWithin(t));
  }

  /** A line of two or three spans is never cut: its widest gap is the
      upper median, and the threshold is at least three times that and at
      least 20. Only lines of four spans or more can be split. */
  lemma FewSpansNeverSplit(ss: seq<Span>)
    requires 1 < |ss| <= 3
    ensures SplitAtGaps(ss) == [SortBy(ss, SpanX0)]
  {
    var sorted := SortBy(ss, SpanX0);
    assert SplitAtGaps(ss) == Runs(sorted, CloseWithin(Threshold(Gaps(sorted))), true);
    FewGapsOneRun(sorted);
  }
}

=== FILE: headingmerge.dfy ===
/** merge_related_headings (main.py:447-491). Nothing in the pipeline calls
    it; it is modelled on its own. Scanning left to right, a heading absorbs
    the headings after it for as long as each of them may be joined to it,
    and an absorbed run is replaced by one heading. */
module HeadingMerge {
  import opened Text
  import opened Seqs
  import opened Layout

  /** main.py:466: the text ends in a hyphen or a dangling function word. */
  predicate EndsWithJoiner(t: String) {
    EndsWith(t, "-") || EndsWith(t, "for") || EndsWith(t, "the") || EndsWith(t, "to") || EndsWith(t, "of")
  }

  /** main.py:468: the text opens a numbered item, a phase or an appendix. */
  predicate StartsWithNumberingOrSection(t: String) {
    || StartsWith(t, "1.") || StartsWith(t, "2.") || StartsWith(t, "3.") || StartsWith(t, "4.")
    || StartsWith(t, "Phase") || StartsWith(t, "Appendix")
  }

  /** main.py:462-470: whether `next` joins the run that `first` opened.
      The test always looks at the run's first heading, never at the
      heading just absorbed. */
  predicate MayJoin(first: Heading, next: Heading) {
    && first.page == next.page
    && first.level == next.level
    && EndsWithJoiner(first.text)
    && |first.text| < 15 && |next.text| < 15
    && !StartsWithNumberingOrSection(next.text)
  }

  /** main.py:478-487: a run of several headings becomes one heading with
      the first one's level and page and the texts joined by single spaces;
      a run of one is kept as it is. */
  function Combine(run: seq<Heading>): (h: Heading)
    requires run != []
    ensures h.level == run[0].level && h.page == run[0].page
    ensures |run| == 1 ==> h == run[0]
    ensures StartsWith(h.text, run[0].text)
    ensures RemoveSpaces(h.text) == RemoveSpaces(Flatten(HeadingTexts(run)))
  {
    var ts := HeadingTexts(run);
    JoinOnlyAddsSpaces(ts);
    if |run| == 1 then
      assert ts[1..] == [];
      assert Flatten(ts) == ts[0] + Flatten(ts[1..]) == run[0].text;
      run[0]
    else
      assert JoinSpace(ts) == ts[0] + (" " + JoinSpace(ts[1..]));
      Heading(JoinSpace(ts), run[0].level, run[0].page)
  }

  function CombineAll(rs: seq<seq<Heading>>): (r: seq<Heading>)
    requires NonEmptyGroups(rs)
    ensures |r| == |rs|
  {
    if rs == [] then [] else [Combine(rs[0])] + CombineAll(rs[1..])
  }

  /** The runs the outer loop of main.py:453-489 walks through. */
  function MergeRuns(hs: seq<Heading>): (rs: seq<seq<Heading>>)
    ensures Flatten(rs) == hs && NonEmptyGroups(rs)
  {
    Runs(hs, MayJoin, false)
  }

  /** merge_related_headings (main.py:447-491). */
  function MergeRelatedHeadings(hs: seq<Heading>): (r: seq<Heading>)
    ensures |hs| <= 1 ==> r == hs
    ensures |r| <= |hs|
    ensures hs != [] ==> r != []
  {
    if |hs| <= 1 then hs
    else
      var rs := MergeRuns(hs);
      FlattenLength(rs);
      CombineAll(rs)
  }

  lemma {:induction false} CombineAllPicks(rs: seq<seq<Heading>>, k: int)
    requires NonEmptyGroups(rs) && 0 <= k < |rs|
    ensures CombineAll(rs)[k] == Combine(rs[k])
  {
    if k > 0 {
      CombineAllPicks(rs[1..], k - 1);
    }
  }

  /** A run of several headings shares one page and one level, opens with a
      short text ending in a joiner, holds only short texts, and absorbs no
      heading that opens a numbered item, a phase or an appendix; the next
      run opens with a heading the previous run's first could not take. */
  lemma MergeRunShape(hs: seq<Heading>, k: int)
    requires 0 <= k < |MergeRuns(hs)|
    ensures var run := MergeRuns(hs)[k];
            forall j :: 1 <= j < |run| ==>
              && run[j].page == run[0].page && run[j].level == run[0].level
              && EndsWithJoiner(run[0].text) && |run[0].text| < 15 && |run[j].text| < 15
              && !StartsWithNumberingOrSection(run[j].text)
    ensures k + 1 < |MergeRuns(hs)| ==> !MayJoin(MergeRuns(hs)[k][0], MergeRuns(hs)[k + 1][0])
  {
    var run := MergeRuns(hs)[k];
    assert Linked(run, MayJoin, false);
    forall j | 1 <= j < |run|
      ensures MayJoin(run[0], run[j])
    {
      assert AnchorBefore(run, j, false) == run[0];
    }
  }

  /** The merged output, read with spaces deleted, is the input read with
      spaces deleted: no text is lost, duplicated or reordered. */
  lemma {:induction false} CombineAllKeepsText(rs: seq<seq<Heading>>)
    requires NonEmptyGroups(rs)
    ensures RemoveSpaces(Flatten(HeadingTexts(CombineAll(rs)))) == RemoveSpaces(Flatten(HeadingTexts(Flatten(rs))))
  {
    if rs != [] {
      var c := Combine(rs[0]);
      var rest := CombineAll(rs[1..]);
      var tail := Flatten(rs[1..]);
      CombineAllKeepsText(rs[1..]);
      assert CombineAll(rs) == [c] + rest;
      assert Flatten(rs) == rs[0] + tail;
      TextsOfConcat([c], rest);
      TextsOfConcat(rs[0], tail);
      assert Flatten(HeadingTexts([c])) == c.text by {
        assert HeadingTexts([c]) == [c.text];
        assert Flatten([c.text]) == c.text + Flatten([]);
      }
      SameUpToSpacesConcat(c.text, Flatten(HeadingTexts(rest)), Flatten(HeadingTexts(rs[0])), Flatten(HeadingTexts(tail)));
    }
  }

  /** The texts of a concatenation are the texts of its parts, in order. */
  lemma TextsOfConcat(xs: seq<Heading>, ys: seq<Heading>)
    ensures Flatten(HeadingTexts(xs + ys)) == Flatten(HeadingTexts(xs)) + Flatten(HeadingTexts(ys))
  {
    assert HeadingTexts(xs + ys) == HeadingTexts(xs) + HeadingTexts(ys);
    FlattenConcat(HeadingTexts(xs), HeadingTexts(ys));
  }

  lemma MergeKeepsText(hs: seq<Heading>)
    ensures RemoveSpaces(Flatten(HeadingTexts(MergeRelatedHeadings(hs)))) == RemoveSpaces(Flatten(HeadingTexts(hs)))
  {
    if |hs| > 1 {
      CombineAllKeepsText(MergeRuns(hs));
    }
  }

  /** When no heading may join the one before it, nothing is merged. */
  lemma {:induction false} NothingToMerge(hs: seq<Heading>)
    requires forall i :: 0 <= i < |hs| - 1 ==> !MayJoin(hs[i], hs[i + 1])
    ensures MergeRelatedHeadings(hs) == hs
  {
    if |hs| > 1 {
      RunsOfSingles(hs);
    }
  }

  lemma {:induction false} RunsOfSingles(hs: seq<Heading>)
    requires forall i :: 0 <= i < |hs| - 1 ==> !MayJoin(hs[i], hs[i + 1])
    ensures CombineAll(MergeRuns(hs)) == hs
    decreases |hs|
  {
    if hs != [] {
      assert ExtendRun(hs, MayJoin, false, 1) == 1;
      assert MergeRuns(hs) == [hs[..1]] + MergeRuns(hs[1..]);
      RunsOfSingles(hs[1..]);
      assert hs[..1] == [hs[0]];
      assert CombineAll(MergeRuns(hs)) == [hs[0]] + CombineAll(MergeRuns(hs[1..]));
    }
  }

  /** Each output heading stands for one run of the input: a run of one is
      kept as it is, a longer run becomes its texts joined by single spaces
      with the level and page of its first heading. */
  lemma MergedHeading(hs: seq<Heading>, k: int)
    requires |hs| > 1 && 0 <= k < |MergeRuns(hs)|
    ensures var run := MergeRuns(hs)[k];
            var h := MergeRelatedHeadings(hs)[k];
            && h.level == run[0].level && h.page == run[0].page
            && (|run| == 1 ==> h == run[0])
            && (|run| > 1 ==> h.text == JoinSpace(HeadingTexts(run)))
  {
    CombineAllPicks(MergeRuns(hs), k);
  }
}

=== FILE: headings.dfy ===
/** Heading classification (extract_headings_final, is_significant_heading
    and is_high_quality_heading, main.py:396-445 and 522-569): one ordered
    pass over the gathered items that keeps the first item of each text
    passing the title, link, significance and level tests, followed by a
    quality filter. */
module Headings {
  import opened Text
  import opened Seqs
  import opened Layout
  import opened Noise
  import opened Fonts

  // ---------------------------------------------------------------------
  // is_significant_heading

  /** re.search(r'[a-zA-Z]', t) */
  predicate HasAsciiLetter(t: String) {
    exists i :: 0 <= i < |t| && IsAsciiLetter(t[i])
  }

  /** len(re.findall(r'[a-zA-Z]', t)) */
  function LetterCount(t: String): (n: nat)
    ensures n <= |t|
    ensures n > 0 <==> HasAsciiLetter(t)
  {
    if t == [] then 0
    else
      assert forall i :: 0 < i < |t| ==> t[i] == t[1..][i - 1];
      (if IsAsciiLetter(t[0]) then 1 else 0) + LetterCount(t[1..])
  }

  /** The number of leading decimal digits. */
  function DigitRun(t: String): (n: nat)
    ensures n <= |t|
    ensures forall i :: 0 <= i < n ==> IsDigit(t[i])
    ensures n < |t| ==> !IsDigit(t[n])
  {
    if t != [] && IsDigit(t[0]) then 1 + DigitRun(t[1..]) else 0
  }

  /** re.match(r'^\d+\.', t) */
  predicate StartsWithNumberDot(t: String) {
    DigitRun(t) >= 1 && DigitRun(t) < |t| && t[DigitRun(t)] == '.'
  }

  /** re.match(r'^[•·▪▫]\s+', t) */
  predicate StartsWithBullet(t: String) {
    |t| >= 2 && t[0] in "\U{2022}\U{00B7}\U{25AA}\U{25AB}" && IsSpace(t[1])
  }

  /** The lower-cased prefixes that mark boilerplate, never a heading. */
  predicate HasBoilerplatePrefix(lower: String) {
    StartsWithAny(lower, ["mission statement:", "goals:"])
  }

  /** The lower-cased prefixes that mark a heading. */
  predicate HasSectionPrefix(lower: String) {
    StartsWithAny(lower, ["appendix", "phase", "for each", "for the"])
  }

  /** Section names accepted as headings whatever their letters. */
  const SectionNames: seq<String> := [
    "table of contents", "acknowledgements", "revision history", "references",
    "summary", "background", "timeline", "milestones", "approach", "evaluation",
    "preamble", "membership", "term", "chair", "meetings"]

  /** Membership in a list of names, looked up one name at a time. */
  predicate IsListed(s: String, names: seq<String>) {
    names != [] && (s == names[0] || IsListed(s, names[1..]))
  }

  /** The lookup agrees with Python's `in` on a list. */
  lemma {:induction false} IsListedIsIn(s: String, names: seq<String>)
    ensures IsListed(s, names) <==> s in names
  {
    if names != [] {
      IsListedIsIn(s, names[1..]);
      assert names == [names[0]] + names[1..];
    }
  }

  /** The texts accepted outright once the gates are passed. */
  predicate IsMarkedHeading(t: String) {
    StartsWithNumberDot(t) || HasSectionPrefix(Lower(t)) || IsListed(Lower(t), SectionNames)
  }

  /** is_significant_heading (main.py:522-555), its tests in
      main.py's order. */
  function IsSignificantHeading(text: String, size: real, body: real): (ok: bool)
    ensures size <= body + 0.1 ==> !ok
    ensures !HasAsciiLetter(text) ==> !ok
    ensures |text| < 3 ==> !ok
    ensures IsLikelyLink(text) ==> !ok
    ensures StartsWithBullet(text) || HasBoilerplatePrefix(Lower(text)) ==> !ok
    ensures ok && !IsMarkedHeading(text) && !EndsWith(Strip(text), ":") ==>
              LetterCount(text) as real >= |text| as real * 0.2
  {
    if size <= body + 0.1 then false
    else if !HasAsciiLetter(text) then false
    else if |text| < 3 then false
    else if IsLikelyLink(text) then false
    else if StartsWithBullet(text) then false
    else if HasBoilerplatePrefix(Lower(text)) then false
    else if IsMarkedHeading(text) then true
    else if EndsWith(Strip(text), ":") then true
    else if (LetterCount(text) as real) < |text| as real * 0.2 then false
    else true
  }

  /** The gates every heading has to pass before the acceptance rules. */
  predicate PassesGates(text: String, size: real, body: real) {
    && size > body + 0.1 && HasAsciiLetter(text) && |text| >= 3 && !IsLikelyLink(text)
    && !StartsWithBullet(text) && !HasBoilerplatePrefix(Lower(text))
  }

  /** Past the gates, a numbered, section-named or colon-terminated text is
      a heading. */
  lemma SignificantWhenMarked(text: String, size: real, body: real)
    requires PassesGates(text, size, body)
    requires IsMarkedHeading(text) || EndsWith(Strip(text), ":")
    ensures IsSignificantHeading(text, size, body)
  {
    assert !(size <= body + 0.1) && HasAsciiLetter(text) && !(|text| < 3) && !IsLikelyLink(text);
    assert !StartsWithBullet(text) && !HasBoilerplatePrefix(Lower(text));
  }

  /** Past the gates, any other text is a heading exactly when at least a
      fifth of its characters are ASCII letters. */
  lemma SignificantByLetters(text: String, size: real, body: real)
    requires PassesGates(text, size, body)
    requires !IsMarkedHeading(text) && !EndsWith(Strip(text), ":")
    ensures IsSignificantHeading(text, size, body) <==> LetterCount(text) as real >= |text| as real * 0.2
  {
    assert !(size <= body + 0.1) && HasAsciiLetter(text) && !(|text| < 3) && !IsLikelyLink(text);
    assert !StartsWithBullet(text) && !HasBoilerplatePrefix(Lower(text));
  }

  // ---------------------------------------------------------------------
  // is_high_quality_heading

  /** Words let through although short and space-free. */
  const CommonHeadingWords: seq<String> := [
    "introduction", "overview", "references", "acknowledgements", "contents", "syllabus"]

  /** Nothing but symbols: no word character and no whitespace. */
  predicate SymbolsOnly(t: String) {
    forall i :: 0 <= i < |t| ==> !IsWordChar(t[i]) && !IsSpace(t[i])
  }

  /** re.match(r'^[^\w\s]*$', t): symbols only, where Python's `$` also
      matches just before one final newline. */
  predicate AllSymbols(t: String) {
    || SymbolsOnly(t)
    || (t != [] && t[|t| - 1] == '\n' && SymbolsOnly(t[..|t| - 1]))
  }

  /** is_high_quality_heading (main.py:557-569). */
  function IsHighQualityHeading(text: String): (ok: bool)
    ensures |text| < 3 ==> !ok
    ensures AllSymbols(text) ==> !ok
  {
    if |text| < 3 then false
    else if ' ' !in text && |text| < 6 && Lower(text) !in CommonHeadingWords then false
    else if AllSymbols(text) then false
    else true
  }

  /** The allowlist never rescues a text: each listed word has at least
      eight letters, and only texts shorter than six are tested against it.
      So the quality filter is exactly: at least three characters, a space
      or at least six characters, and not only symbols. */
  lemma QualityAllowlistIsDead(text: String)
    ensures IsHighQualityHeading(text) <==>
              |text| >= 3 && (' ' in text || |text| >= 6) && !AllSymbols(text)
  {
    if ' ' !in text && |text| < 6 {
      assert |Lower(text)| < 6;
      assert forall w :: w in CommonHeadingWords ==> |w| >= 8;
    }
  }

  // ---------------------------------------------------------------------
  // extract_headings_final

  /** The distance of a size from the key of level-map entry i. */
  function Dist(levels: seq<LevelEntry>, size: real, i: int): real
    requires 0 <= i < |levels|
  {
    Abs(size - levels[i].size)
  }

  /** The loop of main.py:425-431 over the first n entries of the level map:
      the entry whose key is closest to the size and within 1.5 of it, the
      earliest among equally close ones, since only a strictly smaller
      distance replaces the one found. */
  function ClosestLevel(levels: seq<LevelEntry>, size: real, n: nat): (k: Option<nat>)
    requires n <= |levels|
    ensures k.Some? ==> k.value < n && Dist(levels, size, k.value) < 1.5
    ensures k.Some? ==> forall i :: 0 <= i < n ==> Dist(levels, size, k.value) <= Dist(levels, size, i)
    ensures k.Some? ==> forall i :: 0 <= i < k.value ==> Dist(levels, size, k.value) < Dist(levels, size, i)
    ensures k.None? ==> forall i :: 0 <= i < n ==> Dist(levels, size, i) >= 1.5
  {
    if n == 0 then None
    else
      var b := ClosestLevel(levels, size, n - 1);
      var d := Dist(levels, size, n - 1);
      if d < 1.5 && (b.None? || d < Dist(levels, size, b.value)) then Some(n - 1) else b
  }

  /** main.py:414: the text is the title, lies inside it or contains it. */
  predicate MatchesTitle(text: String, title: String) {
    title != [] && (text == Strip(title) || Contains(title, text) || Contains(text, title))
  }

  /** The tests main.py:414-438 apply to one item, all but the duplicate
      test: a heading comes out only for a non-title, non-link, significant
      text whose size is within 1.5 of a level key, with the level of the
      closest key. */
  function HeadingOf(it: Item, fs: FontStructure, title: String): (h: Option<Heading>)
    ensures h.Some? ==> h.value.text == Strip(it.text) && h.value.page == it.page && |h.value.text| >= 3
    ensures h.Some? ==> it.size > fs.body + 0.1 && !MatchesTitle(h.value.text, title)
    ensures h.Some? ==> !IsLikelyLink(h.value.text) && IsSignificantHeading(h.value.text, it.size, fs.body)
    ensures h.Some? ==>
              exists k :: 0 <= k < |fs.levels| && fs.levels[k].level == h.value.level
                && Dist(fs.levels, it.size, k) < 1.5
                && forall i :: 0 <= i < |fs.levels| ==> Dist(fs.levels, it.size, k) <= Dist(fs.levels, it.size, i)
  {
    var text := Strip(it.text);
    if MatchesTitle(text, title) then None
    else if IsLikelyLink(text) then None
    else if !IsSignificantHeading(text, it.size, fs.body) then None
    else
      var k := ClosestLevel(fs.levels, it.size, |fs.levels|);
      if k.Some? && fs.levels[k.value].level != 0 && it.size > fs.body + 0.1 then
        Some(Heading(text, fs.levels[k.value].level, it.page))
      else None
  }

  function Classifier(fs: FontStructure, title: String): Item -> Option<Heading> {
    (it: Item) => HeadingOf(it, fs, title)
  }

  /** A classification names the item's stripped, non-empty text. */
  ghost predicate NamesItsText(classify: Item -> Option<Heading>) {
    forall x :: classify(x).Some? ==> classify(x).value.text == Strip(x.text) && classify(x).value.text != []
  }

  lemma ClassifierNamesItsText(fs: FontStructure, title: String)
    ensures NamesItsText(Classifier(fs, title))
  {
    forall x | Classifier(fs, title)(x).Some?
      ensures Classifier(fs, title)(x).value.text == Strip(x.text) != []
    {
      assert Classifier(fs, title)(x) == HeadingOf(x, fs, title);
    }
  }

  /** The loop of main.py:408-438: items in order, skipping an empty text
      or one already emitted, classifying the rest. */
  function HeadingLoop(items: seq<Item>, classify: Item -> Option<Heading>, processed: set<String>): seq<Heading> {
    if items == [] then []
    else
      var text := Strip(items[0].text);
      if text == [] || text in processed then HeadingLoop(items[1..], classify, processed)
      else
        match classify(items[0])
        case Some(h) => [h] + HeadingLoop(items[1..], classify, processed + {text})
        case None => HeadingLoop(items[1..], classify, processed)
  }

  /** The headings, keeping for each text only its first occurrence, and
      none whose text was seen already. */
  function FirstByText(hs: seq<Heading>, seen: set<String>): (r: seq<Heading>)
    ensures forall i :: 0 <= i < |r| ==> r[i].text !in seen
    ensures forall i, j :: 0 <= i < j < |r| ==> r[i].text != r[j].text
  {
    if hs == [] then []
    else if hs[0].text in seen then FirstByText(hs[1..], seen)
    else
      var rest := FirstByText(hs[1..], seen + {hs[0].text});
      var r := [hs[0]] + rest;
      assert forall i :: 0 < i < |r| ==> r[i] == rest[i - 1];
      r
  }

  lemma {:induction false} FirstByTextIsSubsequence(hs: seq<Heading>, seen: set<String>)
    ensures Subsequence(FirstByText(hs, seen), hs)
  {
    if hs != [] {
      if hs[0].text in seen {
        FirstByTextIsSubsequence(hs[1..], seen);
      } else {
        FirstByTextIsSubsequence(hs[1..], seen + {hs[0].text});
        assert FirstByText(hs, seen) == [hs[0]] + FirstByText(hs[1..], seen + {hs[0].text});
      }
    }
  }

  /** Every text not seen before keeps a representative. */
  lemma {:induction false} FirstByTextComplete(hs: seq<Heading>, seen: set<String>, h: Heading) returns (g: Heading)
    requires h in hs && h.text !in seen
    ensures g in FirstByText(hs, seen) && g.text == h.text
  {
    if hs[0].text in seen {
      g := FirstByTextComplete(hs[1..], seen, h);
    } else if hs[0].text == h.text {
      g := hs[0];
    } else {
      g := FirstByTextComplete(hs[1..], seen + {hs[0].text}, h);
    }
  }

  /** The loop with its `processed` set is the reference definition: each
      item classified on its own, then the first heading of each text. */
  lemma {:induction false} LoopIsFirstByText(items: seq<Item>, classify: Item -> Option<Heading>, processed: set<String>)
    requires NamesItsText(classify)
    ensures HeadingLoop(items, classify, processed) == FirstByText(FilterMap(items, classify), processed)
  {
    if items != [] {
      var text := Strip(items[0].text);
      match classify(items[0])
      case Some(h) =>
        assert FilterMap(items, classify) == [h] + FilterMap(items[1..], classify);
        if text in processed {
          LoopIsFirstByText(items[1..], classify, processed);
        } else {
          LoopIsFirstByText(items[1..], classify, processed + {text});
        }
      case None =>
        assert FilterMap(items, classify) == FilterMap(items[1..], classify);
        LoopIsFirstByText(items[1..], classify, processed);
    }
  }

  /** is_high_quality_heading on a heading's text. */
  predicate HighQuality(h: Heading) {
    IsHighQualityHeading(h.text)
  }

  /** extract_headings_final (main.py:396-445): nothing without items or
      without a level map; otherwise the headings of the loop that pass the
      quality filter, no two with the same text. */
  function ExtractHeadings(items: seq<Item>, title: String): (r: seq<Heading>)
    ensures items == [] ==> r == []
    ensures AnalyzeFonts(items).levels == [] ==> r == []
    ensures forall i, j :: 0 <= i < j < |r| ==> r[i].text != r[j].text
    ensures forall h :: h in r ==> IsHighQualityHeading(h.text)
  {
    if items == [] then []
    else
      var fs := AnalyzeFonts(items);
      if fs.levels == [] then []
      else
        var hs := HeadingLoop(items, Classifier(fs, title), {});
        ClassifierNamesItsText(fs, title);
        LoopIsFirstByText(items, Classifier(fs, title), {});
        var r := Filter(hs, HighQuality);
        FilterIsSubsequence(hs, HighQuality);
        SubsequenceDistinct(r, hs);
        r
  }

  lemma {:induction false} SubsequenceDistinct(xs: seq<Heading>, ys: seq<Heading>)
    requires Subsequence(xs, ys)
    requires forall i, j :: 0 <= i < j < |ys| ==> ys[i].text != ys[j].text
    ensures forall i, j :: 0 <= i < j < |xs| ==> xs[i].text != xs[j].text
    decreases |ys|
  {
    if xs != [] {
      assert forall i, j :: 0 <= i < j < |ys[1..]| ==> ys[1..][i].text != ys[1..][j].text by {
        forall i, j | 0 <= i < j < |ys[1..]|
          ensures ys[1..][i].text != ys[1..][j].text
        {
          assert ys[1..][i] == ys[i + 1] && ys[1..][j] == ys[j + 1];
        }
      }
      if xs[0] == ys[0] && Subsequence(xs[1..], ys[1..]) {
        SubsequenceDistinct(xs[1..], ys[1..]);
        SubsequenceMembers(xs[1..], ys[1..]);
        forall j | 0 < j < |xs|
          ensures xs[0].text != xs[j].text
        {
          assert xs[j] == xs[1..][j - 1];
          assert xs[j] in xs[1..];
          var k :| 0 <= k < |ys[1..]| && ys[1..][k] == xs[j];
          assert ys[k + 1] == xs[j];
        }
        forall i, j | 0 <= i < j < |xs|
          ensures xs[i].text != xs[j].text
        {
          if i > 0 {
            assert xs[i] == xs[1..][i - 1] && xs[j] == xs[1..][j - 1];
          }
        }
      } else {
        SubsequenceDistinct(xs, ys[1..]);
      }
    }
  }

  /** The headings are, in order, some of the items' classifications. */
  lemma HeadingsAreSubsequence(items: seq<Item>, title: String)
    requires items != [] && AnalyzeFonts(items).levels != []
    ensures Subsequence(ExtractHeadings(items, title), FilterMap(items, Classifier(AnalyzeFonts(items), title)))
  {
    var fs := AnalyzeFonts(items);
    var cs := FilterMap(items, Classifier(fs, title));
    var hs := HeadingLoop(items, Classifier(fs, title), {});
    ClassifierNamesItsText(fs, title);
    LoopIsFirstByText(items, Classifier(fs, title), {});
    FirstByTextIsSubsequence(cs, {});
    FilterIsSubsequence(hs, HighQuality);
    SubsequenceTrans(ExtractHeadings(items, title), hs, cs);
  }

  /** Every heading comes from an item: its stripped text and page, a size
      above body + 0.1, not the title, not a link, significant, and with
      the level of the closest level key within 1.5 of the item's size. */
  lemma HeadingOrigin(items: seq<Item>, title: String, h: Heading) returns (it: Item)
    requires h in ExtractHeadings(items, title)
    ensures it in items && HeadingOf(it, AnalyzeFonts(items), title) == Some(h)
    ensures h.text == Strip(it.text) && h.page == it.page && it.size > AnalyzeFonts(items).body + 0.1
    ensures !MatchesTitle(h.text, title) && !IsLikelyLink(h.text) && IsHighQualityHeading(h.text)
  {
    var fs := AnalyzeFonts(items);
    var f := Classifier(fs, title);
    HeadingsAreSubsequence(items, title);
    SubsequenceMembers(ExtractHeadings(items, title), FilterMap(items, f));
    it := FilterMapOrigin(items, f, h);
  }

  /** No heading contains a link marker. */
  lemma NoLinkHeadings(items: seq<Item>, title: String, h: Heading, p: String)
    requires h in ExtractHeadings(items, title) && IsLinkMarker(p)
    ensures !Contains(h.text, p)
  {
    var it := HeadingOrigin(items, title, h);
    if Contains(h.text, p) {
      MarkerMakesLink(h.text, p);
    }
  }

  /** Completeness: an item that classifies as a heading of good quality is
      represented, by itself or an earlier item of the same text. */
  lemma HeadingsComplete(items: seq<Item>, title: String, it: Item, h: Heading)
    requires it in items && AnalyzeFonts(items).levels != []
    requires HeadingOf(it, AnalyzeFonts(items), title) == Some(h) && IsHighQualityHeading(h.text)
    ensures exists g :: g in ExtractHeadings(items, title) && g.text == h.text
  {
    var fs := AnalyzeFonts(items);
    var f := Classifier(fs, title);
    var cs := FilterMap(items, f);
    FilterMapHas(items, f, it);
    ClassifierNamesItsText(fs, title);
    LoopIsFirstByText(items, f, {});
    var g := FirstByTextComplete(cs, {}, h);
    assert HighQuality(g);
  }

  /** The page order of the items carries over to the headings. */
  lemma HeadingsInPageOrder(items: seq<Item>, title: String)
    requires Ascending(items, (it: Item) => it.page as int)
    ensures Ascending(ExtractHeadings(items, title), (h: Heading) => h.page as int)
  {
    if items != [] && AnalyzeFonts(items).levels != [] {
      var fs := AnalyzeFonts(items);
      var f := Classifier(fs, title);
      FilterMapOrdered(items, f, (it: Item) => it.page as int, (h: Heading) => h.page as int);
      HeadingsAreSubsequence(items, title);
      SubsequenceAscending(ExtractHeadings(items, title), FilterMap(items, f), (h: Heading) => h.page as int);
    }
  }

  /** Every heading level lies in 1..4, being the level of a level-map key
      within 1.5 of the originating item's size. */
  lemma HeadingLevelsInRange(items: seq<Item>, title: String, h: Heading)
    requires h in ExtractHeadings(items, title)
    ensures 1 <= h.level <= 4
  {
    var it := HeadingOrigin(items, title, h);
    var fs := AnalyzeFonts(items);
    FontLevels(items);
    var k :| 0 <= k < |fs.levels| && fs.levels[k].level == h.level && Dist(fs.levels, it.size, k) < 1.5;
    assert 1 <= fs.levels[k].level <= 4;
  }
}

=== FILE: layout.dfy ===
/** The positioned text the document decoder hands over, and the items and
    headings the pipeline derives from it. Coordinates grow downward. */
module Layout {
  import opened Text
  import opened Seqs

  datatype BBox = BBox(x0: real, y0: real, x1: real, y1: real)

  /** A run of text in one font size, as the decoder reports it. */
  datatype Span = Span(text: String, size: real, bbox: BBox)

  datatype Line = Line(bbox: BBox, spans: seq<Span>)

  /** Image blocks carry no lines and are skipped everywhere. */
  datatype Block = TextBlock(lines: seq<Line>) | ImageBlock

  datatype Page = Page(height: real, blocks: seq<Block>)

  datatype Document = Document(pages: seq<Page>)

  /** One assembled line of text (a "span" in main.py's
      vocabulary once gathered). */
  datatype Item = Item(text: String, size: real, page: nat, bbox: BBox)

  datatype Heading = Heading(text: String, level: int, page: nat)

  /** The grouping keys main.py computes with float rounding:
      round(y) for raw lines, round(y, 1) for sub-lines and
      round(size * 2) / 2 for font-size clusters. */
  datatype Rounding = Rounding(lineKey: real -> int, spanKey: real -> real, sizeKey: real -> real)

  function LinesOf(b: Block): seq<Line> {
    match b
    case TextBlock(lines) => lines
    case ImageBlock => []
  }

  function Max(a: real, b: real): real { if a >= b then a else b }
  function Min(a: real, b: real): real { if a <= b then a else b }
  function Abs(x: real): real { if x < 0.0 then -x else x }

  /** Sorting spans by bbox[0] alone (main.py:188, 257); ties keep their
      input order. */
  function SpanX0(s: Span): SortKey { (s.bbox.x0, 0.0) }

  predicate Within(inner: BBox, outer: BBox) {
    outer.x0 <= inner.x0 && outer.y0 <= inner.y0 && inner.x1 <= outer.x1 && inner.y1 <= outer.y1
  }

  /** The smallest box containing both. */
  function Union(a: BBox, b: BBox): BBox {
    BBox(Min(a.x0, b.x0), Min(a.y0, b.y0), Max(a.x1, b.x1), Max(a.y1, b.y1))
  }

  /** The envelope of a non-empty sequence of boxes: it contains each box
      and each of its four edges is an edge of one of them. */
  function Envelope(bs: seq<BBox>): (e: BBox)
    requires bs != []
    ensures forall i :: 0 <= i < |bs| ==> Within(bs[i], e)
    ensures exists i :: 0 <= i < |bs| && e.x0 == bs[i].x0
    ensures exists i :: 0 <= i < |bs| && e.y0 == bs[i].y0
    ensures exists i :: 0 <= i < |bs| && e.x1 == bs[i].x1
    ensures exists i :: 0 <= i < |bs| && e.y1 == bs[i].y1
  {
    if |bs| == 1 then bs[0]
    else
      var e := Union(Envelope(bs[..|bs| - 1]), bs[|bs| - 1]);
      assert forall i :: 0 <= i < |bs| - 1 ==> bs[..|bs| - 1][i] == bs[i];
      e
  }

  /** The largest of a non-empty sequence of sizes. */
  function MaxOf(xs: seq<real>): (m: real)
    requires xs != []
    ensures forall i :: 0 <= i < |xs| ==> xs[i] <= m
    ensures exists i :: 0 <= i < |xs| && m == xs[i]
  {
    if |xs| == 1 then xs[0]
    else
      assert forall i :: 0 <= i < |xs| - 1 ==> xs[..|xs| - 1][i] == xs[i];
      Max(MaxOf(xs[..|xs| - 1]), xs[|xs| - 1])
  }

  function SpanBoxes(ss: seq<Span>): (bs: seq<BBox>)
    ensures |bs| == |ss| && forall i :: 0 <= i < |ss| ==> bs[i] == ss[i].bbox
  {
    Map(ss, (s: Span) => s.bbox)
  }

  function SpanSizes(ss: seq<Span>): (zs: seq<real>)
    ensures |zs| == |ss| && forall i :: 0 <= i < |ss| ==> zs[i] == ss[i].size
  {
    Map(ss, (s: Span) => s.size)
  }

  function ItemBoxes(its: seq<Item>): (bs: seq<BBox>)
    ensures |bs| == |its| && forall i :: 0 <= i < |its| ==> bs[i] == its[i].bbox
  {
    Map(its, (it: Item) => it.bbox)
  }

  function ItemSizes(its: seq<Item>): (zs: seq<real>)
    ensures |zs| == |its| && forall i :: 0 <= i < |its| ==> zs[i] == its[i].size
  {
    Map(its, (it: Item) => it.size)
  }

  function ItemTexts(its: seq<Item>): (ts: seq<String>)
    ensures |ts| == |its| && forall i :: 0 <= i < |its| ==> ts[i] == its[i].text
  {
    Map(its, (it: Item) => it.text)
  }

  function HeadingTexts(hs: seq<Heading>): (ts: seq<String>)
    ensures |ts| == |hs| && forall i :: 0 <= i < |hs| ==> ts[i] == hs[i].text
  {
    Map(hs, (h: Heading) => h.text)
  }
}

=== FILE: lines.dfy ===
/** Line assembly (gather_spans_production, main.py:133-224): spans are
    grouped into raw lines by rounded top edge within each block, noise is
    dropped, the survivors are regrouped by their own rounded top edge into
    sub-lines, and each sub-line becomes one item whose text concatenates its
    spans left to right. */
module Lines {
  import opened Text
  import opened Seqs
  import opened Layout
  import opened Noise

  /** The filter at main.py:156-157 (repeated verbatim at 169-170). */
  predicate Keep(text: String) {
    var t := Strip(text);
    t != [] && !IsDecorativeText(t) && !IsLikelyLink(t)
  }

  /** A span that survives the filter has at least three non-blank
      characters, so its stripped text is longer than one character. */
  lemma KeptTextIsLong(text: String)
    requires Keep(text)
    ensures |Strip(text)| >= 3
  {
    var t := Strip(text);
    if |t| <= 2 {
      ShortTextIsDecorative(t);
      assert false;
    }
  }

  /** The same filter as a predicate on spans. */
  predicate Survives(s: Span) {
    Keep(s.text)
  }

  /** The spans of a group of lines, line by line. */
  function AllSpans(lines: seq<Line>): seq<Span> {
    if lines == [] then [] else lines[0].spans + AllSpans(lines[1..])
  }

  /** The surviving spans of a raw-line group, line by line, in decoder
      order; `keep` is the span filter, Survives in the pipeline. */
  function KeptSpans(lines: seq<Line>, keep: Span -> bool): seq<Span> {
    Filter(AllSpans(lines), keep)
  }

  /** round(line["bbox"][1]) */
  function LineKey(r: Rounding): Line -> int {
    (l: Line) => r.lineKey(l.bbox.y0)
  }

  /** round(span["bbox"][1], 1) */
  function SubLineKey(r: Rounding): Span -> real {
    (s: Span) => r.spanKey(s.bbox.y0)
  }

  /** A group of spans that will become one item, with its page. */
  datatype SubLine = SubLine(page: nat, spans: seq<Span>)

  /** The sub-lines of one raw-line group (main.py:153-176). */
  function SubLines(lines: seq<Line>, r: Rounding, keep: Span -> bool): seq<seq<Span>> {
    GroupBy(KeptSpans(lines, keep), SubLineKey(r))
  }

  /** Every surviving span lands in exactly one sub-line: sub-lines have
      distinct keys, each holds exactly the survivors with its key in their
      original order, and together they hold every survivor once. */
  lemma SubLinesPartition(lines: seq<Line>, r: Rounding, keep: Span -> bool)
    ensures IsGrouping(KeptSpans(lines, keep), SubLineKey(r), SubLines(lines, r, keep))
  {
    GroupByIsGrouping(KeptSpans(lines, keep), SubLineKey(r));
  }

  function AllSpansOfGroups(lgs: seq<seq<Line>>): seq<Span> {
    if lgs == [] then [] else AllSpans(lgs[0]) + AllSpansOfGroups(lgs[1..])
  }

  function BlockSpans(b: Block): seq<Span> {
    AllSpans(LinesOf(b))
  }

  function PageSpans(blocks: seq<Block>): seq<Span> {
    FlatMap(blocks, BlockSpans)
  }

  lemma AllSpansMember(lines: seq<Line>, l: Line, s: Span)
    requires l in lines && s in l.spans
    ensures s in AllSpans(lines)
  {
    if lines[0] != l {
      AllSpansMember(lines[1..], l, s);
    }
  }

  lemma AllSpansOrigin(lines: seq<Line>, s: Span) returns (l: Line)
    requires s in AllSpans(lines)
    ensures l in lines && s in l.spans
  {
    if s in lines[0].spans {
      l := lines[0];
    } else {
      l := AllSpansOrigin(lines[1..], s);
    }
  }

  lemma GroupsOrigin(lgs: seq<seq<Line>>, s: Span) returns (g: seq<Line>, l: Line)
    requires s in AllSpansOfGroups(lgs)
    ensures g in lgs && l in g && s in l.spans
  {
    if s in AllSpans(lgs[0]) {
      g := lgs[0];
      l := AllSpansOrigin(lgs[0], s);
    } else {
      g, l := GroupsOrigin(lgs[1..], s);
    }
  }

  /** Regrouping the raw lines of a block by rounded top edge invents no
      span. */
  lemma GroupsSpansAreBlockSpans(lines: seq<Line>, r: Rounding)
    ensures forall s :: s in AllSpansOfGroups(GroupBy(lines, LineKey(r))) ==> s in AllSpans(lines)
  {
    var lgs := GroupBy(lines, LineKey(r));
    GroupByMultiset(lines, LineKey(r));
    forall s | s in AllSpansOfGroups(lgs)
      ensures s in AllSpans(lines)
    {
      var g, l := GroupsOrigin(lgs, s);
      var i :| 0 <= i < |lgs| && lgs[i] == g;
      FlattenMember(lgs, i, l);
      assert l in multiset(lines);
      AllSpansMember(lines, l, s);
    }
  }

  /** Each sub-line holds surviving spans of its raw-line group only. */
  lemma SubLineClean(lines: seq<Line>, r: Rounding, keep: Span -> bool, i: int, s: Span)
    requires 0 <= i < |SubLines(lines, r, keep)| && s in SubLines(lines, r, keep)[i]
    ensures s in AllSpans(lines) && keep(s)
  {
    var gs := SubLines(lines, r, keep);
    GroupByMultiset(KeptSpans(lines, keep), SubLineKey(r));
    FlattenMember(gs, i, s);
    assert s in multiset(KeptSpans(lines, keep));
  }

  /** The sub-lines of the raw-line groups of one block, in visiting order. */
  function GroupsSubLines(lgs: seq<seq<Line>>, r: Rounding, keep: Span -> bool): seq<seq<Span>> {
    if lgs == [] then [] else SubLines(lgs[0], r, keep) + GroupsSubLines(lgs[1..], r, keep)
  }

  lemma {:induction false} GroupsSubLinesClean(lgs: seq<seq<Line>>, r: Rounding, keep: Span -> bool, i: int, s: Span)
    requires 0 <= i < |GroupsSubLines(lgs, r, keep)| && s in GroupsSubLines(lgs, r, keep)[i]
    ensures s in AllSpansOfGroups(lgs) && keep(s)
    decreases |lgs|
  {
    var here := SubLines(lgs[0], r, keep);
    var rest := GroupsSubLines(lgs[1..], r, keep);
    assert GroupsSubLines(lgs, r, keep) == here + rest;
    if i < |here| {
      SubLineClean(lgs[0], r, keep, i, s);
    } else {
      assert rest[i - |here|] == GroupsSubLines(lgs, r, keep)[i];
      GroupsSubLinesClean(lgs[1..], r, keep, i - |here|, s);
    }
  }

  /** main.py:141-220 for one block: raw lines keyed by rounded top edge,
      then the sub-lines of each raw-line group. */
  function BlockSubLines(b: Block, r: Rounding, keep: Span -> bool): seq<seq<Span>> {
    GroupsSubLines(GroupBy(LinesOf(b), LineKey(r)), r, keep)
  }

  lemma BlockSubLinesClean(b: Block, r: Rounding, keep: Span -> bool, i: int, s: Span)
    requires 0 <= i < |BlockSubLines(b, r, keep)| && s in BlockSubLines(b, r, keep)[i]
    ensures s in BlockSpans(b) && keep(s)
  {
    GroupsSubLinesClean(GroupBy(LinesOf(b), LineKey(r)), r, keep, i, s);
    GroupsSpansAreBlockSpans(LinesOf(b), r);
  }

  /** The per-block sub-line builder for one rounding and one filter. */
  function BlockStep(r: Rounding, keep: Span -> bool): Block -> seq<seq<Span>> {
    b => BlockSubLines(b, r, keep)
  }

  function PageSubLines(blocks: seq<Block>, r: Rounding, keep: Span -> bool): seq<seq<Span>> {
    FlatMap(blocks, BlockStep(r, keep))
  }

  lemma PageSubLinesClean(blocks: seq<Block>, r: Rounding, keep: Span -> bool, i: int, s: Span)
    requires 0 <= i < |PageSubLines(blocks, r, keep)| && s in PageSubLines(blocks, r, keep)[i]
    ensures s in PageSpans(blocks) && keep(s)
  {
    var k, j := FlatMapIndex(blocks, BlockStep(r, keep), i);
    BlockSubLinesClean(blocks[k], r, keep, j, s);
    FlatMapMember(blocks, BlockSpans, k, s);
  }

  function Tag(gs: seq<seq<Span>>, page: nat): (sls: seq<SubLine>)
    ensures |sls| == |gs|
    ensures forall i :: 0 <= i < |sls| ==> sls[i] == SubLine(page, gs[i])
  {
    if gs == [] then [] else [SubLine(page, gs[0])] + Tag(gs[1..], page)
  }

  /** The sub-lines `sub` builds for each of pages[0..] in visiting order,
      tagged with page numbers counted from `first`: the numbers stay in
      range. */
  function TagPages(pages: seq<Page>, first: nat, sub: Page -> seq<seq<Span>>): (sls: seq<SubLine>)
    ensures forall sl :: sl in sls ==> first <= sl.page < first + |pages|
    decreases |pages|
  {
    if pages == [] then []
    else Tag(sub(pages[0]), first) + TagPages(pages[1..], first + 1, sub)
  }

  /** Page numbers of the tagged sub-lines never decrease. */
  lemma {:induction false} TagPagesAscending(pages: seq<Page>, first: nat, sub: Page -> seq<seq<Span>>)
    ensures Ascending(TagPages(pages, first, sub), SubLinePage)
    decreases |pages|
  {
    if pages != [] {
      var gs := sub(pages[0]);
      var rest := TagPages(pages[1..], first + 1, sub);
      TagPagesAscending(pages[1..], first + 1, sub);
      assert TagPages(pages, first, sub) == Tag(gs, first) + rest;
      TagAscending(gs, first, rest);
    }
  }

  /** Sub-lines of one page in front of sub-lines of later pages keep the
      page numbers ascending. */
  lemma TagAscending(gs: seq<seq<Span>>, page: nat, rest: seq<SubLine>)
    requires Ascending(rest, SubLinePage)
    requires forall sl :: sl in rest ==> page < sl.page
    ensures Ascending(Tag(gs, page) + rest, SubLinePage)
  {
    var here := Tag(gs, page);
    var all := here + rest;
    forall i, j | 0 <= i < j < |all|
      ensures SubLinePage(all[i]) <= SubLinePage(all[j])
    {
      if j < |here| {
        assert all[i] == here[i] && all[j] == here[j];
      } else if i < |here| {
        assert all[i] == here[i];
        assert all[j] == rest[j - |here|] && all[j] in rest;
      } else {
        assert all[i] == rest[i - |here|] && all[j] == rest[j - |here|];
      }
    }
  }

  /** Every tagged sub-line is one of the sub-lines of the page its number
      names. */
  lemma {:induction false} TagPagesOrigin(pages: seq<Page>, first: nat, sub: Page -> seq<seq<Span>>, sl: SubLine) returns (k: int, j: int)
    requires sl in TagPages(pages, first, sub)
    ensures 0 <= k < |pages| && sl.page == first + k
    ensures 0 <= j < |sub(pages[k])| && sl.spans == sub(pages[k])[j]
    decreases |pages|
  {
    var here := Tag(sub(pages[0]), first);
    assert TagPages(pages, first, sub) == here + TagPages(pages[1..], first + 1, sub);
    if sl in here {
      var i :| 0 <= i < |here| && here[i] == sl;
      k, j := 0, i;
    } else {
      var k', j' := TagPagesOrigin(pages[1..], first + 1, sub, sl);
      k, j := k' + 1, j';
      assert pages[1..][k'] == pages[k];
    }
  }

  /** The per-page sub-line builder for one rounding and one filter. */
  function PageStep(r: Rounding, keep: Span -> bool): Page -> seq<seq<Span>> {
    (p: Page) => PageSubLines(p.blocks, r, keep)
  }

  /** The sub-lines of the whole document in visiting order, each tagged
      with its page number. */
  function DocSubLines(pages: seq<Page>, r: Rounding, keep: Span -> bool): seq<SubLine> {
    TagPages(pages, 0, PageStep(r, keep))
  }

  /** Every span of a sub-line survives the filter and belongs to the page
      the sub-line is tagged with. */
  lemma DocSubLinesClean(pages: seq<Page>, r: Rounding, keep: Span -> bool, sl: SubLine, s: Span)
    requires sl in DocSubLines(pages, r, keep) && s in sl.spans
    ensures 0 <= sl.page < |pages| && s in PageSpans(pages[sl.page].blocks) && keep(s)
  {
    var k, j := TagPagesOrigin(pages, 0, PageStep(r, keep), sl);
    PageSubLinesClean(pages[k].blocks, r, keep, j, s);
  }

  // ---------------------------------------------------------------------
  // Concatenation of one sub-line

  /** The stripped texts of the spans, in order. */
  function StrippedTexts(ss: seq<Span>): (ts: seq<String>)
    ensures |ts| == |ss| && forall i :: 0 <= i < |ss| ==> ts[i] == Strip(ss[i].text)
  {
    seq(|ss|, i requires 0 <= i < |ss| => Strip(ss[i].text))
  }

  /** For each neighbouring pair, whether the second starts more than 2.8
      units after the first ends. */
  function WideGapFlags(ss: seq<Span>): (w: seq<bool>)
    requires ss != []
    ensures |w| == |ss| - 1
    ensures forall i :: 0 <= i < |w| ==> (w[i] <==> !(ss[i + 1].bbox.x0 - ss[i].bbox.x1 <= 2.8))
  {
    seq(|ss| - 1, i requires 0 <= i < |ss| - 1 => !(ss[i + 1].bbox.x0 - ss[i].bbox.x1 <= 2.8))
  }

  /** The first text, then every further one, preceded by one space exactly
      when its flag is set. */
  function Interleave(ts: seq<String>, wide: seq<bool>): String
    requires |ts| == |wide| + 1
    decreases |ts|
  {
    if |ts| == 1 then ts[0]
    else
      Interleave(ts[..|ts| - 1], wide[..|wide| - 1])
        + (if wide[|wide| - 1] then " " else "") + ts[|ts| - 1]
  }

  /** The concatenation loop of main.py:190-204: the stripped texts in
      order with one space added per wide gap and nothing else added. */
  function CombineTexts(ss: seq<Span>): (t: String)
    requires ss != []
    ensures RemoveSpaces(t) == RemoveSpaces(Flatten(StrippedTexts(ss)))
    ensures |t| == |Flatten(StrippedTexts(ss))| + CountTrue(WideGapFlags(ss))
  {
    InterleaveOnlyAddsSpaces(StrippedTexts(ss), WideGapFlags(ss));
    InterleaveLength(StrippedTexts(ss), WideGapFlags(ss));
    Interleave(StrippedTexts(ss), WideGapFlags(ss))
  }

  function CountTrue(w: seq<bool>): nat {
    if w == [] then 0 else CountTrue(w[..|w| - 1]) + (if w[|w| - 1] then 1 else 0)
  }

  /** Only single spaces are ever inserted: deleting the spaces from the
      combined text gives the texts run together with their spaces deleted. */
  lemma {:induction false} InterleaveOnlyAddsSpaces(ts: seq<String>, wide: seq<bool>)
    requires |ts| == |wide| + 1
    ensures RemoveSpaces(Interleave(ts, wide)) == RemoveSpaces(Flatten(ts))
    decreases |ts|
  {
    var n := |ts|;
    var p := ts[..n - 1];
    assert ts == p + [ts[n - 1]];
    FlattenAppend(p, ts[n - 1]);
    if n == 1 {
      assert Flatten(ts) == ts[0];
    } else {
      InterleaveOnlyAddsSpaces(p, wide[..|wide| - 1]);
      var c := Interleave(p, wide[..|wide| - 1]);
      var sep: String := if wide[|wide| - 1] then " " else "";
      RemoveSpacesConcat(c + sep, ts[n - 1]);
      RemoveSpacesConcat(c, sep);
      RemoveSpacesConcat(Flatten(p), ts[n - 1]);
      assert RemoveSpaces(sep) == [];
    }
  }

  /** One character is inserted per set flag and none elsewhere. */
  lemma {:induction false} InterleaveLength(ts: seq<String>, wide: seq<bool>)
    requires |ts| == |wide| + 1
    ensures |Interleave(ts, wide)| == |Flatten(ts)| + CountTrue(wide)
    decreases |ts|
  {
    var n := |ts|;
    var p := ts[..n - 1];
    assert ts == p + [ts[n - 1]];
    FlattenAppend(p, ts[n - 1]);
    if n == 1 {
      assert Flatten(ts) == ts[0];
    } else {
      InterleaveLength(p, wide[..|wide| - 1]);
    }
  }

  /** With no wide gap the pieces are run together unchanged. */
  lemma {:induction false} InterleaveAllNarrow(ts: seq<String>, wide: seq<bool>)
    requires |ts| == |wide| + 1
    requires forall i :: 0 <= i < |wide| ==> !wide[i]
    ensures Interleave(ts, wide) == Flatten(ts)
    decreases |ts|
  {
    var n := |ts|;
    var p := ts[..n - 1];
    assert ts == p + [ts[n - 1]];
    FlattenAppend(p, ts[n - 1]);
    if n == 1 {
      assert Flatten(ts) == ts[0];
    } else {
      InterleaveAllNarrow(p, wide[..|wide| - 1]);
    }
  }

  /** With every gap wide the pieces are joined by single spaces, as
      ' '.join joins them. */
  lemma {:induction false} InterleaveAllWide(ts: seq<String>, wide: seq<bool>)
    requires |ts| == |wide| + 1
    requires forall i :: 0 <= i < |wide| ==> wide[i]
    ensures Interleave(ts, wide) == JoinSpace(ts)
    decreases |ts|
  {
    var n := |ts|;
    if n > 1 {
      var p := ts[..n - 1];
      InterleaveAllWide(p, wide[..|wide| - 1]);
      assert ts == p + [ts[n - 1]];
      JoinSpaceAppend(p, ts[n - 1]);
    }
  }

  /** Non-empty texts without edge whitespace combine into a non-empty text
      without edge whitespace, at least as long as the last of them. */
  lemma {:induction false} InterleaveEdges(ts: seq<String>, wide: seq<bool>)
    requires |ts| == |wide| + 1
    requires forall i :: 0 <= i < |ts| ==> ts[i] != [] && NoEdgeSpace(ts[i])
    ensures NoEdgeSpace(Interleave(ts, wide))
    ensures |Interleave(ts, wide)| >= |ts[|ts| - 1]| > 0
    decreases |ts|
  {
    var n := |ts|;
    if n > 1 {
      var p := ts[..n - 1];
      var w := wide[..|wide| - 1];
      InterleaveEdges(p, w);
      var c := Interleave(p, w);
      var sep: String := if wide[|wide| - 1] then " " else "";
      var t := ts[n - 1];
      assert Interleave(ts, wide) == c + sep + t;
      assert (c + sep + t)[0] == c[0];
      assert (c + sep + t)[|c + sep + t| - 1] == t[|t| - 1];
    }
  }

  /** The 2.8 boundary: a gap of exactly 2.8 joins two texts directly, any
      wider gap puts exactly one space between them. */
  lemma GapBoundary(a: Span, b: Span)
    ensures b.bbox.x0 - a.bbox.x1 <= 2.8 ==> CombineTexts([a, b]) == Strip(a.text) + Strip(b.text)
    ensures b.bbox.x0 - a.bbox.x1 > 2.8 ==> CombineTexts([a, b]) == Strip(a.text) + " " + Strip(b.text)
  {
    var ts := StrippedTexts([a, b]);
    var w := WideGapFlags([a, b]);
    assert ts == [Strip(a.text), Strip(b.text)];
    assert w == [b.bbox.x0 - a.bbox.x1 > 2.8];
    assert ts[..1] == [Strip(a.text)] && w[..0] == [];
    assert Interleave(ts, w) == Strip(a.text) + (if w[0] then " " else "") + Strip(b.text);
  }

  /** main.py:177-220: one item per sub-line, with the text of its spans in
      x0 order, the largest of their sizes and the envelope of their boxes;
      nothing when the stripped text is a single character or empty. An
      empty group, which the grouping never produces, yields nothing. */
  function AssembleLine(ss: seq<Span>, page: nat): (r: Option<Item>)
    ensures r.Some? ==> |r.value.text| > 1 && NoEdgeSpace(r.value.text) && r.value.page == page
  {
    if ss == [] then None
    else if |ss| == 1 then
      var t := Strip(ss[0].text);
      if |t| > 1 then Some(Item(t, ss[0].size, page, ss[0].bbox)) else None
    else
      var sorted := SortBy(ss, SpanX0);
      var t := Strip(CombineTexts(sorted));
      if |t| > 1 then Some(Item(t, MaxOf(SpanSizes(sorted)), page, Envelope(SpanBoxes(sorted)))) else None
  }

  lemma SortedMembers(ss: seq<Span>, i: int)
    requires 0 <= i < |SortBy(ss, SpanX0)|
    ensures SortBy(ss, SpanX0)[i] in ss
  {
    assert SortBy(ss, SpanX0)[i] in multiset(ss);
  }

  /** The largest size of a reordering is the largest size of the spans it reorders. */
  lemma SizeOfReordering(ss: seq<Span>, sorted: seq<Span>)
    requires sorted != [] && multiset(sorted) == multiset(ss)
    ensures forall s :: s in ss ==> s.size <= MaxOf(SpanSizes(sorted))
    ensures exists s :: s in ss && s.size == MaxOf(SpanSizes(sorted))
  {
    var m := MaxOf(SpanSizes(sorted));
    forall s | s in ss
      ensures s.size <= m
    {
      assert s in multiset(sorted);
      var i :| 0 <= i < |sorted| && sorted[i] == s;
      assert SpanSizes(sorted)[i] == s.size;
    }
    var a :| 0 <= a < |sorted| && m == SpanSizes(sorted)[a];
    assert sorted[a] in multiset(ss);
  }

  /** The envelope of a reordering is the envelope of the spans it reorders: it
      contains every box and each of its edges is the edge of some box. */
  lemma BoxOfReordering(ss: seq<Span>, sorted: seq<Span>)
    requires sorted != [] && multiset(sorted) == multiset(ss)
    ensures forall s :: s in ss ==> Within(s.bbox, Envelope(SpanBoxes(sorted)))
    ensures exists s :: s in ss && s.bbox.x0 == Envelope(SpanBoxes(sorted)).x0
    ensures exists s :: s in ss && s.bbox.y0 == Envelope(SpanBoxes(sorted)).y0
    ensures exists s :: s in ss && s.bbox.x1 == Envelope(SpanBoxes(sorted)).x1
    ensures exists s :: s in ss && s.bbox.y1 == Envelope(SpanBoxes(sorted)).y1
  {
    var boxes := SpanBoxes(sorted);
    var e := Envelope(boxes);
    forall s | s in ss
      ensures Within(s.bbox, e)
    {
      assert s in multiset(sorted);
      var i :| 0 <= i < |sorted| && sorted[i] == s;
      assert boxes[i] == s.bbox;
    }
    var b :| 0 <= b < |boxes| && e.x0 == boxes[b].x0;
    assert sorted[b] in multiset(ss);
    var c :| 0 <= c < |boxes| && e.y0 == boxes[c].y0;
    assert sorted[c] in multiset(ss);
    var d :| 0 <= d < |boxes| && e.x1 == boxes[d].x1;
    assert sorted[d] in multiset(ss);
    var f :| 0 <= f < |boxes| && e.y1 == boxes[f].y1;
    assert sorted[f] in multiset(ss);
  }

  /** The item's size is the largest span size and its box the envelope of
      the span boxes: it contains every span's box, and each of its edges
      is the edge of some span. */
  lemma AssembledMeasures(ss: seq<Span>, page: nat) returns (it: Item)
    requires AssembleLine(ss, page).Some?
    ensures it == AssembleLine(ss, page).value
    ensures forall s :: s in ss ==> s.size <= it.size && Within(s.bbox, it.bbox)
    ensures exists s :: s in ss && s.size == it.size
    ensures exists s :: s in ss && s.bbox.x0 == it.bbox.x0
    ensures exists s :: s in ss && s.bbox.y0 == it.bbox.y0
    ensures exists s :: s in ss && s.bbox.x1 == it.bbox.x1
    ensures exists s :: s in ss && s.bbox.y1 == it.bbox.y1
  {
    it := AssembleLine(ss, page).value;
    if |ss| > 1 {
      var sorted := SortBy(ss, SpanX0);
      assert it.size == MaxOf(SpanSizes(sorted)) && it.bbox == Envelope(SpanBoxes(sorted));
      SizeOfReordering(ss, sorted);
      BoxOfReordering(ss, sorted);
    } else {
      assert ss[0] in ss;
      assert it.size == ss[0].size && it.bbox == ss[0].bbox;
    }
  }

  /** A sub-line of surviving spans always yields an item, and its text is
      the span texts in x0 order with one space at every wide gap and nothing
      at the narrow ones. */
  lemma KeptLineText(ss: seq<Span>, page: nat)
    requires ss != [] && forall s :: s in ss ==> Keep(s.text)
    ensures AssembleLine(ss, page).Some?
    ensures var text := AssembleLine(ss, page).value.text;
            var sorted := SortBy(ss, SpanX0);
            && text == Interleave(StrippedTexts(sorted), WideGapFlags(sorted))
            && RemoveSpaces(text) == RemoveSpaces(Flatten(StrippedTexts(sorted)))
            && |text| == |Flatten(StrippedTexts(sorted))| + CountTrue(WideGapFlags(sorted))
  {
    var sorted := SortBy(ss, SpanX0);
    SortedKeptPieces(ss);
    if |ss| == 1 {
      SingleSpanLine(ss, page);
    } else {
      ManySpanLine(ss, page);
    }
  }

  /** Several spans with clean pieces make one line of their interleaved
      pieces. */
  lemma ManySpanLine(ss: seq<Span>, page: nat)
    requires |ss| > 1
    requires LongCleanPieces(StrippedTexts(SortBy(ss, SpanX0)))
    ensures AssembleLine(ss, page).Some?
    ensures var text := AssembleLine(ss, page).value.text;
            var sorted := SortBy(ss, SpanX0);
            && text == Interleave(StrippedTexts(sorted), WideGapFlags(sorted))
            && RemoveSpaces(text) == RemoveSpaces(Flatten(StrippedTexts(sorted)))
            && |text| == |Flatten(StrippedTexts(sorted))| + CountTrue(WideGapFlags(sorted))
  {
    var sorted := SortBy(ss, SpanX0);
    var ts := StrippedTexts(sorted);
    var w := WideGapFlags(sorted);
    InterleavedLine(ts, w);
    assert CombineTexts(sorted) == Interleave(ts, w);
  }

  /** Pieces of at least three characters with no space at either end. */
  predicate LongCleanPieces(ts: seq<String>) {
    forall i :: 0 <= i < |ts| ==> ts[i] != [] && NoEdgeSpace(ts[i]) && |ts[i]| >= 3
  }

  /** After sorting, every stripped piece of a surviving span is at least
      three characters long with no space at either end. */
  lemma SortedKeptPieces(ss: seq<Span>)
    requires forall s :: s in ss ==> Keep(s.text)
    ensures LongCleanPieces(StrippedTexts(SortBy(ss, SpanX0)))
  {
    var sorted := SortBy(ss, SpanX0);
    var ts := StrippedTexts(sorted);
    forall i | 0 <= i < |ts|
      ensures ts[i] != [] && NoEdgeSpace(ts[i]) && |ts[i]| >= 3
    {
      SortedMembers(ss, i);
      KeptTextIsLong(sorted[i].text);
    }
  }

  /** Interleaving clean pieces gives a text that stripping leaves alone,
      longer than one character, with the pieces' characters and one extra
      space per wide gap. */
  lemma InterleavedLine(ts: seq<String>, wide: seq<bool>)
    requires |ts| == |wide| + 1 && LongCleanPieces(ts)
    ensures var t := Interleave(ts, wide);
            && Strip(t) == t && |t| > 1
            && RemoveSpaces(t) == RemoveSpaces(Flatten(ts))
            && |t| == |Flatten(ts)| + CountTrue(wide)
  {
    InterleaveEdges(ts, wide);
    InterleaveOnlyAddsSpaces(ts, wide);
    InterleaveLength(ts, wide);
    StripNoEdge(Interleave(ts, wide));
  }

  /** A single surviving span is its own line. */
  lemma SingleSpanLine(ss: seq<Span>, page: nat)
    requires |ss| == 1 && Keep(ss[0].text)
    ensures AssembleLine(ss, page).Some?
    ensures var text := AssembleLine(ss, page).value.text;
            var sorted := SortBy(ss, SpanX0);
            && text == Interleave(StrippedTexts(sorted), WideGapFlags(sorted))
            && RemoveSpaces(text) == RemoveSpaces(Flatten(StrippedTexts(sorted)))
            && |text| == |Flatten(StrippedTexts(sorted))| + CountTrue(WideGapFlags(sorted))
  {
    var sorted := SortBy(ss, SpanX0);
    assert sorted == ss by {
      assert sorted[0] in multiset(ss);
    }
    KeptTextIsLong(ss[0].text);
    var ts := StrippedTexts(sorted);
    assert Flatten(ts) == ts[0];
    assert WideGapFlags(sorted) == [];
  }

  function AssembleSubLine(sl: SubLine): Option<Item> {
    AssembleLine(sl.spans, sl.page)
  }

  function SubLinePage(sl: SubLine): int { sl.page }

  function ItemPage(it: Item): int { it.page }

  /** Items come out in the order of their sub-lines' pages. */
  lemma AssembledInOrder(sls: seq<SubLine>)
    requires Ascending(sls, SubLinePage)
    ensures Ascending(FilterMap(sls, AssembleSubLine), ItemPage)
  {
    forall sl | sl in sls && AssembleSubLine(sl).Some?
      ensures ItemPage(AssembleSubLine(sl).value) == SubLinePage(sl)
    {
    }
    FilterMapOrdered(sls, AssembleSubLine, SubLinePage, ItemPage);
  }

  /** gather_spans_production with the decoder's output passed in: one item
      per sub-line that yields one, page by page, each tagged with an
      existing page. */
  function GatherSpans(doc: Document, r: Rounding): (items: seq<Item>)
    ensures forall i, j :: 0 <= i < j < |items| ==> items[i].page <= items[j].page
    ensures forall it :: it in items ==> it.page < |doc.pages| && |it.text| > 1 && NoEdgeSpace(it.text)
  {
    var sls := DocSubLines(doc.pages, r, Survives);
    TagPagesAscending(doc.pages, 0, PageStep(r, Survives));
    AssembledInOrder(sls);
    FilterMapAll(sls, AssembleSubLine, (it: Item) => it.page < |doc.pages| && |it.text| > 1 && NoEdgeSpace(it.text));
    var items := FilterMap(sls, AssembleSubLine);
    assert forall i, j :: 0 <= i < j < |items| ==> ItemPage(items[i]) <= ItemPage(items[j]);
    items
  }

  /** No noise reaches an item: every item is assembled from one sub-line
      whose spans all survive both noise predicates and all come from the
      page the item is tagged with. */
  lemma GatherIsNoiseFree(doc: Document, r: Rounding, it: Item)
    requires it in GatherSpans(doc, r)
    ensures exists sl :: && sl in DocSubLines(doc.pages, r, Survives)
                         && AssembleSubLine(sl) == Some(it)
                         && forall s :: s in sl.spans ==>
                              && s in PageSpans(doc.pages[it.page].blocks)
                              && !IsDecorativeText(Strip(s.text))
                              && !IsLikelyLink(Strip(s.text))
  {
    var sls := DocSubLines(doc.pages, r, Survives);
    assert GatherSpans(doc, r) == FilterMap(sls, AssembleSubLine);
    var sl := FilterMapOrigin(sls, AssembleSubLine, it);
    SubLineNoiseFree(doc.pages, r, sl, it);
  }

  /** The spans an assembled sub-line comes from all survive and belong to
      the item's page. */
  lemma SubLineNoiseFree(pages: seq<Page>, r: Rounding, sl: SubLine, it: Item)
    requires sl in DocSubLines(pages, r, Survives) && AssembleSubLine(sl) == Some(it)
    ensures forall s :: s in sl.spans ==>
              && s in PageSpans(pages[it.page].blocks)
              && !IsDecorativeText(Strip(s.text))
              && !IsLikelyLink(Strip(s.text))
  {
    forall s | s in sl.spans
      ensures s in PageSpans(pages[it.page].blocks) && Survives(s)
    {
      DocSubLinesClean(pages, r, Survives, sl, s);
    }
  }
}

=== FILE: noise.dfy ===
/** The two noise predicates: decorative filler and anything that looks like
    a link or an address. Regular expressions are written out as predicates
    over the characters; \w is the ASCII approximation from Text. */
module Noise {
  import opened Text

  /** ^[.\-_=\s]{3,}$ */
  predicate IsFiller(t: String) {
    |t| >= 3 && forall i :: 0 <= i < |t| ==> t[i] in ".-_=" || IsSpace(t[i])
  }

  /** set(t.replace(' ', '')) */
  function NonSpaceChars(t: String): (cs: set<char>)
    ensures forall c :: c in cs <==> c in t && c != ' '
    ensures |cs| <= |t|
  {
    if t == [] then {}
    else
      var rest := NonSpaceChars(t[1..]);
      assert forall c :: c in t <==> c == t[0] || c in t[1..];
      if t[0] == ' ' || t[0] in rest then rest else rest + {t[0]}
  }

  /** @.*\.com : an '@' followed, on the same line, by ".com". */
  predicate HasAtDotCom(s: String) {
    exists i, j | 0 <= i < j <= |s| - 4 ::
      s[i] == '@' && OccursAt(s, ".com", j) && '\n' !in s[i + 1..j]
  }

  /** re.search(r'(https?://|www\.|@.*\.com)', s) */
  predicate HasWebMarker(s: String) {
    Contains(s, "http://") || Contains(s, "https://") || Contains(s, "www.") || HasAtDotCom(s)
  }

  /** is_decorative_text (main.py:226-229) */
  predicate IsDecorativeText(text: String) {
    || IsFiller(text)
    || |NonSpaceChars(Strip(text))| <= 2
    || HasWebMarker(Lower(text))
  }

  /** A top-level-domain suffix followed by a word boundary: \.com\b etc. */
  predicate HasDomain(s: String, suffix: String) {
    exists i | 0 <= i <= |s| - |suffix| ::
      OccursAt(s, suffix, i) && (i + |suffix| == |s| || !IsWordChar(s[i + |suffix|]))
  }

  /** @\w+\. */
  predicate HasAtWordDot(s: String) {
    exists i, j | 0 <= i && i + 1 < j < |s| ::
      s[i] == '@' && s[j] == '.' && forall k :: i < k < j ==> IsWordChar(s[k])
  }

  /** is_likely_link (main.py:231-251) */
  predicate IsLikelyLink(text: String) {
    var t := Lower(Strip(text));
    || Contains(t, "http://") || Contains(t, "https://")
    || Contains(t, "www.") || Contains(t, "ftp://") || Contains(t, "mailto:")
    || HasDomain(t, ".com") || HasDomain(t, ".org") || HasDomain(t, ".net")
    || HasDomain(t, ".edu") || HasDomain(t, ".gov")
    || HasAtWordDot(t)
  }

  /** The five explicit link markers of main.py:235-238. */
  predicate IsLinkMarker(p: String) {
    p == "http://" || p == "https://" || p == "www." || p == "ftp://" || p == "mailto:"
  }

  lemma LowerFixed(p: String)
    requires forall i :: 0 <= i < |p| ==> !('A' <= p[i] <= 'Z')
    ensures Lower(p) == p
  {
  }

  /** Any text that contains one of the explicit markers anywhere is a link,
      whatever surrounds it and whatever its case elsewhere. */
  lemma MarkerMakesLink(text: String, p: String)
    requires IsLinkMarker(p) && Contains(text, p)
    ensures IsLikelyLink(text)
  {
    assert IsWord(p);
    LowerFixed(p);
    StripKeepsWord(text, p);
    LowerKeepsPattern(Strip(text), p);
  }

  /** Every text whose stripped form has at most two characters counts as
      decorative, because it cannot have three distinct characters. */
  lemma ShortTextIsDecorative(text: String)
    requires |Strip(text)| <= 2
    ensures IsDecorativeText(text)
  {
  }
}

=== FILE: scenarios.dfy ===
/** Concrete cases worked through the model, including two behaviours of
    main.py that are easy to miss. */
module Scenarios {
  import opened Text
  import opened Seqs
  import opened Layout
  import opened Noise
  import opened Lines
  import opened Title
  import opened Fragments
  import opened Headings
  import opened HeadingMerge

  /** A lone digit set in front of ".1 Scope" does not survive the noise
      filter (it has fewer than three distinct non-blank characters), so the
      line reads ".1 Scope", not "1.1 Scope". */
  lemma LoneDigitIsDropped()
    ensures !Keep("1")
    ensures IsDecorativeText("1")
  {
    assert Strip("1") == "1";
  }

  /** The drop-cap rule asks whether the next piece, as written, starts
      with the lower case of the single letter: "T" then "the" is glued,
      "T" then "The" is not, and neither is "T" then "he". */
  lemma DropCapIsCaseSensitive()
    ensures !JoinsWithoutSpace("T", "The")
    ensures !JoinsWithoutSpace("T", "he")
    ensures JoinsWithoutSpace("T", "the")
  {
    assert LowerChar('T') == 't';
    assert "T"[0..] == "T";
    assert "The"[..1][0] == 'T';
    assert "he"[..1] == "h";
    assert "the"[..1] == "t";
  }

  /** "Q&A" is too short and has no space, and the allowlist never holds it. */
  lemma ShortWordIsLowQuality()
    ensures !IsHighQualityHeading("Q&A")
    ensures !IsHighQualityHeading("Intro")
    ensures IsHighQualityHeading("Overview")
  {
    QualityAllowlistIsDead("Q&A");
    QualityAllowlistIsDead("Intro");
    QualityAllowlistIsDead("Overview");
    assert "Overview"[0] == 'O';
  }

  /** A run of symbols before a final newline is only symbols: Python's `$`
      matches before that newline. */
  lemma TrailingNewlineSymbolsAreLowQuality()
    ensures AllSymbols("!!!!!!\n") && !SymbolsOnly("!!!!!!\n")
    ensures !IsHighQualityHeading("!!!!!!\n")
  {
    var t := "!!!!!!\n";
    assert t[..|t| - 1] == "!!!!!!";
    assert IsSpace(t[6]);
  }

  /** A repeated title is reduced to one copy. */
  lemma RepeatedTitleIsHalved()
    ensures CleanTitle("Annual Report Annual Report") == "Annual Report"
  {
    var w := ["Annual", "Report"];
    assert JoinSpace(w) == "Annual Report";
    assert JoinSpace(w + w) == "Annual Report Annual Report";
    CleanTitleUndoubles(w);
  }

  lemma GuideToMayJoin()
    ensures MayJoin(Heading("Guide to", 1, 2), Heading("Testing", 1, 2))
  {
    assert "Guide to"[6..] == "to";
    assert EndsWithJoiner("Guide to");
    assert "Testing"[..2] == "Te";
    assert "Testing"[..5] == "Testi";
    assert !StartsWithNumberingOrSection("Testing");
  }

  /** "Guide to" and "Testing" form one run. */
  lemma GuideToRun()
    ensures MergeRuns([Heading("Guide to", 1, 2), Heading("Testing", 1, 2)])
            == [[Heading("Guide to", 1, 2), Heading("Testing", 1, 2)]]
  {
    var hs := [Heading("Guide to", 1, 2), Heading("Testing", 1, 2)];
    GuideToMayJoin();
    assert ExtendRun(hs, MayJoin, false, 2) == 2;
    assert ExtendRun(hs, MayJoin, false, 1) == 2;
    assert hs[..2] == hs && hs[2..] == [];
  }

  lemma GuideToText()
    ensures JoinSpace(HeadingTexts([Heading("Guide to", 1, 2), Heading("Testing", 1, 2)]))
            == "Guide to Testing"
  {
    var hs := [Heading("Guide to", 1, 2), Heading("Testing", 1, 2)];
    assert HeadingTexts(hs) == ["Guide to", "Testing"];
    assert JoinSpace(["Testing"]) == "Testing";
  }

  /** A heading ending in "to" absorbs the next short heading of its page
      and level. */
  lemma DanglingWordJoinsNextHeading()
    ensures MergeRelatedHeadings([Heading("Guide to", 1, 2), Heading("Testing", 1, 2)])
            == [Heading("Guide to Testing", 1, 2)]
  {
    var hs := [Heading("Guide to", 1, 2), Heading("Testing", 1, 2)];
    GuideToRun();
    GuideToText();
    MergedHeading(hs, 0);
  }
}

=== FILE: seqs.dfy ===
/** Generic sequence operations the pipeline is built from: Python's
    insertion-ordered dict grouping, its stable sort, and the "extend the
    current run while the next element qualifies" loops. */
module Seqs {

  function Flatten<T>(xss: seq<seq<T>>): seq<T> {
    if xss == [] then [] else xss[0] + Flatten(xss[1..])
  }

  datatype Option<T> = None | Some(value: T)

  /** [f(x) for x in xs] */
  function Map<A, B>(xs: seq<A>, f: A -> B): (ys: seq<B>)
    ensures |ys| == |xs| && forall i :: 0 <= i < |xs| ==> ys[i] == f(xs[i])
  {
    seq(|xs|, i requires 0 <= i < |xs| => f(xs[i]))
  }

  /** The results of f on xs that are present, in order. */
  function FilterMap<T(!new), U(!new)>(xs: seq<T>, f: T -> Option<U>): (ys: seq<U>)
    ensures |ys| <= |xs|
  {
    if xs == [] then []
    else (match f(xs[0]) case Some(y) => [y] case None => []) + FilterMap(xs[1..], f)
  }

  /** The ranks of ys never decrease from left to right. */
  ghost predicate Ascending<U>(ys: seq<U>, ry: U -> int) {
    forall i, j :: 0 <= i < j < |ys| ==> ry(ys[i]) <= ry(ys[j])
  }

  lemma AscendingCons<U>(y: U, rest: seq<U>, ry: U -> int)
    requires Ascending(rest, ry)
    requires forall z :: z in rest ==> ry(y) <= ry(z)
    ensures Ascending([y] + rest, ry)
  {
    var ys := [y] + rest;
    forall i, j | 0 <= i < j < |ys|
      ensures ry(ys[i]) <= ry(ys[j])
    {
      assert ys[j] == rest[j - 1];
      if i > 0 {
        assert ys[i] == rest[i - 1];
      }
    }
  }

  /** Results keep the order of their sources: when f carries the rank of
      its argument over to its result, a ranked-ascending input gives a
      ranked-ascending output. */
  lemma {:induction false} FilterMapOrdered<T(!new), U(!new)>(xs: seq<T>, f: T -> Option<U>, rx: T -> int, ry: U -> int)
    requires forall x :: x in xs && f(x).Some? ==> ry(f(x).value) == rx(x)
    requires Ascending(xs, rx)
    ensures Ascending(FilterMap(xs, f), ry)
  {
    if xs != [] {
      var rest := FilterMap(xs[1..], f);
      assert Ascending(xs[1..], rx) by {
        forall i, j | 0 <= i < j < |xs[1..]|
          ensures rx(xs[1..][i]) <= rx(xs[1..][j])
        {
          assert xs[1..][i] == xs[i + 1] && xs[1..][j] == xs[j + 1];
        }
      }
      FilterMapOrdered(xs[1..], f, rx, ry);
      match f(xs[0]) {
        case Some(y0) =>
          forall z | z in rest
            ensures ry(y0) <= ry(z)
          {
            var x := FilterMapOrigin(xs[1..], f, z);
            var k :| 0 <= k < |xs[1..]| && xs[1..][k] == x;
            assert xs[k + 1] == x;
            assert xs[0] in xs;
          }
          AscendingCons(y0, rest, ry);
          assert FilterMap(xs, f) == [y0] + rest;
        case None =>
          assert FilterMap(xs, f) == rest;
      }
    }
  }

  /** The elements of xs that satisfy f, in their original order. */
  function Filter<T(!new)>(xs: seq<T>, f: T -> bool): (r: seq<T>)
    ensures |r| <= |xs|
    ensures forall x :: x in r <==> x in xs && f(x)
  {
    if xs == [] then [] else (if f(xs[0]) then [xs[0]] else []) + Filter(xs[1..], f)
  }

  /** The elements of xs whose key is k, in their original order. */
  function Select<T, K(==)>(xs: seq<T>, key: T -> K, k: K): seq<T> {
    if xs == [] then []
    else (if key(xs[0]) == k then [xs[0]] else []) + Select(xs[1..], key, k)
  }

  lemma {:induction false} FlattenMember<T>(gs: seq<seq<T>>, i: int, x: T)
    requires 0 <= i < |gs| && x in gs[i]
    ensures x in Flatten(gs) && x in multiset(Flatten(gs))
  {
    if i > 0 {
      FlattenMember(gs[1..], i - 1, x);
    }
  }

  /** The concatenation of f(x) over the elements x of xs, in order. */
  function FlatMap<A, B>(xs: seq<A>, f: A -> seq<B>): seq<B> {
    if xs == [] then [] else f(xs[0]) + FlatMap(xs[1..], f)
  }

  /** Every position of a flat-map comes from some position of the image of
      some element. */
  lemma {:induction false} FlatMapIndex<A, B>(xs: seq<A>, f: A -> seq<B>, i: int) returns (k: int, j: int)
    requires 0 <= i < |FlatMap(xs, f)|
    ensures 0 <= k < |xs| && 0 <= j < |f(xs[k])| && FlatMap(xs, f)[i] == f(xs[k])[j]
    decreases |xs|
  {
    var here := f(xs[0]);
    assert FlatMap(xs, f) == here + FlatMap(xs[1..], f);
    if i < |here| {
      k, j := 0, i;
    } else {
      var k', j' := FlatMapIndex(xs[1..], f, i - |here|);
      k, j := k' + 1, j';
      assert xs[1..][k'] == xs[k];
    }
  }

  /** The image of every element is kept in the flat-map. */
  lemma {:induction false} FlatMapMember<A, B>(xs: seq<A>, f: A -> seq<B>, k: int, y: B)
    requires 0 <= k < |xs| && y in f(xs[k])
    ensures y in FlatMap(xs, f)
    decreases |xs|
  {
    if k > 0 {
      assert xs[1..][k - 1] == xs[k];
      FlatMapMember(xs[1..], f, k - 1, y);
    }
  }

  lemma {:induction false} FlattenAppend<T>(xss: seq<seq<T>>, ys: seq<T>)
    ensures Flatten(xss + [ys]) == Flatten(xss) + ys
  {
    if xss == [] {
      assert [] + [ys] == [ys];
    } else {
      assert (xss + [ys])[1..] == xss[1..] + [ys];
      FlattenAppend(xss[1..], ys);
    }
  }

  lemma {:induction false} FlattenConcat<T>(xss: seq<seq<T>>, yss: seq<seq<T>>)
    ensures Flatten(xss + yss) == Flatten(xss) + Flatten(yss)
  {
    if xss == [] {
      assert xss + yss == yss;
    } else {
      assert (xss + yss)[1..] == xss[1..] + yss;
      FlattenConcat(xss[1..], yss);
    }
  }

  /** Appending x to one group adds exactly x to the flattened contents. */
  lemma {:induction false} FlattenGrow<T>(xss: seq<seq<T>>, i: int, x: T)
    requires 0 <= i < |xss|
    ensures multiset(Flatten(xss[i := xss[i] + [x]])) == multiset(Flatten(xss)) + multiset{x}
  {
    var yss := xss[i := xss[i] + [x]];
    if i == 0 {
      assert yss == [xss[0] + [x]] + xss[1..];
      assert yss[1..] == xss[1..];
      assert Flatten(yss) == xss[0] + [x] + Flatten(xss[1..]);
      assert Flatten(xss) == xss[0] + Flatten(xss[1..]);
    } else {
      assert yss[1..] == xss[1..][i - 1 := xss[1..][i - 1] + [x]];
      FlattenGrow(xss[1..], i - 1, x);
      assert Flatten(yss) == xss[0] + Flatten(yss[1..]);
    }
  }

  lemma {:induction false} SelectAppend<T, K>(xs: seq<T>, ys: seq<T>, key: T -> K, k: K)
    ensures Select(xs + ys, key, k) == Select(xs, key, k) + Select(ys, key, k)
  {
    if xs == [] {
      assert xs + ys == ys;
    } else {
      var h := if key(xs[0]) == k then [xs[0]] else [];
      assert (xs + ys)[0] == xs[0];
      assert (xs + ys)[1..] == xs[1..] + ys;
      SelectAppend(xs[1..], ys, key, k);
      calc {
        Select(xs + ys, key, k);
        h + Select(xs[1..] + ys, key, k);
        h + (Select(xs[1..], key, k) + Select(ys, key, k));
        { assert h + (Select(xs[1..], key, k) + Select(ys, key, k)) == (h + Select(xs[1..], key, k)) + Select(ys, key, k); }
        (h + Select(xs[1..], key, k)) + Select(ys, key, k);
      }
    }
  }

  lemma {:induction false} SelectNone<T, K>(xs: seq<T>, key: T -> K, k: K)
    requires forall x :: x in xs ==> key(x) != k
    ensures Select(xs, key, k) == []
  {
    if xs != [] {
      SelectNone(xs[1..], key, k);
    }
  }

  // ---------------------------------------------------------------------
  // Grouping by key in order of first occurrence (a Python dict of lists)

  predicate NonEmptyGroups<T>(gs: seq<seq<T>>) {
    forall i :: 0 <= i < |gs| ==> gs[i] != []
  }

  /** Non-empty groups are no more numerous than their members. */
  lemma NonEmptyGroupsConcat<T>(a: seq<seq<T>>, b: seq<seq<T>>)
    requires NonEmptyGroups(a) && NonEmptyGroups(b)
    ensures NonEmptyGroups(a + b)
  {
    forall i | 0 <= i < |a + b|
      ensures (a + b)[i] != []
    {
      if i >= |a| {
        assert (a + b)[i] == b[i - |a|];
      }
    }
  }

  lemma {:induction false} FlattenLength<T>(gs: seq<seq<T>>)
    requires NonEmptyGroups(gs)
    ensures |gs| <= |Flatten(gs)|
    ensures gs != [] <==> Flatten(gs) != []
  {
    if gs != [] {
      FlattenLength(gs[1..]);
    }
  }

  /** Position of the group whose members have key k, or |gs| when there is none. */
  function GroupIndex<T, K(==)>(gs: seq<seq<T>>, key: T -> K, k: K): (i: nat)
    requires NonEmptyGroups(gs)
    ensures i <= |gs|
    ensures i < |gs| ==> key(gs[i][0]) == k
    ensures forall j :: 0 <= j < i ==> key(gs[j][0]) != k
  {
    if gs == [] then 0
    else if key(gs[0][0]) == k then 0
    else 1 + GroupIndex(gs[1..], key, k)
  }

  /** `groups.setdefault(key(x), []).append(x)` for each x in turn. */
  function GroupBy<T, K(==)>(xs: seq<T>, key: T -> K): (gs: seq<seq<T>>)
    ensures NonEmptyGroups(gs)
    decreases |xs|
  {
    if xs == [] then []
    else
      var gs := GroupBy(xs[..|xs| - 1], key);
      var x := xs[|xs| - 1];
      var i := GroupIndex(gs, key, key(x));
      if i < |gs| then gs[i := gs[i] + [x]] else gs + [[x]]
  }

  /** What a grouping is: groups have pairwise distinct keys, each group is
      exactly the elements of xs with its key in their original order, every
      element of xs has a group, and no element is lost or duplicated. */
  ghost predicate IsGrouping<T, K>(xs: seq<T>, key: T -> K, gs: seq<seq<T>>)
    requires NonEmptyGroups(gs)
  {
    && (forall i, j :: 0 <= i < j < |gs| ==> key(gs[i][0]) != key(gs[j][0]))
    && (forall i :: 0 <= i < |gs| ==> gs[i] == Select(xs, key, key(gs[i][0])))
    && (forall x :: x in xs ==> GroupIndex(gs, key, key(x)) < |gs|)
    && multiset(Flatten(gs)) == multiset(xs)
  }

  lemma GroupByIsGrouping<T, K>(xs: seq<T>, key: T -> K)
    ensures IsGrouping(xs, key, GroupBy(xs, key))
  {
    GroupByDistinct(xs, key);
    GroupByCovers(xs, key);
    GroupBySelects(xs, key);
    GroupByMultiset(xs, key);
  }

  /** One step of GroupBy: the groups before the last element arrived. */
  lemma GroupByStep<T, K>(xs: seq<T>, key: T -> K)
    requires xs != []
    ensures var gs := GroupBy(xs[..|xs| - 1], key);
            var x := xs[|xs| - 1];
            var i := GroupIndex(gs, key, key(x));
            GroupBy(xs, key) == if i < |gs| then gs[i := gs[i] + [x]] else gs + [[x]]
  {
  }

  lemma {:induction false} GroupByDistinct<T, K>(xs: seq<T>, key: T -> K)
    ensures var gs := GroupBy(xs, key);
            forall i, j :: 0 <= i < j < |gs| ==> key(gs[i][0]) != key(gs[j][0])
    decreases |xs|
  {
    if xs != [] {
      var p := xs[..|xs| - 1];
      var gs := GroupBy(p, key);
      GroupByDistinct(p, key);
      GroupByStep(xs, key);
      var r := GroupBy(xs, key);
      assert forall j :: 0 <= j < |gs| ==> r[j][0] == gs[j][0];
    }
  }

  lemma {:induction false} GroupByCovers<T, K>(xs: seq<T>, key: T -> K)
    ensures var gs := GroupBy(xs, key);
            forall x :: x in xs ==> GroupIndex(gs, key, key(x)) < |gs|
    decreases |xs|
  {
    if xs != [] {
      var p := xs[..|xs| - 1];
      var x := xs[|xs| - 1];
      assert xs == p + [x];
      var gs := GroupBy(p, key);
      GroupByCovers(p, key);
      GroupByStep(xs, key);
      var r := GroupBy(xs, key);
      assert forall j :: 0 <= j < |gs| ==> r[j][0] == gs[j][0];
      forall y | y in xs
        ensures GroupIndex(r, key, key(y)) < |r|
      {
        GroupIndexPrefix(gs, r, key, key(y));
      }
    }
  }

  lemma {:induction false} GroupBySelects<T, K>(xs: seq<T>, key: T -> K)
    ensures var gs := GroupBy(xs, key);
            forall i :: 0 <= i < |gs| ==> gs[i] == Select(xs, key, key(gs[i][0]))
    decreases |xs|
  {
    if xs != [] {
      var p := xs[..|xs| - 1];
      var x := xs[|xs| - 1];
      assert xs == p + [x];
      var gs := GroupBy(p, key);
      GroupBySelects(p, key);
      GroupByCovers(p, key);
      GroupByDistinct(p, key);
      GroupByStep(xs, key);
      var i := GroupIndex(gs, key, key(x));
      var r := GroupBy(xs, key);
      forall j | 0 <= j < |r|
        ensures r[j] == Select(xs, key, key(r[j][0]))
      {
        var k := key(r[j][0]);
        SelectAppend(p, [x], key, k);
        assert Select([x], key, k) == if key(x) == k then [x] else [];
        if j < |gs| {
          assert r[j][0] == gs[j][0];
          if j == i {
            assert r[j] == gs[j] + [x];
          } else {
            assert r[j] == gs[j];
            assert key(x) != k;
          }
        } else {
          assert r[j] == [x];
          forall y | y in p
            ensures key(y) != key(x)
          {
            assert GroupIndex(gs, key, key(y)) < |gs|;
          }
          SelectNone(p, key, key(x));
        }
      }
    }
  }

  lemma {:induction false} GroupByMultiset<T, K>(xs: seq<T>, key: T -> K)
    ensures multiset(Flatten(GroupBy(xs, key))) == multiset(xs)
    decreases |xs|
  {
    if xs != [] {
      var p := xs[..|xs| - 1];
      var x := xs[|xs| - 1];
      assert xs == p + [x];
      var gs := GroupBy(p, key);
      GroupByMultiset(p, key);
      GroupByStep(xs, key);
      var i := GroupIndex(gs, key, key(x));
      if i < |gs| {
        FlattenGrow(gs, i, x);
      } else {
        FlattenAppend(gs, [x]);
      }
    }
  }

  /** Growing one group or adding a group at the end leaves every earlier
      lookup where it was. */
  lemma {:induction false} GroupIndexPrefix<T, K>(gs: seq<seq<T>>, r: seq<seq<T>>, key: T -> K, k: K)
    requires NonEmptyGroups(gs) && NonEmptyGroups(r)
    requires |gs| <= |r|
    requires forall j :: 0 <= j < |gs| ==> key(r[j][0]) == key(gs[j][0])
    requires GroupIndex(gs, key, k) == |gs| ==> (|gs| < |r| && key(r[|gs|][0]) == k)
    ensures GroupIndex(r, key, k) < |r|
    ensures GroupIndex(gs, key, k) < |gs| ==> GroupIndex(r, key, k) == GroupIndex(gs, key, k)
    decreases |gs|
  {
    if gs != [] {
      if key(gs[0][0]) != k {
        GroupIndexPrefix(gs[1..], r[1..], key, k);
      }
    }
  }

  // ---------------------------------------------------------------------
  // Stable sorting on (real, real) keys, compared lexicographically as
  // Python compares tuples of floats.

  type SortKey = (real, real)

  predicate KeyLe(a: SortKey, b: SortKey) {
    a.0 < b.0 || (a.0 == b.0 && a.1 <= b.1)
  }

  ghost predicate SortedBy<T>(xs: seq<T>, key: T -> SortKey) {
    forall i, j :: 0 <= i < j < |xs| ==> KeyLe(key(xs[i]), key(xs[j]))
  }

  /** Inserts x before the first element whose key is not smaller. */
  function Insert<T>(x: T, xs: seq<T>, key: T -> SortKey): (r: seq<T>)
    ensures |r| == |xs| + 1
    ensures multiset(r) == multiset(xs) + multiset{x}
  {
    if xs == [] || KeyLe(key(x), key(xs[0])) then [x] + xs
    else
      assert xs == [xs[0]] + xs[1..];
      [xs[0]] + Insert(x, xs[1..], key)
  }

  lemma {:induction false} InsertSorted<T>(x: T, xs: seq<T>, key: T -> SortKey)
    requires SortedBy(xs, key)
    ensures SortedBy(Insert(x, xs, key), key)
  {
    if xs == [] || KeyLe(key(x), key(xs[0])) {
      ConsSorted(x, xs, key);
    } else {
      var rest := Insert(x, xs[1..], key);
      assert SortedBy(xs[1..], key);
      InsertSorted(x, xs[1..], key);
      forall y | y in rest
        ensures KeyLe(key(xs[0]), key(y))
      {
        assert y in multiset(rest);
        if y != x {
          assert y in multiset(xs[1..]);
          var i :| 0 <= i < |xs[1..]| && xs[1..][i] == y;
          assert y == xs[i + 1];
        }
      }
      ConsSorted(xs[0], rest, key);
    }
  }

  /** Putting in front an element whose key is at most every other key
      keeps a sorted sequence sorted. */
  lemma ConsSorted<T>(a: T, rest: seq<T>, key: T -> SortKey)
    requires SortedBy(rest, key)
    requires forall y :: y in rest ==> KeyLe(key(a), key(y))
    ensures SortedBy([a] + rest, key)
  {
    var r := [a] + rest;
    forall i, j | 0 <= i < j < |r|
      ensures KeyLe(key(r[i]), key(r[j]))
    {
      assert r[j] == rest[j - 1];
      if i > 0 {
        assert r[i] == rest[i - 1];
      }
    }
  }

  /** Inserting x only adds x to the subsequence of its own key, in front:
      everything before it has a strictly smaller key. */
  lemma {:induction false} InsertSelect<T>(x: T, xs: seq<T>, key: T -> SortKey, k: SortKey)
    ensures Select(Insert(x, xs, key), key, k) == (if key(x) == k then [x] else []) + Select(xs, key, k)
  {
    if xs != [] && !KeyLe(key(x), key(xs[0])) {
      var rest := Insert(x, xs[1..], key);
      InsertSelect(x, xs[1..], key, k);
      assert Insert(x, xs, key) == [xs[0]] + rest;
      assert ([xs[0]] + rest)[1..] == rest;
      assert key(xs[0]) != key(x);
    } else {
      assert ([x] + xs)[1..] == xs;
    }
  }

  /** Python's sorted(xs, key=key): stable, so elements with equal keys keep
      their input order. */
  function SortBy<T>(xs: seq<T>, key: T -> SortKey): (r: seq<T>)
    ensures |r| == |xs|
    ensures multiset(r) == multiset(xs)
    ensures SortedBy(r, key)
    ensures forall k :: Select(r, key, k) == Select(xs, key, k)
  {
    if xs == [] then []
    else
      assert xs == [xs[0]] + xs[1..];
      var rest := SortBy(xs[1..], key);
      InsertSorted(xs[0], rest, key);
      SortSelectStep(xs, rest, key);
      Insert(xs[0], rest, key)
  }

  lemma SortSelectStep<T>(xs: seq<T>, rest: seq<T>, key: T -> SortKey)
    requires xs != []
    requires forall k :: Select(rest, key, k) == Select(xs[1..], key, k)
    ensures forall k :: Select(Insert(xs[0], rest, key), key, k) == Select(xs, key, k)
  {
    forall k
      ensures Select(Insert(xs[0], rest, key), key, k) == Select(xs, key, k)
    {
      InsertSelect(xs[0], rest, key, k);
    }
  }

  // ---------------------------------------------------------------------
  // Runs: the "take the current element, extend while the next one links"
  // loops. A chained run compares each new member with the previous one;
  // an unchained run compares it with the run's first member.

  /** The element the j-th member of a run is compared with. */
  function AnchorBefore<T>(run: seq<T>, j: int, chained: bool): T
    requires 1 <= j <= |run|
  {
    if chained then run[j - 1] else run[0]
  }

  /** The first n elements of xs form one run. */
  ghost predicate LinkedUpTo<T>(xs: seq<T>, n: int, link: (T, T) -> bool, chained: bool)
    requires n <= |xs|
  {
    forall j :: 1 <= j < n ==> link(AnchorBefore(xs, j, chained), xs[j])
  }

  ghost predicate Linked<T>(run: seq<T>, link: (T, T) -> bool, chained: bool) {
    LinkedUpTo(run, |run|, link, chained)
  }

  function ExtendRun<T>(xs: seq<T>, link: (T, T) -> bool, chained: bool, k: nat): (n: nat)
    requires 1 <= k <= |xs|
    requires LinkedUpTo(xs, k, link, chained)
    ensures k <= n <= |xs|
    ensures LinkedUpTo(xs, n, link, chained)
    ensures n < |xs| ==> !link(AnchorBefore(xs, n, chained), xs[n])
    decreases |xs| - k
  {
    if k < |xs| && link(AnchorBefore(xs, k, chained), xs[k]) then ExtendRun(xs, link, chained, k + 1)
    else k
  }

  lemma LinkedPrefix<T>(xs: seq<T>, n: int, link: (T, T) -> bool, chained: bool)
    requires 1 <= n <= |xs| && LinkedUpTo(xs, n, link, chained)
    ensures Linked(xs[..n], link, chained)
    ensures AnchorBefore(xs[..n], n, chained) == AnchorBefore(xs, n, chained)
  {
    forall j | 1 <= j < n
      ensures link(AnchorBefore(xs[..n], j, chained), xs[..n][j])
    {
      assert AnchorBefore(xs[..n], j, chained) == AnchorBefore(xs, j, chained);
    }
  }

  /** Splits xs into maximal runs, scanning left to right; a run ends where
      the next element does not link to its anchor. */
  function Runs<T>(xs: seq<T>, link: (T, T) -> bool, chained: bool): (rs: seq<seq<T>>)
    ensures Flatten(rs) == xs
    ensures NonEmptyGroups(rs)
    ensures forall i :: 0 <= i < |rs| ==> Linked(rs[i], link, chained)
    ensures forall i :: 0 <= i < |rs| - 1 ==>
              !link(AnchorBefore(rs[i], |rs[i]|, chained), rs[i + 1][0])
    decreases |xs|
  {
    if xs == [] then []
    else
      var n := ExtendRun(xs, link, chained, 1);
      var rest := Runs(xs[n..], link, chained);
      LinkedPrefix(xs, n, link, chained);
      assert xs == xs[..n] + xs[n..];
      assert rest != [] ==> Flatten(rest) == rest[0] + Flatten(rest[1..]);
      assert rest != [] ==> rest[0][0] == xs[n];
      RunsCons(xs[..n], rest, link, chained);
      [xs[..n]] + rest
  }

  /** A linked run in front of runs it does not link to stays a split into
      maximal runs. */
  lemma RunsCons<T>(g: seq<T>, rest: seq<seq<T>>, link: (T, T) -> bool, chained: bool)
    requires g != [] && Linked(g, link, chained)
    requires NonEmptyGroups(rest)
    requires forall i :: 0 <= i < |rest| ==> Linked(rest[i], link, chained)
    requires forall i :: 0 <= i < |rest| - 1 ==> !link(AnchorBefore(rest[i], |rest[i]|, chained), rest[i + 1][0])
    requires rest != [] ==> !link(AnchorBefore(g, |g|, chained), rest[0][0])
    ensures NonEmptyGroups([g] + rest)
    ensures forall i :: 0 <= i < |[g] + rest| ==> Linked(([g] + rest)[i], link, chained)
    ensures forall i :: 0 <= i < |[g] + rest| - 1 ==>
              !link(AnchorBefore(([g] + rest)[i], |([g] + rest)[i]|, chained), ([g] + rest)[i + 1][0])
  {
    var rs := [g] + rest;
    forall i | 0 <= i < |rs|
      ensures rs[i] != [] && Linked(rs[i], link, chained)
    {
      if i > 0 {
        assert rs[i] == rest[i - 1];
      }
    }
    forall i | 0 <= i < |rs| - 1
      ensures !link(AnchorBefore(rs[i], |rs[i]|, chained), rs[i + 1][0])
    {
      assert rs[i + 1] == rest[i];
      if i > 0 {
        assert rs[i] == rest[i - 1];
      }
    }
  }

  lemma {:induction false} ExtendRunAll<T>(xs: seq<T>, link: (T, T) -> bool, k: nat)
    requires 1 <= k <= |xs| && LinkedUpTo(xs, k, link, true)
    requires forall i :: 1 <= i < |xs| ==> link(xs[i - 1], xs[i])
    ensures ExtendRun(xs, link, true, k) == |xs|
    decreases |xs| - k
  {
    if k < |xs| {
      assert link(AnchorBefore(xs, k, true), xs[k]);
      ExtendRunAll(xs, link, k + 1);
    }
  }

  /** A chain in which every element links to the one before it is a
      single run. */
  lemma RunsWhenAllLinked<T>(xs: seq<T>, link: (T, T) -> bool)
    requires xs != []
    requires forall i :: 1 <= i < |xs| ==> link(xs[i - 1], xs[i])
    ensures Runs(xs, link, true) == [xs]
  {
    ExtendRunAll(xs, link, 1);
    assert xs[..|xs|] == xs;
    assert Runs(xs[|xs|..], link, true) == [];
  }

  /** The first run of a non-empty sequence is a prefix of it, is linked,
      and is cut where the next element fails to link. */
  lemma FirstRun<T>(xs: seq<T>, link: (T, T) -> bool, chained: bool) returns (g: seq<T>)
    requires xs != []
    ensures Runs(xs, link, chained) != [] && g == Runs(xs, link, chained)[0]
    ensures 0 < |g| <= |xs| && g == xs[..|g|]
    ensures Linked(g, link, chained)
    ensures |g| < |xs| ==> !link(AnchorBefore(g, |g|, chained), xs[|g|])
  {
    var rs := Runs(xs, link, chained);
    assert Flatten(rs) == xs;
    assert rs != [];
    g := rs[0];
    assert xs == g + Flatten(rs[1..]);
    if |g| < |xs| {
      assert rs[1..] != [];
      assert Flatten(rs[1..]) == rs[1] + Flatten(rs[2..]);
      assert rs[1][0] == xs[|g|];
    }
  }

  /** xs is ys with some elements left out, the rest kept in order. */
  predicate Subsequence<T(==)>(xs: seq<T>, ys: seq<T>)
    decreases |ys|
  {
    xs == [] || (ys != [] && ((xs[0] == ys[0] && Subsequence(xs[1..], ys[1..])) || Subsequence(xs, ys[1..])))
  }

  lemma {:induction false} SubsequenceTrans<T>(a: seq<T>, b: seq<T>, c: seq<T>)
    requires Subsequence(a, b) && Subsequence(b, c)
    ensures Subsequence(a, c)
    decreases |c|
  {
    if a != [] {
      if Subsequence(b, c[1..]) {
        SubsequenceTrans(a, b, c[1..]);
      } else if Subsequence(a, b[1..]) {
        SubsequenceTrans(a, b[1..], c[1..]);
      } else {
        SubsequenceTrans(a[1..], b[1..], c[1..]);
      }
    }
  }

  lemma {:induction false} FilterIsSubsequence<T(!new)>(xs: seq<T>, f: T -> bool)
    ensures Subsequence(Filter(xs, f), xs)
  {
    if xs != [] {
      FilterIsSubsequence(xs[1..], f);
      if f(xs[0]) {
        assert Filter(xs, f) == [xs[0]] + Filter(xs[1..], f);
      } else {
        assert Filter(xs, f) == Filter(xs[1..], f);
      }
    }
  }

  /** A subsequence of a sequence whose ranks never decrease has ranks that
      never decrease. */
  lemma {:induction false} SubsequenceAscending<T>(xs: seq<T>, ys: seq<T>, r: T -> int)
    requires Subsequence(xs, ys) && Ascending(ys, r)
    ensures Ascending(xs, r)
    decreases |ys|
  {
    if xs != [] {
      assert Ascending(ys[1..], r) by {
        forall i, j | 0 <= i < j < |ys[1..]|
          ensures r(ys[1..][i]) <= r(ys[1..][j])
        {
          assert ys[1..][i] == ys[i + 1] && ys[1..][j] == ys[j + 1];
        }
      }
      if xs[0] == ys[0] && Subsequence(xs[1..], ys[1..]) {
        SubsequenceAscending(xs[1..], ys[1..], r);
        SubsequenceMembers(xs[1..], ys[1..]);
        forall z | z in xs[1..]
          ensures r(xs[0]) <= r(z)
        {
          var k :| 0 <= k < |ys[1..]| && ys[1..][k] == z;
          assert ys[k + 1] == z;
        }
        AscendingCons(xs[0], xs[1..], r);
        assert xs == [xs[0]] + xs[1..];
      } else {
        SubsequenceAscending(xs, ys[1..], r);
      }
    }
  }

  /** Whatever f makes of an element is in FilterMap's result. */
  /** Every result of FilterMap comes from some element of the input. */
  lemma {:induction false} FilterMapOrigin<T(!new), U(!new)>(xs: seq<T>, f: T -> Option<U>, y: U) returns (x: T)
    requires y in FilterMap(xs, f)
    ensures x in xs && f(x) == Some(y)
    decreases |xs|
  {
    var head := match f(xs[0]) case Some(z) => [z] case None => [];
    assert FilterMap(xs, f) == head + FilterMap(xs[1..], f);
    if y in head {
      x := xs[0];
    } else {
      x := FilterMapOrigin(xs[1..], f, y);
    }
  }

  /** A property every present result of f has holds of the whole
      filter-map. */
  lemma FilterMapAll<T(!new), U(!new)>(xs: seq<T>, f: T -> Option<U>, p: U -> bool)
    requires forall x :: x in xs && f(x).Some? ==> p(f(x).value)
    ensures forall y :: y in FilterMap(xs, f) ==> p(y)
  {
    forall y | y in FilterMap(xs, f)
      ensures p(y)
    {
      var x := FilterMapOrigin(xs, f, y);
    }
  }

  lemma {:induction false} FilterMapHas<T(!new), U(!new)>(xs: seq<T>, f: T -> Option<U>, x: T)
    requires x in xs && f(x).Some?
    ensures f(x).value in FilterMap(xs, f)
  {
    if xs[0] != x {
      FilterMapHas(xs[1..], f, x);
    }
  }

  lemma {:induction false} SubsequenceMembers<T>(xs: seq<T>, ys: seq<T>)
    requires Subsequence(xs, ys)
    ensures forall x :: x in xs ==> x in ys
    decreases |ys|
  {
    if xs != [] {
      if xs[0] == ys[0] && Subsequence(xs[1..], ys[1..]) {
        SubsequenceMembers(xs[1..], ys[1..]);
        assert forall x :: x in xs ==> x == xs[0] || x in xs[1..];
      } else {
        SubsequenceMembers(xs, ys[1..]);
      }
    }
  }

  // ---------------------------------------------------------------------
  // Counting

  /** How many elements of xs satisfy p. */
  function CountWhere<T>(xs: seq<T>, p: T -> bool): (n: nat)
    ensures n <= |xs|
  {
    if xs == [] then 0 else (if p(xs[0]) then 1 else 0) + CountWhere(xs[1..], p)
  }

  lemma {:induction false} CountWhereAppend<T>(xs: seq<T>, ys: seq<T>, p: T -> bool)
    ensures CountWhere(xs + ys, p) == CountWhere(xs, p) + CountWhere(ys, p)
  {
    if xs == [] {
      assert xs + ys == ys;
    } else {
      assert (xs + ys)[0] == xs[0];
      assert (xs + ys)[1..] == xs[1..] + ys;
      CountWhereAppend(xs[1..], ys, p);
    }
  }

  /** The count does not depend on the order of the elements. */
  lemma {:induction false} CountWherePermutation<T>(xs: seq<T>, ys: seq<T>, p: T -> bool)
    requires multiset(xs) == multiset(ys)
    ensures CountWhere(xs, p) == CountWhere(ys, p)
  {
    if xs != [] {
      var x := xs[0];
      assert x in multiset(ys);
      var i :| 0 <= i < |ys| && ys[i] == x;
      var rest := ys[..i] + ys[i + 1..];
      RemoveAtMultiset(ys, i);
      assert xs == [x] + xs[1..];
      assert multiset(xs[1..]) == multiset(xs) - multiset{x};
      CountWherePermutation(xs[1..], rest, p);
      CountWhereRemoveAt(ys, i, p);
    }
  }

  /** Deleting position i deletes one copy of ys[i]. */
  lemma RemoveAtMultiset<T>(ys: seq<T>, i: int)
    requires 0 <= i < |ys|
    ensures multiset(ys[..i] + ys[i + 1..]) == multiset(ys) - multiset{ys[i]}
  {
    assert ys == ys[..i] + [ys[i]] + ys[i + 1..];
    assert multiset(ys) == multiset(ys[..i]) + multiset{ys[i]} + multiset(ys[i + 1..]);
  }

  /** Deleting position i lowers the count by one exactly when ys[i]
      satisfies p. */
  lemma CountWhereRemoveAt<T>(ys: seq<T>, i: int, p: T -> bool)
    requires 0 <= i < |ys|
    ensures CountWhere(ys, p) == (if p(ys[i]) then 1 else 0) + CountWhere(ys[..i] + ys[i + 1..], p)
  {
    var a, b, c := ys[..i], ys[i..], ys[i + 1..];
    var h := if p(ys[i]) then 1 else 0;
    calc {
      CountWhere(ys, p);
      { assert ys == a + b; }
      CountWhere(a + b, p);
      { CountWhereAppend(a, b, p); }
      CountWhere(a, p) + CountWhere(b, p);
      { assert b[0] == ys[i] && b[1..] == c; }
      CountWhere(a, p) + h + CountWhere(c, p);
      { CountWhereAppend(a, c, p); }
      h + CountWhere(a + c, p);
    }
  }

  /** When no element before position k satisfies p, at most |xs| - k do. */
  lemma {:induction false} CountWhereNoneBefore<T>(xs: seq<T>, p: T -> bool, k: nat)
    requires k <= |xs|
    requires forall i :: 0 <= i < k ==> !p(xs[i])
    ensures CountWhere(xs, p) <= |xs| - k
  {
    if k > 0 {
      CountWhereNoneBefore(xs[1..], p, k - 1);
    }
  }

  /** When no element from position k on satisfies p, at most k do. */
  lemma {:induction false} CountWhereNoneFrom<T>(xs: seq<T>, p: T -> bool, k: nat)
    requires k <= |xs|
    requires forall i :: k <= i < |xs| ==> !p(xs[i])
    ensures CountWhere(xs, p) <= k
  {
    if xs != [] {
      CountWhereNoneFrom(xs[1..], p, if k == 0 then 0 else k - 1);
    }
  }
}

=== FILE: text.dfy ===
/** Character classes and the handful of Python string operations the
    heuristics rely on: strip(), split(), ' '.join(), lower(), `in` and the
    whitespace-collapsing substitution r'\s+' -> ' '. */
module Text {
  import opened Seqs

  type String = seq<char>

  /** Python's str.isspace(); the same set is what \s, strip() and split()
      treat as whitespace. */
  predicate IsSpace(c: char) {
    || ('\t' <= c <= '\r')
    || ('\U{1C}' <= c <= '\U{1F}')
    || c == ' '
    || c == '\U{85}' || c == '\U{A0}' || c == '\U{1680}'
    || ('\U{2000}' <= c <= '\U{200A}')
    || c == '\U{2028}' || c == '\U{2029}' || c == '\U{202F}'
    || c == '\U{205F}' || c == '\U{3000}'
  }

  /** The regular-expression class [a-zA-Z]. */
  predicate IsAsciiLetter(c: char) {
    'a' <= c <= 'z' || 'A' <= c <= 'Z'
  }

  /** ASCII approximation of \d. */
  predicate IsDigit(c: char) {
    '0' <= c <= '9'
  }

  /** ASCII approximation of \w. */
  predicate IsWordChar(c: char) {
    IsAsciiLetter(c) || IsDigit(c) || c == '_'
  }

  /** ASCII approximation of str.lower() on one character. */
  function LowerChar(c: char): char {
    if 'A' <= c <= 'Z' then (c as int + 32) as char else c
  }

  function Lower(s: String): (r: String)
    ensures |r| == |s|
    ensures forall i :: 0 <= i < |s| ==> r[i] == LowerChar(s[i])
  {
    if s == [] then [] else [LowerChar(s[0])] + Lower(s[1..])
  }

  predicate StartsWith(s: String, p: String) {
    |p| <= |s| && s[..|p|] == p
  }

  /** str.startswith with a tuple of prefixes, tried one at a time. */
  predicate StartsWithAny(s: String, ps: seq<String>) {
    ps != [] && (StartsWith(s, ps[0]) || StartsWithAny(s, ps[1..]))
  }

  predicate EndsWith(s: String, p: String) {
    |p| <= |s| && s[|s| - |p|..] == p
  }

  predicate OccursAt(s: String, p: String, i: int) {
    0 <= i && i + |p| <= |s| && s[i..i + |p|] == p
  }

  /** Python's `p in s` on strings. */
  predicate Contains(s: String, p: String) {
    exists i | 0 <= i <= |s| - |p| :: OccursAt(s, p, i)
  }

  predicate IsWord(w: String) {
    w != [] && forall i :: 0 <= i < |w| ==> !IsSpace(w[i])
  }

  /** No whitespace at either end. */
  predicate NoEdgeSpace(s: String) {
    s == [] || (!IsSpace(s[0]) && !IsSpace(s[|s| - 1]))
  }

  /** No two consecutive whitespace characters. */
  predicate NoDoubleSpace(s: String) {
    forall i :: 0 <= i < |s| - 1 ==> !(IsSpace(s[i]) && IsSpace(s[i + 1]))
  }

  /** Every whitespace character is a plain space. */
  predicate OnlyPlainSpaces(s: String) {
    forall i :: 0 <= i < |s| && IsSpace(s[i]) ==> s[i] == ' '
  }

  function LeadingSpace(s: String): (n: nat)
    ensures n <= |s|
    ensures forall i :: 0 <= i < n ==> IsSpace(s[i])
    ensures n < |s| ==> !IsSpace(s[n])
  {
    if s != [] && IsSpace(s[0]) then 1 + LeadingSpace(s[1..]) else 0
  }

  /** str.lstrip() */
  function TrimLeft(s: String): (r: String)
    ensures |r| <= |s|
    ensures r == [] || !IsSpace(r[0])
  {
    s[LeadingSpace(s)..]
  }

  /** str.strip(): drop whitespace from both ends, one character at a time. */
  function Strip(s: String): (r: String)
    ensures |r| <= |s|
    ensures NoEdgeSpace(r)
    decreases |s|
  {
    if s == [] then []
    else if IsSpace(s[0]) then Strip(s[1..])
    else if IsSpace(s[|s| - 1]) then Strip(s[..|s| - 1])
    else s
  }

  /** Length of the maximal run of non-whitespace characters starting s. */
  function WordLength(s: String): (n: nat)
    ensures n <= |s|
    ensures forall i :: 0 <= i < n ==> !IsSpace(s[i])
    ensures n < |s| ==> IsSpace(s[n])
  {
    if s != [] && !IsSpace(s[0]) then 1 + WordLength(s[1..]) else 0
  }

  /** str.split() with no argument: the maximal runs of non-whitespace. */
  function Words(s: String): (ws: seq<String>)
    ensures forall i :: 0 <= i < |ws| ==> IsWord(ws[i])
    decreases |s|
  {
    var t := TrimLeft(s);
    if t == [] then []
    else
      var n := WordLength(t);
      [t[..n]] + Words(t[n..])
  }

  /** ' '.join(ws) */
  function JoinSpace(ws: seq<String>): String {
    if ws == [] then []
    else if |ws| == 1 then ws[0]
    else ws[0] + " " + JoinSpace(ws[1..])
  }

  /** re.sub(r'\s+', ' ', s): every maximal run of whitespace becomes one space. */
  function CollapseSpace(s: String): (r: String)
    ensures NoDoubleSpace(r) && OnlyPlainSpaces(r)
    ensures s == [] <==> r == []
    ensures s != [] && IsSpace(s[0]) ==> r[0] == ' '
    ensures s != [] && !IsSpace(s[0]) ==> r[0] == s[0]
    decreases |s|
  {
    if s == [] then []
    else if IsSpace(s[0]) then [' '] + CollapseSpace(TrimLeft(s))
    else [s[0]] + CollapseSpace(s[1..])
  }

  /** The string with every plain space deleted. */
  function RemoveSpaces(s: String): (r: String)
    ensures |r| <= |s|
    ensures forall i :: 0 <= i < |r| ==> r[i] != ' '
  {
    if s == [] then []
    else (if s[0] == ' ' then [] else [s[0]]) + RemoveSpaces(s[1..])
  }

  // ---------------------------------------------------------------------
  // Lemmas

  lemma {:induction false} RemoveSpacesConcat(a: String, b: String)
    ensures RemoveSpaces(a + b) == RemoveSpaces(a) + RemoveSpaces(b)
  {
    if a == [] {
      assert a + b == b;
    } else {
      assert (a + b)[0] == a[0];
      assert (a + b)[1..] == a[1..] + b;
      RemoveSpacesConcat(a[1..], b);
    }
  }

  /** Stripping leaves a string without edge whitespace unchanged. */
  lemma StripNoEdge(s: String)
    requires NoEdgeSpace(s)
    ensures Strip(s) == s
  {
  }

  /** An occurrence inside a slice is an occurrence in the slice. */
  lemma OccursInSlice(s: String, p: String, i: int, a: int, b: int)
    requires OccursAt(s, p, i) && 0 <= a <= i && i + |p| <= b <= |s|
    ensures OccursAt(s[a..b], p, i - a)
  {
    var u := s[a..b];
    forall k | 0 <= k < |p|
      ensures u[i - a + k] == p[k]
    {
      assert u[i - a + k] == s[i + k];
      assert s[i..i + |p|][k] == s[i + k];
    }
    assert u[i - a..i - a + |p|] == p;
  }

  /** Stripping keeps every occurrence of a word: strip() only removes
      whitespace, and a word has none. */
  lemma StripKeepsWord(s: String, p: String)
    requires IsWord(p) && Contains(s, p)
    ensures Contains(Strip(s), p)
  {
    var i :| 0 <= i <= |s| - |p| && OccursAt(s, p, i);
    var a, b := StripIsSlice(s);
    assert s[i] == s[i..i + |p|][0] == p[0];
    assert s[i + |p| - 1] == s[i..i + |p|][|p| - 1] == p[|p| - 1];
    assert !IsSpace(s[i]) && !IsSpace(s[i + |p| - 1]);
    assert a <= i;
    assert i + |p| <= b;
    OccursInSlice(s, p, i, a, b);
  }

  /** Lower-casing keeps every occurrence of an already lower-case pattern. */
  lemma LowerKeepsPattern(s: String, p: String)
    requires Lower(p) == p && Contains(s, p)
    ensures Contains(Lower(s), p)
  {
    var i :| 0 <= i <= |s| - |p| && OccursAt(s, p, i);
    var l := Lower(s);
    forall k | 0 <= k < |p|
      ensures l[i + k] == p[k]
    {
      assert Lower(p)[k] == LowerChar(p[k]);
    }
    assert l[i..i + |p|] == p;
    assert OccursAt(l, p, i);
  }

  lemma TrimLeftSpace(x: String)
    ensures TrimLeft(" " + x) == TrimLeft(x)
  {
    assert (" " + x)[1..] == x;
  }

  /** The first word of a space-joined string ends at the first separator. */
  lemma {:induction false} WordLengthBeforeSpace(w: String, rest: String)
    requires IsWord(w)
    ensures WordLength(w + " " + rest) == |w|
    decreases |w|
  {
    var s := w + " " + rest;
    assert s[0] == w[0];
    if |w| == 1 {
      assert s[1..] == " " + rest;
    } else {
      assert s[1..] == w[1..] + " " + rest;
      assert IsWord(w[1..]) by {
        forall i | 0 <= i < |w[1..]|
          ensures !IsSpace(w[1..][i])
        {
          assert w[1..][i] == w[i + 1];
        }
      }
      WordLengthBeforeSpace(w[1..], rest);
    }
  }

  /** split() undoes ' '.join() on words: the two are inverse on
      sequences of non-empty, whitespace-free words. */
  lemma {:induction false} WordsOfJoin(ws: seq<String>)
    requires forall i :: 0 <= i < |ws| ==> IsWord(ws[i])
    ensures Words(JoinSpace(ws)) == ws
    decreases |ws|
  {
    if |ws| == 1 {
      WordsOfWord(ws[0]);
    } else if |ws| > 1 {
      var rest := JoinSpace(ws[1..]);
      assert JoinSpace(ws) == ws[0] + " " + rest;
      JoinShape(ws[1..]);
      WordsCons(ws[0], rest);
      WordsOfJoin(ws[1..]);
      assert ws == [ws[0]] + ws[1..];
    }
  }

  /** A single word splits into itself. */
  lemma WordsOfWord(w: String)
    requires IsWord(w)
    ensures Words(w) == [w]
  {
    assert LeadingSpace(w) == 0;
    assert TrimLeft(w) == w;
    assert WordLength(w) == |w|;
    assert w[|w|..] == [];
    assert w[..|w|] == w;
  }

  /** A word, a space and a string that does not start with whitespace
      split into the word followed by the split of the string. */
  lemma WordsCons(w: String, rest: String)
    requires IsWord(w)
    requires rest == [] || !IsSpace(rest[0])
    ensures Words(w + " " + rest) == [w] + Words(rest)
  {
    var s := w + " " + rest;
    assert s[0] == w[0];
    assert LeadingSpace(s) == 0;
    assert TrimLeft(s) == s;
    WordLengthBeforeSpace(w, rest);
    assert s[..|w|] == w;
    assert s[|w|..] == " " + rest;
    TrimLeftSpace(rest);
    assert LeadingSpace(rest) == 0;
    assert TrimLeft(rest) == rest;
  }

  /** Joining words with single spaces yields a non-empty string whose only
      whitespace characters are isolated plain spaces strictly inside it. */
  lemma {:induction false} JoinShape(ws: seq<String>)
    requires forall i :: 0 <= i < |ws| ==> IsWord(ws[i])
    ensures ws != [] ==> JoinSpace(ws) != []
    ensures NoEdgeSpace(JoinSpace(ws))
    ensures NoDoubleSpace(JoinSpace(ws))
    ensures OnlyPlainSpaces(JoinSpace(ws))
    decreases |ws|
  {
    if |ws| > 1 {
      var w := ws[0];
      assert IsWord(w);
      var rest := JoinSpace(ws[1..]);
      JoinShape(ws[1..]);
      var s := w + " " + rest;
      assert JoinSpace(ws) == s;
      forall i | 0 <= i < |s|
        ensures IsSpace(s[i]) ==> s[i] == ' '
        ensures i < |w| ==> !IsSpace(s[i])
        ensures i == |w| + 1 ==> !IsSpace(s[i])
      {
        if i < |w| {
          assert s[i] == w[i];
        } else if i > |w| {
          assert s[i] == rest[i - |w| - 1];
        }
      }
      forall i | 0 <= i < |s| - 1
        ensures !(IsSpace(s[i]) && IsSpace(s[i + 1]))
      {
        if i > |w| {
          assert s[i] == rest[i - |w| - 1] && s[i + 1] == rest[i - |w|];
        }
      }
      assert s[|s| - 1] == rest[|rest| - 1];
    } else if |ws| == 1 {
      assert IsWord(ws[0]);
      assert JoinSpace(ws) == ws[0];
    }
  }

  /** A string already in collapsed form is unchanged by collapsing. */
  lemma {:induction false} CollapseFixed(s: String)
    requires NoDoubleSpace(s) && OnlyPlainSpaces(s)
    ensures CollapseSpace(s) == s
    decreases |s|
  {
    if s != [] {
      var t := s[1..];
      assert NoDoubleSpace(t) by {
        forall i | 0 <= i < |t| - 1
          ensures !(IsSpace(t[i]) && IsSpace(t[i + 1]))
        {
          assert t[i] == s[i + 1] && t[i + 1] == s[i + 2];
        }
      }
      assert OnlyPlainSpaces(t) by {
        forall i | 0 <= i < |t| && IsSpace(t[i])
          ensures t[i] == ' '
        {
          assert t[i] == s[i + 1];
        }
      }
      CollapseFixed(t);
      if IsSpace(s[0]) {
        assert s[0] == ' ';
        if |s| > 1 {
          assert !IsSpace(s[1]);
          assert LeadingSpace(s[1..]) == 0;
        }
        assert LeadingSpace(s) == 1;
        assert TrimLeft(s) == t;
      }
      assert s == [s[0]] + t;
    }
  }

  /** Collapsing keeps the first word of a text and collapses the rest. */
  lemma {:induction false} CollapseWord(t: String)
    ensures CollapseSpace(t) == t[..WordLength(t)] + CollapseSpace(t[WordLength(t)..])
    decreases |t|
  {
    var n := WordLength(t);
    if n > 0 {
      var u := t[1..];
      assert WordLength(u) == n - 1;
      var c := CollapseSpace(t[n..]);
      assert CollapseSpace(u) == u[..n - 1] + c by {
        CollapseWord(u);
        assert u[n - 1..] == t[n..];
      }
      ConsPrefix(t, n);
      Regroup([t[0]], u[..n - 1], c, []);
    } else {
      assert t[..0] == [] && t[0..] == t;
    }
  }

  lemma ConsPrefix(t: String, n: int)
    requires 1 <= n <= |t|
    ensures [t[0]] + t[1..][..n - 1] == t[..n]
  {
  }

  /** split() ignores leading whitespace. */
  lemma WordsOfTrimmed(s: String)
    ensures Words(TrimLeft(s)) == Words(s)
  {
    var t := TrimLeft(s);
    assert LeadingSpace(t) == 0;
    assert TrimLeft(t) == t;
  }

  /** A text that does not start with whitespace collapses to its words
      joined by single spaces, followed by one space when it ends in
      whitespace; it has no words only when it is empty. */
  lemma {:induction false} CollapseNoLead(t: String) returns (tail: String)
    requires t == [] || !IsSpace(t[0])
    ensures tail == [] || tail == " "
    ensures CollapseSpace(t) == JoinSpace(Words(t)) + tail
    ensures Words(t) == [] ==> t == []
    decreases |t|
  {
    if t == [] {
      return [];
    }
    var r := t[WordLength(t)..];
    if r == [] {
      CollapseOneWord(t);
      tail := [];
    } else {
      var r' := TrimLeft(r);
      var tl := CollapseNoLead(r');
      if Words(r') == [] {
        CollapseWordThenEnd(t);
        tail := " ";
      } else {
        CollapseWordThenMore(t, tl);
        tail := tl;
      }
    }
  }

  /** A single word collapses to itself. */
  lemma CollapseOneWord(t: String)
    requires t != [] && !IsSpace(t[0]) && t[WordLength(t)..] == []
    ensures CollapseSpace(t) == JoinSpace(Words(t)) && Words(t) != []
  {
    var w := t[..WordLength(t)];
    CollapseWord(t);
    WordsHead(t);
    calc {
      CollapseSpace(t);
      w + CollapseSpace([]);
      w;
      JoinSpace([w]);
      { assert Words(t) == [w]; }
      JoinSpace(Words(t));
    }
  }

  /** A word followed only by whitespace collapses to the word and one
      space. */
  lemma CollapseWordThenEnd(t: String)
    requires t != [] && !IsSpace(t[0]) && t[WordLength(t)..] != []
    requires TrimLeft(t[WordLength(t)..]) == []
    ensures CollapseSpace(t) == JoinSpace(Words(t)) + " " && Words(t) != []
  {
    var w := t[..WordLength(t)];
    CollapseWordSpace(t);
    WordsWordSpace(t);
    assert Words(t) == [w] + [];
    assert JoinSpace([w]) == w;
    Regroup(w, " ", [], []);
  }

  /** A word, whitespace and more words collapse to the word, one space
      and the collapse of the rest. */
  lemma CollapseWordThenMore(t: String, tl: String)
    requires t != [] && !IsSpace(t[0]) && t[WordLength(t)..] != []
    requires Words(TrimLeft(t[WordLength(t)..])) != []
    requires CollapseSpace(TrimLeft(t[WordLength(t)..])) == JoinSpace(Words(TrimLeft(t[WordLength(t)..]))) + tl
    ensures CollapseSpace(t) == JoinSpace(Words(t)) + tl
  {
    var w := t[..WordLength(t)];
    var ws := Words(TrimLeft(t[WordLength(t)..]));
    CollapseWordSpace(t);
    WordsWordSpace(t);
    JoinCons(w, ws);
    Regroup(w, " ", JoinSpace(ws), tl);
  }

  /** A word followed by whitespace collapses to the word, one space and
      the collapse of what follows the whitespace. */
  lemma CollapseWordSpace(t: String)
    requires t != [] && !IsSpace(t[0]) && t[WordLength(t)..] != []
    ensures CollapseSpace(t) == t[..WordLength(t)] + (" " + CollapseSpace(TrimLeft(t[WordLength(t)..])))
  {
    CollapseWord(t);
    CollapseLead(t[WordLength(t)..]);
  }

  /** A word followed by whitespace splits into the word and the split of
      what follows the whitespace. */
  lemma WordsWordSpace(t: String)
    requires t != [] && !IsSpace(t[0]) && t[WordLength(t)..] != []
    ensures Words(t) == [t[..WordLength(t)]] + Words(TrimLeft(t[WordLength(t)..]))
  {
    WordsHead(t);
    WordsOfTrimmed(t[WordLength(t)..]);
  }

  lemma Regroup(a: String, b: String, c: String, d: String)
    ensures a + (b + (c + d)) == (a + b + c) + d
  {
  }

  /** A text starting with a word splits into that word and the split of
      the rest. */
  lemma WordsHead(t: String)
    requires t != [] && !IsSpace(t[0])
    ensures Words(t) == [t[..WordLength(t)]] + Words(t[WordLength(t)..])
  {
    assert LeadingSpace(t) == 0;
    assert TrimLeft(t) == t;
  }

  /** A leading whitespace run collapses to one space. */
  lemma CollapseLead(r: String)
    requires r != [] && IsSpace(r[0])
    ensures CollapseSpace(r) == " " + CollapseSpace(TrimLeft(r))
  {
  }

  lemma JoinCons(w: String, ws: seq<String>)
    requires ws != []
    ensures JoinSpace([w] + ws) == w + " " + JoinSpace(ws)
  {
    assert ([w] + ws)[1..] == ws;
  }

  /** re.sub(r'\s+', ' ', s).strip() is ' '.join(s.split()): collapsing and
      stripping keeps exactly the words of the text, in order, each
      separated from the next by one space. */
  lemma CollapseIsJoinedWords(s: String)
    ensures Strip(CollapseSpace(s)) == JoinSpace(Words(s))
  {
    var t := TrimLeft(s);
    WordsOfTrimmed(s);
    var tail := CollapseNoLead(t);
    var ws := Words(t);
    var j := JoinSpace(ws);
    JoinShape(ws);
    if s != [] && IsSpace(s[0]) {
      var c := CollapseSpace(s);
      assert c == [' '] + CollapseSpace(t);
      assert c[1..] == CollapseSpace(t);
    } else {
      assert LeadingSpace(s) == 0;
      assert t == s;
    }
    if tail == [] {
      assert j + tail == j;
      StripNoEdge(j);
    } else {
      var u := j + tail;
      assert u[0] == j[0] && u[|u| - 1] == ' ';
      assert u[..|u| - 1] == j;
      StripNoEdge(j);
    }
  }

  /** A contiguous piece of a string keeps its whitespace shape. */
  lemma SliceShape(s: String, a: int, b: int)
    requires 0 <= a <= b <= |s|
    requires NoDoubleSpace(s) && OnlyPlainSpaces(s)
    ensures NoDoubleSpace(s[a..b]) && OnlyPlainSpaces(s[a..b])
  {
    var t := s[a..b];
    forall i | 0 <= i < |t| - 1
      ensures !(IsSpace(t[i]) && IsSpace(t[i + 1]))
    {
      assert t[i] == s[a + i] && t[i + 1] == s[a + i + 1];
    }
    forall i | 0 <= i < |t| && IsSpace(t[i])
      ensures t[i] == ' '
    {
      assert t[i] == s[a + i];
    }
  }

  /** Strip returns a contiguous piece of its argument and drops only
      whitespace around it. */
  lemma {:induction false} StripIsSlice(s: String) returns (a: nat, b: nat)
    ensures a <= b <= |s| && Strip(s) == s[a..b]
    ensures forall k :: 0 <= k < a ==> IsSpace(s[k])
    ensures forall k :: b <= k < |s| ==> IsSpace(s[k])
    decreases |s|
  {
    if s == [] {
      a, b := 0, 0;
    } else if IsSpace(s[0]) {
      var t := s[1..];
      var a', b' := StripIsSlice(t);
      a, b := a' + 1, b' + 1;
      assert t[a'..b'] == s[a..b];
      forall k | 0 <= k < a
        ensures IsSpace(s[k])
      {
        if k > 0 {
          assert s[k] == t[k - 1];
        }
      }
      forall k | b <= k < |s|
        ensures IsSpace(s[k])
      {
        assert s[k] == t[k - 1];
      }
    } else if IsSpace(s[|s| - 1]) {
      var t := s[..|s| - 1];
      a, b := StripIsSlice(t);
      assert t[a..b] == s[a..b];
      forall k | b <= k < |s|
        ensures IsSpace(s[k])
      {
        if k < |s| - 1 {
          assert s[k] == t[k];
        }
      }
    } else {
      a, b := 0, |s|;
    }
  }

  /** Stripping a text whose spaces are single plain spaces keeps it so. */
  lemma StripKeepsShape(s: String)
    requires NoDoubleSpace(s) && OnlyPlainSpaces(s)
    ensures NoDoubleSpace(Strip(s)) && OnlyPlainSpaces(Strip(s))
  {
    var a, b := StripIsSlice(s);
    SliceShape(s, a, b);
  }

  /** Joining with spaces adds nothing but spaces. */
  lemma {:induction false} JoinOnlyAddsSpaces(ws: seq<String>)
    ensures RemoveSpaces(JoinSpace(ws)) == RemoveSpaces(Flatten(ws))
  {
    if |ws| == 1 {
      assert ws[1..] == [];
      assert Flatten(ws) == ws[0] + Flatten(ws[1..]);
      assert ws[0] + [] == ws[0];
      assert Flatten(ws) == ws[0] == JoinSpace(ws);
    } else if |ws| > 1 {
      assert Flatten(ws) == ws[0] + Flatten(ws[1..]);
      assert JoinSpace(ws) == ws[0] + " " + JoinSpace(ws[1..]);
      JoinOnlyAddsSpaces(ws[1..]);
      SpaceJoinStep(ws[0], JoinSpace(ws[1..]), Flatten(ws[1..]));
    }
  }

  /** Appending a text to a non-empty list appends a space and the text. */
  lemma {:induction false} JoinSpaceAppend(ws: seq<String>, w: String)
    requires ws != []
    ensures JoinSpace(ws + [w]) == JoinSpace(ws) + " " + w
    decreases |ws|
  {
    if |ws| == 1 {
      assert (ws + [w])[1..] == [w];
    } else {
      assert (ws + [w])[1..] == ws[1..] + [w];
      JoinSpaceAppend(ws[1..], w);
    }
  }

  /** Texts that agree up to spaces, concatenated, still agree. */
  lemma SameUpToSpacesConcat(a: String, b: String, x: String, y: String)
    requires RemoveSpaces(a) == RemoveSpaces(x) && RemoveSpaces(b) == RemoveSpaces(y)
    ensures RemoveSpaces(a + b) == RemoveSpaces(x + y)
  {
    RemoveSpacesConcat(a, b);
    RemoveSpacesConcat(x, y);
  }

  /** Putting a word and a space in front of two texts that agree up to
      spaces keeps them agreeing with the word alone in front. */
  lemma SpaceJoinStep(w: String, joined: String, flat: String)
    requires RemoveSpaces(joined) == RemoveSpaces(flat)
    ensures RemoveSpaces(w + " " + joined) == RemoveSpaces(w + flat)
  {
    var sp := RemoveSpaces(" ");
    assert sp == [] by {
      assert " "[1..] == [];
    }
    calc {
      RemoveSpaces(w + " " + joined);
      { RemoveSpacesConcat(w + " ", joined); }
      RemoveSpaces(w + " ") + RemoveSpaces(joined);
      { RemoveSpacesConcat(w, " "); }
      RemoveSpaces(w) + sp + RemoveSpaces(joined);
      RemoveSpaces(w) + RemoveSpaces(flat);
      { RemoveSpacesConcat(w, flat); }
      RemoveSpaces(w + flat);
    }
  }
}

=== FILE: title.dfy ===
/** Title extraction (extract_title_comprehensive and clean_title,
    main.py:29-131): the largest spans near the top of the first page, the
    topmost cluster of them read left to right, with whitespace normalised,
    trailing punctuation dropped and a doubled phrase collapsed. */
module Title {
  import opened Text
  import opened Seqs
  import opened Layout

  // ---------------------------------------------------------------------
  // clean_title

  /** The text ends in one of the separators clean_title strips. */
  predicate EndsWithSeparator(s: String) {
    s != [] && s[|s| - 1] in ",;:"
  }

  /** re.sub(r'[,;:]+$', '', s): drops the trailing run of separators. */
  function DropTrailingPunct(s: String): (r: String)
    ensures |r| <= |s| && r == s[..|r|]
    ensures !EndsWithSeparator(r)
    ensures forall k :: |r| <= k < |s| ==> s[k] in ",;:"
    decreases |s|
  {
    if EndsWithSeparator(s) then
      var r := DropTrailingPunct(s[..|s| - 1]);
      assert s[..|s| - 1][..|r|] == s[..|r|];
      r
    else s
  }

  /** main.py:118-120: collapse whitespace runs, strip, drop the trailing
      separators. The result is the words of the text joined by single
      spaces, less the trailing separators: it has only single plain
      spaces, does not start with one, and does not end with a
      separator. */
  function TrimTitle(s: String): (r: String)
    ensures r == DropTrailingPunct(JoinSpace(Words(s)))
    ensures NoDoubleSpace(r) && OnlyPlainSpaces(r)
    ensures r == [] || !IsSpace(r[0])
    ensures !EndsWithSeparator(r)
  {
    CollapseIsJoinedWords(s);
    var c := CollapseSpace(s);
    StripKeepsShape(c);
    var t := Strip(c);
    var r := DropTrailingPunct(t);
    SliceShape(t, 0, |r|);
    assert r == [] || r[0] == t[0];
    r
  }

  /** main.py:123-129: at least four words whose first half, joined, equals
      the second half, joined. */
  predicate IsDoubled(ws: seq<String>) {
    |ws| >= 4 && JoinSpace(ws[..|ws| / 2]) == JoinSpace(ws[|ws| / 2..])
  }

  /** clean_title (main.py:114-131). */
  function CleanTitle(s: String): (r: String)
    ensures s == [] ==> r == []
    ensures NoDoubleSpace(r) && OnlyPlainSpaces(r)
    ensures r == [] || !IsSpace(r[0])
  {
    if s == [] then []
    else
      var ws := Words(TrimTitle(s));
      if IsDoubled(ws) then
        JoinShape(ws[..|ws| / 2]);
        JoinSpace(ws[..|ws| / 2])
      else TrimTitle(s)
  }

  /** A doubled word list is some phrase of at least two words written
      twice. */
  lemma DoubledIsTwice(ws: seq<String>) returns (w: seq<String>)
    requires forall i :: 0 <= i < |ws| ==> IsWord(ws[i])
    requires IsDoubled(ws)
    ensures |w| >= 2 && ws == w + w && w == ws[..|ws| / 2]
  {
    var h := |ws| / 2;
    w := ws[..h];
    var v := ws[h..];
    SliceOfWords(ws, 0, h);
    SliceOfWords(ws, h, |ws|);
    assert ws[0..h] == w && ws[h..|ws|] == v;
    WordsOfJoin(w);
    WordsOfJoin(v);
    assert ws == w + v;
  }

  /** A slice of a list of words is a list of words. */
  lemma SliceOfWords(ws: seq<String>, a: int, b: int)
    requires 0 <= a <= b <= |ws|
    requires forall i :: 0 <= i < |ws| ==> IsWord(ws[i])
    ensures forall i :: 0 <= i < b - a ==> IsWord(ws[a..b][i])
  {
    forall i | 0 <= i < b - a
      ensures IsWord(ws[a..b][i])
    {
      assert ws[a..b][i] == ws[a + i];
    }
  }

  /** clean_title only ever shortens a doubled phrase: when it returns
      something other than the trimmed text, the trimmed text's words are
      some phrase of at least two words written twice, and the result is
      that phrase once. */
  lemma CleanTitleOnlyUndoubles(s: String) returns (w: seq<String>)
    requires s != [] && CleanTitle(s) != TrimTitle(s)
    ensures |w| >= 2 && Words(TrimTitle(s)) == w + w && CleanTitle(s) == JoinSpace(w)
  {
    var ws := Words(TrimTitle(s));
    w := DoubledIsTwice(ws);
  }

  /** Joining ends in a separator exactly when the last word does. */
  lemma {:induction false} JoinEndsLikeLastWord(ws: seq<String>)
    requires ws != [] && ws[|ws| - 1] != []
    ensures EndsWithSeparator(JoinSpace(ws)) == EndsWithSeparator(ws[|ws| - 1])
  {
    if |ws| > 1 {
      JoinEndsLikeLastWord(ws[1..]);
      assert JoinSpace(ws) == ws[0] + " " + JoinSpace(ws[1..]);
    }
  }

  /** A text already in clean shape passes the trimming unchanged. */
  lemma TrimTitleFixed(s: String)
    requires NoDoubleSpace(s) && OnlyPlainSpaces(s) && NoEdgeSpace(s)
    requires !EndsWithSeparator(s)
    ensures TrimTitle(s) == s
  {
    CollapseFixed(s);
    StripNoEdge(s);
  }

  /** A phrase of words written twice and joined is already trimmed. */
  lemma DoubledIsTrimmed(w: seq<String>)
    requires |w| >= 1
    requires forall i :: 0 <= i < |w| ==> IsWord(w[i])
    requires !EndsWithSeparator(w[|w| - 1])
    ensures forall i :: 0 <= i < |w + w| ==> IsWord((w + w)[i])
    ensures TrimTitle(JoinSpace(w + w)) == JoinSpace(w + w) != []
  {
    var ww := w + w;
    forall i | 0 <= i < |ww|
      ensures IsWord(ww[i])
    {
      if i < |w| {
        assert ww[i] == w[i];
      } else {
        assert ww[i] == w[i - |w|];
      }
    }
    assert ww[|ww| - 1] == w[|w| - 1];
    JoinEndsLikeLastWord(ww);
    JoinShape(ww);
    TrimTitleFixed(JoinSpace(ww));
  }

  /** A phrase of words written twice, not ending in a separator, comes
      out of clean_title as one copy. */
  lemma CleanTitleUndoubles(w: seq<String>)
    requires |w| >= 2
    requires forall i :: 0 <= i < |w| ==> IsWord(w[i])
    requires !EndsWithSeparator(w[|w| - 1])
    ensures CleanTitle(JoinSpace(w + w)) == JoinSpace(w)
  {
    var ww := w + w;
    DoubledIsTrimmed(w);
    WordsOfJoin(ww);
    TwiceIsDoubled(w);
    CleanTitleOfDoubled(JoinSpace(ww));
  }

  /** A phrase of at least two words written twice is doubled, and its
      first half is the phrase. */
  lemma TwiceIsDoubled(w: seq<String>)
    requires |w| >= 2
    ensures IsDoubled(w + w) && (w + w)[..|w + w| / 2] == w
  {
    var ww := w + w;
    assert |ww| / 2 == |w|;
    assert ww[..|w|] == w;
    assert ww[|w|..] == w;
  }

  lemma CleanTitleOfDoubled(s: String)
    requires s != [] && IsDoubled(Words(TrimTitle(s)))
    ensures CleanTitle(s) == JoinSpace(Words(TrimTitle(s))[..|Words(TrimTitle(s))| / 2])
  {
  }

  /** An odd number of words is never collapsed. */
  lemma CleanTitleKeepsOddWordCount(s: String)
    requires s != [] && |Words(TrimTitle(s))| % 2 == 1
    ensures CleanTitle(s) == TrimTitle(s)
  {
    var ws := Words(TrimTitle(s));
    if IsDoubled(ws) {
      var w := DoubledIsTwice(ws);
      assert false;
    }
  }

  // ---------------------------------------------------------------------
  // Candidates

  /** A span considered for the title, with its stripped text. */
  datatype Candidate = Candidate(text: String, size: real, bbox: BBox)

  /** main.py:49-59: a span qualifies when its stripped text is longer than
      two characters and its size is at least 10. */
  function SpanCandidate(s: Span): (c: Option<Candidate>)
    ensures c.Some? <==> |Strip(s.text)| > 2 && s.size >= 10.0
    ensures c.Some? ==> c.value == Candidate(Strip(s.text), s.size, s.bbox)
  {
    var t := Strip(s.text);
    if |t| > 2 && s.size >= 10.0 then Some(Candidate(t, s.size, s.bbox)) else None
  }

  /** The spans of the lines whose top edge is at most `top`, in decoder
      order (main.py:40-47). */
  function TopLineSpans(lines: seq<Line>, top: real): seq<Span> {
    if lines == [] then []
    else (if lines[0].bbox.y0 > top then [] else lines[0].spans) + TopLineSpans(lines[1..], top)
  }

  function TopSpans(blocks: seq<Block>, top: real): seq<Span> {
    if blocks == [] then [] else TopLineSpans(LinesOf(blocks[0]), top) + TopSpans(blocks[1..], top)
  }

  lemma TopLineSpanOrigin(lines: seq<Line>, top: real, s: Span) returns (l: Line)
    requires s in TopLineSpans(lines, top)
    ensures l in lines && l.bbox.y0 <= top && s in l.spans
  {
    if lines[0].bbox.y0 <= top && s in lines[0].spans {
      l := lines[0];
    } else {
      l := TopLineSpanOrigin(lines[1..], top, s);
    }
  }

  lemma TopSpanOrigin(blocks: seq<Block>, top: real, s: Span) returns (b: Block, l: Line)
    requires s in TopSpans(blocks, top)
    ensures b in blocks && l in LinesOf(b) && l.bbox.y0 <= top && s in l.spans
  {
    if s in TopLineSpans(LinesOf(blocks[0]), top) {
      b := blocks[0];
      l := TopLineSpanOrigin(LinesOf(b), top, s);
    } else {
      b, l := TopSpanOrigin(blocks[1..], top, s);
    }
  }

  /** The title candidates of a page: qualifying spans of the lines in its
      top 40%. */
  function TitleCandidates(p: Page): (cs: seq<Candidate>)
    ensures forall c :: c in cs ==> |c.text| > 2 && c.size >= 10.0 && NoEdgeSpace(c.text)
  {
    var spans := TopSpans(p.blocks, p.height * 0.4);
    FilterMapAll(spans, SpanCandidate, (c: Candidate) => |c.text| > 2 && c.size >= 10.0 && NoEdgeSpace(c.text));
    FilterMap(spans, SpanCandidate)
  }

  /** Every candidate is a qualifying span of a line whose top edge lies in
      the top 40% of the page. */
  lemma CandidateOrigin(p: Page, c: Candidate) returns (b: Block, l: Line, s: Span)
    requires c in TitleCandidates(p)
    ensures b in p.blocks && l in LinesOf(b) && l.bbox.y0 <= p.height * 0.4 && s in l.spans
    ensures SpanCandidate(s) == Some(c)
  {
    b, l, s := TopCandidateOrigin(p.blocks, p.height * 0.4, c);
  }

  lemma TopCandidateOrigin(blocks: seq<Block>, top: real, c: Candidate) returns (b: Block, l: Line, s: Span)
    requires c in FilterMap(TopSpans(blocks, top), SpanCandidate)
    ensures b in blocks && l in LinesOf(b) && l.bbox.y0 <= top && s in l.spans
    ensures SpanCandidate(s) == Some(c)
  {
    s := FilterMapOrigin(TopSpans(blocks, top), SpanCandidate, c);
    b, l := TopSpanOrigin(blocks, top, s);
  }

  // ---------------------------------------------------------------------
  // Selection

  function CandidateSizes(cs: seq<Candidate>): (zs: seq<real>)
    ensures |zs| == |cs| && forall i :: 0 <= i < |cs| ==> zs[i] == cs[i].size
  {
    Map(cs, (c: Candidate) => c.size)
  }

  function CandidateTexts(cs: seq<Candidate>): (ts: seq<String>)
    ensures |ts| == |cs| && forall i :: 0 <= i < |cs| ==> ts[i] == cs[i].text
  {
    Map(cs, (c: Candidate) => c.text)
  }

  function MaxSize(cs: seq<Candidate>): (m: real)
    requires cs != []
    ensures forall c :: c in cs ==> c.size <= m
    ensures exists c :: c in cs && c.size == m
  {
    var m := MaxOf(CandidateSizes(cs));
    assert forall i :: 0 <= i < |cs| ==> cs[i].size <= m;
    var k :| 0 <= k < |cs| && m == CandidateSizes(cs)[k];
    assert cs[k] in cs;
    m
  }

  /** main.py:79-80: the candidates within 2.0 of the largest size. */
  function LargeCandidates(cs: seq<Candidate>): (ls: seq<Candidate>)
    requires cs != []
    ensures ls != []
    ensures forall c :: c in ls <==> c in cs && c.size >= MaxSize(cs) - 2.0
  {
    var m := MaxSize(cs);
    Filter(cs, (c: Candidate) => c.size >= m - 2.0)
  }

  function YKey(c: Candidate): SortKey { (c.bbox.y0, 0.0) }

  function X0Key(c: Candidate): SortKey { (c.bbox.x0, 0.0) }


  /** main.py:91-92: two candidates less than 20 apart vertically. */
  predicate Near(a: Candidate, b: Candidate) {
    Abs(b.bbox.y0 - a.bbox.y0) < 20.0
  }

  /** main.py:82-106: the first run of the large candidates in top-to-bottom
      order, each less than 20 below the one before it. */
  function TitleGroup(cs: seq<Candidate>): (g: seq<Candidate>)
    requires cs != []
    ensures g != []
  {
    var sorted := SortBy(LargeCandidates(cs), YKey);
    var runs := Runs(sorted, Near, true);
    assert Flatten(runs) == sorted != [];
    runs[0]
  }

  /** The large candidates in top-to-bottom order; the title group is the
      first run of it. */
  lemma TitleGroupIsPrefix(cs: seq<Candidate>) returns (sorted: seq<Candidate>)
    requires cs != []
    ensures sorted == SortBy(LargeCandidates(cs), YKey)
    ensures |TitleGroup(cs)| <= |sorted| && TitleGroup(cs) == sorted[..|TitleGroup(cs)|]
    ensures Linked(TitleGroup(cs), Near, true)
    ensures |TitleGroup(cs)| < |sorted| ==>
              !Near(TitleGroup(cs)[|TitleGroup(cs)| - 1], sorted[|TitleGroup(cs)|])
  {
    sorted := SortBy(LargeCandidates(cs), YKey);
    var g := FirstRun(sorted, Near, true);
  }

  lemma TitleGroupMembers(cs: seq<Candidate>, c: Candidate)
    requires cs != [] && c in TitleGroup(cs)
    ensures c in cs && c.size >= MaxSize(cs) - 2.0
  {
    var sorted := TitleGroupIsPrefix(cs);
    assert c in sorted;
    assert c in multiset(sorted);
    assert c in multiset(LargeCandidates(cs));
  }

  lemma TitleGroupTop(cs: seq<Candidate>, c: Candidate)
    requires cs != [] && c in cs && c.size >= MaxSize(cs) - 2.0
    ensures TitleGroup(cs)[0].bbox.y0 <= c.bbox.y0
  {
    var sorted := TitleGroupIsPrefix(cs);
    assert c in LargeCandidates(cs);
    assert c in multiset(sorted);
    var k :| 0 <= k < |sorted| && sorted[k] == c;
    if k > 0 {
      assert KeyLe(YKey(sorted[0]), YKey(sorted[k]));
    }
  }

  lemma TitleGroupStep(cs: seq<Candidate>, j: int)
    requires cs != [] && 1 <= j < |TitleGroup(cs)|
    ensures 0.0 <= TitleGroup(cs)[j].bbox.y0 - TitleGroup(cs)[j - 1].bbox.y0 < 20.0
  {
    var sorted := TitleGroupIsPrefix(cs);
    var g := TitleGroup(cs);
    assert Near(AnchorBefore(g, j, true), g[j]);
    assert g[j - 1] == sorted[j - 1] && g[j] == sorted[j];
    assert KeyLe(YKey(sorted[j - 1]), YKey(sorted[j]));
  }

  lemma TitleGroupCut(cs: seq<Candidate>) returns (sorted: seq<Candidate>)
    requires cs != []
    ensures sorted == SortBy(LargeCandidates(cs), YKey)
    ensures |TitleGroup(cs)| < |sorted| ==>
              sorted[|TitleGroup(cs)|].bbox.y0 - TitleGroup(cs)[|TitleGroup(cs)| - 1].bbox.y0 >= 20.0
  {
    sorted := TitleGroupIsPrefix(cs);
    var g := TitleGroup(cs);
    if |g| < |sorted| {
      assert g[|g| - 1] == sorted[|g| - 1];
      assert KeyLe(YKey(sorted[|g| - 1]), YKey(sorted[|g|]));
    }
  }

  /** The title group is the topmost large candidate and those that follow
      it at vertical steps under 20: it is a prefix of the large candidates
      in top-to-bottom order, its members are large candidates, it starts
      at the topmost one, it descends in steps under 20, and the next large
      candidate, if any, is at least 20 below its last member. */
  lemma TitleGroupShape(cs: seq<Candidate>) returns (g: seq<Candidate>, sorted: seq<Candidate>)
    requires cs != []
    ensures g == TitleGroup(cs) && sorted == SortBy(LargeCandidates(cs), YKey)
    ensures 0 < |g| <= |sorted| && g == sorted[..|g|]
    ensures forall c :: c in g ==> c in cs && c.size >= MaxSize(cs) - 2.0
    ensures forall c :: c in cs && c.size >= MaxSize(cs) - 2.0 ==> g[0].bbox.y0 <= c.bbox.y0
    ensures forall j :: 1 <= j < |g| ==> 0.0 <= g[j].bbox.y0 - g[j - 1].bbox.y0 < 20.0
    ensures |g| < |sorted| ==> sorted[|g|].bbox.y0 - g[|g| - 1].bbox.y0 >= 20.0
  {
    g := TitleGroup(cs);
    sorted := TitleGroupCut(cs);
    var _ := TitleGroupIsPrefix(cs);
    forall c | c in g
      ensures c in cs && c.size >= MaxSize(cs) - 2.0
    {
      TitleGroupMembers(cs, c);
    }
    forall c | c in cs && c.size >= MaxSize(cs) - 2.0
      ensures g[0].bbox.y0 <= c.bbox.y0
    {
      TitleGroupTop(cs, c);
    }
    forall j | 1 <= j < |g|
      ensures 0.0 <= g[j].bbox.y0 - g[j - 1].bbox.y0 < 20.0
    {
      TitleGroupStep(cs, j);
    }
  }

  /** extract_title_comprehensive (main.py:29-112) with the decoder's output
      passed in. No page, or no candidate on the first page, gives the empty
      title; otherwise the title group is read left to right, joined with
      single spaces and cleaned. */
  function ExtractTitle(doc: Document): (r: String)
    ensures doc.pages == [] ==> r == []
    ensures doc.pages != [] && TitleCandidates(doc.pages[0]) == [] ==> r == []
    ensures NoDoubleSpace(r) && OnlyPlainSpaces(r)
    ensures r == [] || !IsSpace(r[0])
  {
    if doc.pages == [] then []
    else
      var cs := TitleCandidates(doc.pages[0]);
      if cs == [] then []
      else CleanTitle(JoinSpace(CandidateTexts(SortBy(TitleGroup(cs), X0Key))))
  }

  /** Reading the title group left to right keeps its members: the parts
      joined into the title are the group's texts reordered by x0, stably. */
  lemma TitleReadsGroupLeftToRight(doc: Document) returns (parts: seq<Candidate>)
    requires doc.pages != [] && TitleCandidates(doc.pages[0]) != []
    ensures var g := TitleGroup(TitleCandidates(doc.pages[0]));
            && multiset(parts) == multiset(g)
            && SortedBy(parts, X0Key)
            && (forall k :: Select(parts, X0Key, k) == Select(g, X0Key, k))
    ensures ExtractTitle(doc) == CleanTitle(JoinSpace(CandidateTexts(parts)))
  {
    parts := SortBy(TitleGroup(TitleCandidates(doc.pages[0])), X0Key);
  }
}
